=== FILE: README.md ===
# doom-cli, modelled in Dafny

This project is a Dafny model of the core of doom-cli, a command-line launcher for
Doom source ports. The model covers the following parts:

- **File scoring** (`src/score.rs`). A walked entry gets a score against a file name
  the user typed.
- **File search.** A name is resolved against ordered search roots. There are two
  variants:
  - the keep-best search of `src/search.rs`, which returns at most one path;
  - the sorted search inside `src/main.rs`, which returns every candidate of the first
    productive root, best first.
- **Command lines** (`src/cmd.rs`): lines of words, where only the first word of a line
  is indented.
- **Engine registries**:
  - the alias map of `src/engine_manager/alias_map.rs`;
  - the registry built from the engines file in `src/engine_manager.rs`;
  - `KnownEngines` and the engine-node reader of `src/engine.rs`.
- **PWAD lists** (`src/pwads.rs`): two append-only lists.
- **Path helpers** (`src/util.rs`).
- **Launch decisions in `run`** (`src/main.rs`):
  - the Doom and demo directories;
  - `run_doom`;
  - the IWAD fallback;
  - the PWAD classification;
  - the option flags;
  - the video dump directory.
- **The render batch** (`src/render.rs`, and its copy at the end of `run`):
  - job collection;
  - the Ctrl-C handler;
  - the queue loop that launches one Doom process per job.

The modules follow the program's files:

| module | file | models |
|---|---|---|
| `Score` | `score.dfy` | `src/score.rs` |
| `Search` | `search.dfy` | `src/search.rs` |
| `SortedSearch` | `sorted_search.dfy` | the search copy in `src/main.rs` |
| `Cmd` | `cmd.dfy` | `src/cmd.rs` |
| `AliasMaps` | `alias_map.dfy` | `src/engine_manager/alias_map.rs` |
| `EngineManager` | `engine_manager.dfy` | `src/engine_manager.rs` |
| `DoomEngines` | `engine.dfy` | `src/engine.rs` |
| `PwadLists` | `pwads.dfy` | `src/pwads.rs` |
| `Util` | `util.dfy` | `src/util.rs` |
| `Launch` | `launch.dfy` | the decisions of `run` and `run_doom` in `src/main.rs` |
| `Render` | `render.dfy` | `src/render.rs` and the render path of `run` |

Four modules support the others:

- `Paths` models `PathBuf` as its start plus components, with file name, stem,
  extension, parent, ancestors and join. The start is the root, a leading `.` (Rust's
  `CurDir`, which `Path::components` keeps in front of a relative path), or neither.
- `Text` models the string operations the program uses: ASCII case folding, trimming,
  splitting and joining.
- `Errors` is the error enum at the end of `src/main.rs`.
- `Wrappers` holds `Option` and `Result`.

The program's state and loops take the following form in the model:

- **Mutated objects are classes.** These are `AliasMap`, `Engines`, `Pwads`,
  `CommandLine` and `LineIterator`. The render flags and the job channel are the
  `Signals` class.
- **Loops are methods.** Each is proved equal to a specification function, and the
  source's promises are lemmas about that function. The loops are:
  - the walk loops of both searches;
  - the IWAD loop;
  - the PWAD classification loop;
  - `KnownEngines::new`;
  - `read_from_file`;
  - the engine-node loop;
  - `indent_word`;
  - the render queue loop.
- **Everything outside the program is an input:**
  - the directory walk: a sequence of entries and walk failures per root;
  - path normalisation;
  - the Doom directory;
  - which files exist;
  - what spawning Doom returns;
  - what the prompts return.
- **The render loop is sequential.** Each turn carries:
  - the operator's replies to the interrupts of the first prompt or of the ten-second
    cooldown (`interrupts`);
  - the replies to the interrupts that arrive while the turn waits on the resume
    channel (`waiting`);
  - the first prompt's outcome and the spawn outcome.

  The loop is the function `Render.Run`. The method `Render.BatchRender` runs it turn by
  turn on a `Signals` object. After the cooldown, a turn that finds `PAUSED` set calls
  `recv` (`Render.Gate`):
  - a resume signal still pending from the cooldown is taken at once, and the `waiting`
    replies play no part;
  - with none pending, the `waiting` replies are handled in order until one sends a
    resume signal, which `recv` takes (`Render.Wait`). The replies after it play no part;
  - when none of them sends one, the turn ends `Blocked`: the loop waits for good.
- **The handler and the launcher are loop parameters.** The program's own are
  `Render.CancellableHandler` and `Render.DoomLauncher`.
  - `render.rs` resolves demos with the keep-best search (`Render.KeepBestResolver`).
  - The copy in `main.rs` uses the sorted search (`Render.SortedResolver`).

### Behaviour worth noting

- **The ancestor bonus.** The +20 bonus depends on `ancestors_eq`. That is itertools'
  `all_equal` over the *zipped pairs* (query ancestor, entry ancestor), so it asks
  whether all pairs equal each other.
  - It is always true for a bare name, which has one pair (`Score.AtMostOnePairAncestorsEq`).
  - It is never true for a nested query such as `iwad/doom2`, or a query with a leading
    `./` such as `./doom2`, against an entry two or more levels deep
    (`Score.NestedQueryNeverAncestorsEq`). The query `./doom2` has the ancestors `.` and
    the empty path, where `doom2` has only the empty path (`Score.LeadingDotAncestors`).
- **A blank or failed Ctrl-C reply.** The handler returns early with `PAUSED` still set
  and sends no resume signal. When the loop then sees `PAUSED`, it waits on the resume
  channel. The batch goes on only if a later interrupt, in the same cooldown
  (`Render.LaterReplyResumes`) or during the wait (`Render.WaitReplyResumes`), gets a
  non-blank reply, whose handler sends the signal. Otherwise the turn ends `Blocked`
  (`Render.BlankReplyBlocks`). A signal that ends a wait is taken by that wait, so the
  next cooldown's blank reply blocks again (`Render.NoStaleResume`). A signal sent
  during the cooldown while the queue is not paused stays pending. A later turn whose
  cooldown leaves the queue paused takes it without waiting.
- **Two search variants.** The code searches in two different ways:
  - `src/search.rs` keeps only the first strictly-best entry. It skips permission and
    not-found walk errors, and it scores directories (halved).
  - The copy in `src/main.rs` skips directories and keeps every entry scoring above 1.
    Any walk error stops it. It orders the results by an ascending stable sort and then
    a reverse, so ties come out in reverse walk order, not in walk order
    (`SortedSearch.RankedOrder`).
- **A demo stem that is not UTF-8.** During job collection a stem that is not text hits
  an `unwrap` and panics (`Render.JobFor`). In the Ctrl-C handler the same stem is sent
  as a `NonUtf8Path` error, and sending goes on with the next demo
  (`Render.SendJobsExactly`).

## Model

| member | source | states |
|---|---|---|
| Score.ScoreEntry | src/score.rs:7-58 | The result is an error exactly when the entry has no file stem, and the error is `NoFileStem` with the entry's path. Otherwise the score has three parts: the weights of the three matches (the subtotal), halved by integer division for a directory, plus 20 exactly when the stems match case-insensitively and `ancestors_eq` holds. |
| Score.ExactStemMatchIsStemMatch | src/score.rs:19-22 | An exact-case stem match implies the case-insensitive one. |
| Score.NoStemMatchScoresAtMostOne | src/score.rs:30-48 | When the stems differ case-insensitively, the score is at most 1. |
| Score.FileScoreLowerBounds | src/score.rs:30-48 | For a file: a case-insensitive stem match scores at least 2, and an exact match at least 7. With a matching extension, these rise to 13 and 23. |
| Score.DirectoryHalvedBeforeBonus | src/score.rs:49-56 | A directory scores the halved file subtotal plus the unhalved ancestor bonus. The bonus is added after halving. |
| Score.ExtensionlessQueryNotDownRanked | src/score.rs:23-48 | A query without an extension matches every extension, so it never scores lower than the same query with one. |
| Score.AncestorsEqIsPairsAllEqual | src/score.rs:26-29 | `ancestors_eq` holds if and only if all zipped (query ancestor, entry ancestor) pairs are equal to one another. |
| Score.AtMostOnePairAncestorsEq | src/score.rs:26-29 | When the query or the entry has at most one proper ancestor, `ancestors_eq` holds. |
| Score.NestedQueryNeverAncestorsEq | src/score.rs:26-29 | When both the query and the entry have two or more proper ancestors (a nested query, or one with a leading `./`), `ancestors_eq` fails. |
| Score.LeadingDotAncestors | src/search.rs:69-73 | A bare name's only proper ancestor is the empty path; behind `./` its ancestors are `.` and then the empty path. |
| Text.EqIgnoreAsciiCaseIsLoweredEquality | src/score.rs:19-21 | Case-insensitive stem equality is equality after ASCII lower-casing. |
| Util.FixSlashes | src/util.rs:9-26 | Keeps the length, replaces every '/' by '\\', keeps every other unit, and leaves no '/'. |
| Util.FixSlashesIdempotent | src/util.rs:17-23 | Applying `fix_slashes` twice equals applying it once. |
| Util.AbsolutePath | src/util.rs:28-39 | An absolute path is returned unchanged. A relative one is joined onto the Doom directory and normalised; errors from the Doom directory and from normalisation are passed on. |
| Util.AbsolutePathText | src/util.rs:28-46 | Off Windows an absolute path comes back as it is rendered. On Windows a successful result holds no '/'. It fails exactly when `absolute_path` fails. |
| PwadLists.Pwads.constructor | src/pwads.rs:10-15 | Both lists start empty. |
| PwadLists.Pwads.AddWads | src/pwads.rs:17-19 | Appends all the paths to `wads` in order; `dehs` is unchanged. |
| PwadLists.Pwads.AddWad | src/pwads.rs:21-23 | Appends exactly one path to `wads`; `dehs` is unchanged. |
| PwadLists.Pwads.AddDehs | src/pwads.rs:25-27 | Appends all the paths to `dehs` in order; `wads` is unchanged. |
| PwadLists.Pwads.AddDeh | src/pwads.rs:29-31 | Appends exactly one path to `dehs`; `wads` is unchanged. |
| PwadLists.Pwads.Wads | src/pwads.rs:33-35 | Returns the current `wads`. |
| PwadLists.Pwads.Dehs | src/pwads.rs:37-39 | Returns the current `dehs`. |
| Cmd.Spaces | src/cmd.rs:35-37 | n spaces. |
| Cmd.Indented | src/cmd.rs:29-40 | The indented word has length 4·depth + |word|: 4·depth spaces followed by the word. |
| Cmd.IndentWord | src/cmd.rs:32-40 | The loop that pushes spaces and then the word builds exactly the indented word. |
| Cmd.TrimIndented | src/main.rs:341-350 | Trimming an indented word gives the trimmed word, so `run_doom` never sees the indentation. |
| Cmd.FromWords | src/cmd.rs:42-52 | Same word count. Only the first word is indented, the others are kept verbatim, and an empty input gives an empty line. |
| Cmd.FromWord | src/cmd.rs:54-58 | Exactly one word: the indented word. |
| Cmd.FromWordIsFromWords | src/cmd.rs:42-58 | `from_word(w, d)` equals `from_words([w], d)`. |
| Cmd.FromWordsTrimmed | src/cmd.rs:42-52 | After trimming, every word of the line equals the input word at the same position. |
| Cmd.WordsAppend | src/cmd.rs:20-22 | The words of two groups of lines are the first group's words followed by the second's. |
| Cmd.WordsLength | src/cmd.rs:20-22 | The number of words is the sum of the lines' word counts. |
| Cmd.CommandLine.constructor | src/cmd.rs:12-14 | A new command line has no lines. |
| Cmd.CommandLine.PushLine | src/cmd.rs:16-18 | Appends the line and leaves earlier lines unchanged. The words grow by that line's words. |
| Cmd.CommandLine.IterWords | src/cmd.rs:20-22 | Every line's words, concatenated in line order. |
| Cmd.CommandLine.IterLines | src/cmd.rs:24-26 | The lines in order. |
| Cmd.CommandLine.Clone | src/cmd.rs:1-4 | A fresh command line with the same lines. |
| Cmd.LineIterator.constructor | src/cmd.rs:60-65 | `Line::iter` starts at index 0 over the line. |
| Cmd.LineIterator.Next | src/cmd.rs:91-95 | Returns `words[index]`, or None past the end, and always increments the index. |
| Cmd.LineIterator.Nth | src/cmd.rs:76-78 | Returns `words[n]` counted from the start, whatever the index, or None when n is out of range. |
| Cmd.LineIterator.Fold | src/cmd.rs:80-89 | Folds f over the words not yet yielded, in order. |
| Cmd.FoldCollects | src/cmd.rs:80-89 | Folding with push collects the words in order. |
| AliasMaps.AliasMap.constructor | src/engine_manager/alias_map.rs:17-22 | A new map has no keys and no values, and it satisfies the index invariant. |
| AliasMaps.AliasMap.WithCapacities | src/engine_manager/alias_map.rs:24-29 | Capacities change nothing: the map is empty. |
| AliasMaps.AliasMap.Insert | src/engine_manager/alias_map.rs:31-36 | The data grows by one, with the value at the new last index. The key is bound to that index, earlier values are unchanged, other keys resolve as before, and the invariant is kept. |
| AliasMaps.AliasMap.Alias | src/engine_manager/alias_map.rs:38-49 | For an unknown previous key: the error "Previous key does not exist." and the map unchanged. Otherwise the new key is bound (or rebound) to the previous key's index, so `get(new) == get(previous)`, and other keys are unaffected. |
| AliasMaps.AliasMap.Get | src/engine_manager/alias_map.rs:51-57 | Some exactly for bound keys, holding `data[aliases[key]]`. The invariant (every index is below `data.len()`) means it never indexes out of range. |
| AliasMaps.EmptyMapBindsNothing | src/engine_manager/alias_map.rs:64-68 | A fresh map returns None for "test". |
| AliasMaps.InsertedKeyRetrieved | src/engine_manager/alias_map.rs:70-76 | After inserting ("test", 0), "test" gives Some(0) and "set" gives None. |
| AliasMaps.AliasRetrievesSameValue | src/engine_manager/alias_map.rs:78-84 | After aliasing "set" to "test", both give the same value. |
| AliasMaps.LastNaming | src/engine.rs:87-92 | The last entry whose names include the key, or None when no entry names it. |
| AliasMaps.LastNamingExtend | src/engine.rs:87-92 | A new last entry takes over exactly the names it carries; other names keep their entry. |
| AliasMaps.BindsNewEntry | src/engine.rs:88-89 | Binding a new entry's name to its index keeps the last-naming invariant. |
| AliasMaps.BindsMoreNames | src/engine.rs:90-92 | Binding one more alias of the last entry keeps the last-naming invariant. |
| DoomEngines.Default | src/engine.rs:54-63 | Binary "/bin/true", kind Vanilla, no widescreen support, no aliases, no required arguments. |
| DoomEngines.ParseKind | src/engine.rs:157-171 | Exactly "Vanilla", "MBF", "Boom", "ZDoom" and "Eternity" map to a kind, and to the kind of that name; any other string maps to nothing, which the node reader turns into a panic. |
| DoomEngines.ParseKindName | src/engine.rs:157-171 | Every kind's name maps back to that kind. |
| DoomEngines.ReadEngine | src/engine.rs:141-188 | The node loop gives the default engine updated by each node in order, or the panic of the first node that has no value or an unknown kind. |
| DoomEngines.AliasesAccumulate | src/engine.rs:144-146 | The aliases of the engine read are the values of all `aliases` nodes, appended in order. |
| DoomEngines.NodeAddsAliases | src/engine.rs:143-187 | Only an `aliases` node changes the aliases, and it appends its values. |
| DoomEngines.UnknownNodesIgnored | src/engine.rs:186 | Nodes with other names do not change the result. |
| DoomEngines.WidescreenFromLastNode | src/engine.rs:173-181 | Widescreen support is true if and only if the first value of the last `supports_widescreen_assets` node is the string "true". |
| DoomEngines.WidescreenUnchanged | src/engine.rs:173-181 | Without such a node, the default (false) stays. |
| DoomEngines.New | src/engine.rs:84-96 | The engine at index i is the i-th input engine. Each name and each alias is bound to the index of the last engine carrying it, so a later insertion overwrites an earlier one. |
| DoomEngines.BindEntry | src/engine.rs:87-94 | One turn of the loop in `new`: the entry's name and then each of its aliases are bound to its index, so every name stays bound to the last entry carrying it. |
| DoomEngines.BindAliases | src/engine.rs:90-92 | The inner loop binds every alias of the current engine to its index and keeps the last-naming invariant. |
| DoomEngines.Get | src/engine.rs:98-101 | `engines[alias_map[name]]`, or None when the name is absent. |
| DoomEngines.GetAfterNew | src/engine.rs:84-101 | After `new`, `get(name)` is None if and only if no engine carries the name. Otherwise it is the last engine that carries the name as key or alias. |
| DoomEngines.AllAliases | src/engine.rs:103-113 | A string occurs in the flattened list exactly when some engine lists it as an alias. Names that are only keys never occur. |
| DoomEngines.AllAliasesAppend | src/engine.rs:106-110 | The flattening of two engine lists is the flattening of the first followed by that of the second. |
| DoomEngines.AllAliasesSingle | src/engine.rs:109-110 | One engine contributes exactly its own aliases, in order. With `AllAliasesAppend` this fixes the whole list: each engine's aliases in engine order, duplicates kept. |
| DoomEngines.AllAliasesFirst | src/engine.rs:103-113 | The flattened list is empty exactly when no engine has an alias. Otherwise its first element is the first alias of the first engine that has one. |
| DoomEngines.Iter | src/engine.rs:103-113 | `iter` yields exactly the engines' aliases, never their names. It is empty exactly when no engine has an alias, and otherwise starts with the first alias of the first engine that has one. |
| EngineManager.FromRaw | src/engine_manager.rs:60-67 | The path and kind are kept. Widescreen support is true only when given as true, and missing required arguments default to empty. |
| EngineManager.Resolve | src/engine_manager.rs:56-72 | A name reaches nothing if and only if no entry has it as key or alias. |
| EngineManager.NamesReachTheirEntry | src/engine_manager.rs:56-72 | Every key and alias reaches the engine of its entry, unless a later entry takes the name over. |
| EngineManager.Engines.ReadFromFile | src/engine_manager.rs:49-75 | `first` is the first key in order, or None without entries, and it is never changed afterwards. Every name resolves as `Resolve` says; each `alias` call succeeds because its key was inserted just before. |
| EngineManager.Engines.Load | src/engine_manager.rs:52-72 | The loop of `read_from_file` builds a fresh valid map holding one converted engine per entry, in order. `first` is the first key, or None without entries. Every name is bound to the last entry that carries it. |
| EngineManager.Engines.Register | src/engine_manager.rs:60-71 | One entry: its engine is appended to the data, and its key and then its aliases are bound to it, keeping the last-naming invariant. |
| EngineManager.Engines.BindAliases | src/engine_manager.rs:69-71 | The alias loop of one entry leaves the data unchanged and binds each alias, in order, to the entry's key. |
| EngineManager.Engines.BindAlias | src/engine_manager.rs:70 | One `alias` call succeeds, because its key was inserted before. It leaves the data unchanged and binds the alias to the current entry. |
| EngineManager.Engines.First | src/engine_manager.rs:77-79 | Some if and only if there is a first key, and then it equals `get(first)`. |
| EngineManager.Engines.Get | src/engine_manager.rs:81-83 | Delegates to the alias map: Some exactly for the registered names. |
| Paths.ToStr | src/render.rs:177-179 | `to_str` succeeds exactly when the rendered path is text, and returns it. |
| Paths.ParseStart | src/search.rs:30 | The parsed name starts at the root exactly when its text starts with '/', and at `.` (`CurDir`) exactly when its text is `.` or starts with `./`. |
| Paths.ParseRender | src/main.rs:331-334 | Parsing a rendered path gives the path back, so the binary word of the command line names the engine binary. |
| Paths.StemAndExtension | src/score.rs:15-18 | There is a stem exactly when there is a file name. The stem and the extension, joined by a dot, are the file name, and the extension has no dot. |
| Paths.Parent | src/search.rs:47-48 | `pop` drops the last component and keeps the start. A lone `.` pops to the empty path. The root and the empty path stay. |
| Paths.AncestorsAreParents | src/search.rs:69-73 | The skipped ancestors are the successive parents. The last of them is the root or the empty path, which has no parent. |
| Paths.Joined | src/util.rs:33-36 | Joining an absolute path replaces. Joining a relative path appends its components and keeps the start, except onto the empty path, which gives the joined path. |
| Paths.JoinedName | src/main.rs:115 | Joining a component gives a path whose file name is that component and whose parent is the directory. |
| Text.TrimStart | src/main.rs:343 | A suffix of the input that does not start with whitespace. |
| Text.TrimEnd | src/main.rs:343 | A prefix of the input that does not end with whitespace. |
| Text.TrimStartDropsBlank | src/main.rs:343 | What `trim_start` removes is all whitespace. |
| Text.TrimEndDropsBlank | src/main.rs:343 | What `trim_end` removes is all whitespace. |
| Text.TrimmedInfix | src/main.rs:343 | The trimmed word is a contiguous part of the word. |
| Text.TrimmedEnds | src/main.rs:343 | A non-empty trimmed word starts and ends without whitespace. |
| Text.TrimEmptyIffBlank | src/main.rs:343-348 | The trimmed word is empty if and only if the word is all whitespace. |
| Text.Split | src/main.rs:598 | At least one part, and no part contains the separator. |
| Text.JoinSplit | src/main.rs:736-745 | Joining the parts of a split with the separator restores the input. |
| Text.SplitJoin | src/main.rs:765-768 | Splitting a join of separator-free parts restores the parts. |
| Text.SplitWhitespace | src/render.rs:98-104 | The words are non-empty and contain no whitespace. |
| Text.SplitWhitespaceEmptyIffBlank | src/render.rs:98-101 | There are no words if and only if the reply is blank. |
| Search.SearchDirs | src/main.rs:97-103 | The Doom directory, then "/public/doom"; an error from the Doom directory is passed on. |
| Search.EntryExtension | src/search.rs:103-112 | "" without an extension, the extension when it is text, and `NonUtf8Path` with the entry's path otherwise. |
| Search.ScanBestFrom | src/search.rs:83-125 | Scanning the rest of the walk keeps the best-so-far invariant: the result is the best of the whole walk, or the error of its first failing score. |
| Search.ScanBestIsBest | src/search.rs:83-125 | The walk keeps the first entry with the greatest score above 1 among the accepted entries before the first fatal walk error. If no such entry exists it keeps none. A score error aborts with that error. |
| Search.BestOfUnique | src/search.rs:116-124 | The best entry of a walk is unique, because ties keep the earliest entry. |
| Search.ScanBestIffBestOf | src/search.rs:83-125 | The scan returns b if and only if b is the best entry of the walk. |
| Search.RejectedEntriesNeverScored | src/search.rs:99-101 | Replacing one entry the predicate rejects by another rejected entry leaves the result unchanged, so rejected entries are never scored. |
| Search.BestOfUpToFatal | src/search.rs:86-96 | Nothing after a fatal walk error counts, while results already found are kept. |
| Search.BestOfSkip | src/search.rs:86-101 | Skippable walk errors and rejected entries leave the best unchanged. |
| Search.BestOfScored | src/search.rs:114-124 | A scored entry replaces the best only when its score exceeds 1 and is strictly greater than the best's. |
| Search.SearchIn | src/search.rs:58-140 | A successful search holds exactly one path. |
| Search.Search | src/search.rs:41-57 | Always at most one path. A relative name is searched in the roots in order. An absolute name is searched as its stem (extension dropped) in its parent directory only, and without a stem the result is `NoFileStem`. |
| Search.ScanWalk | src/search.rs:81-125 | The walk loop, with `results` cleared and refilled, computes the scan. |
| Search.ScanItem | src/search.rs:84-124 | One item of the walk loop: a stop ends the scan with the current result; otherwise the scan goes on with the updated best. |
| Search.ScanFailure | src/search.rs:84-96 | Permission-denied and not-found walk errors are skipped; any other walk error stops the walk with the best found so far. |
| Search.ScanVisit | src/search.rs:99-124 | Rejected entries are passed over. An accepted entry is scored, and its score error aborts the search. |
| Search.ScoreWalked | src/search.rs:103-115 | Computes the entry's extension and score as the scan does. |
| Search.SearchFileInDirsBy | src/search.rs:41-142 | The method, with its loop over the roots and the walk loop, returns exactly the search function's result. |
| Search.SearchInFirstProductiveRoot | src/search.rs:58-138 | A found path comes from the first root whose scan keeps a candidate, and every earlier root kept none. |
| Search.LaterRootsNotConsulted | src/search.rs:127-138 | Once a root is productive, adding more roots after it changes nothing. |
| Search.NoProductiveRootNotFound | src/search.rs:58-140 | When no root yields anything, including when there are no roots, the result is `FileNotFound` with the name. |
| Search.FirstOfEach | src/search.rs:14-26 | Succeeds if and only if every name's search succeeds. Then the result holds, in input order, the first path found for each name. On failure the error is that of the first name whose search fails. |
| Search.SearchFiles | src/search.rs:13-27 | On success, one path per name, in input order, each the single result of that name's search with the PWAD predicate. Without a Doom directory (and with names), its error. With one, it succeeds exactly when every name's search in the Doom directory and "/public/doom" succeeds, and a failure is the error of the first name that fails. |
| Search.SearchFile | src/search.rs:29-31 | At most one path. Without a Doom directory, its error. With one, exactly `Search` of the name in the Doom directory and then "/public/doom", accepting every entry. |
| Search.SearchFileBy | src/search.rs:33-39 | At most one path. Without a Doom directory, its error. With one, exactly `Search` of the name in the Doom directory and then "/public/doom" with the caller's predicate. |
| SortedSearch.InlineScoreIsFileScore | src/main.rs:245-282 | The inline scoring equals `score_entry` for a file. |
| SortedSearch.CollectKeepsExactly | src/main.rs:217-289 | Every reached entry is scored. Exactly the reached entries scoring above 1 are kept, with their scores. |
| SortedSearch.InsertByScoreSorted | src/main.rs:294 | Inserting into an ascending list keeps it ascending and adds exactly the one element. |
| SortedSearch.SortByScoreSorted | src/main.rs:294 | The sort is ascending by score and a permutation. |
| SortedSearch.SortByScoreStable | src/main.rs:294 | The sort is stable: entries of equal score keep their order. |
| SortedSearch.Reverse | src/main.rs:296 | Element i is element n-1-i of the input. |
| SortedSearch.ReverseMultiset | src/main.rs:296 | Reversing is a permutation. |
| SortedSearch.WithScoreReverse | src/main.rs:296 | Reversing reverses each group of equal score. |
| SortedSearch.RankedOrder | src/main.rs:291-297 | The results are a permutation of the candidates, in non-increasing score order, with ties in reverse walk order. |
| SortedSearch.SortedSearchIn | src/main.rs:192-309 | A successful search holds at least one path. |
| SortedSearch.SortedSearch | src/main.rs:175-191 | At least one path. A relative name is searched in the roots. An absolute name is searched as its stem in its parent only, and without a stem the result is `NoFileStem`. |
| SortedSearch.CollectWalk | src/main.rs:215-289 | The walk loop computes the collected candidates: directories are skipped, and any walk error stops the walk. |
| SortedSearch.SearchFileInDirsBy | src/main.rs:175-311 | The method returns exactly the search function's result. |
| SortedSearch.SortedSearchInAccepted | src/main.rs:230-232 | Every path returned passes the predicate. |
| SortedSearch.SortedSearchAccepted | src/main.rs:175-191 | Every path returned passes the predicate, for absolute names too. |
| SortedSearch.SearchFiles | src/main.rs:147-161 | On success, one path per name, in input order, each the first result of that name's search with the PWAD-extension predicate. Without a Doom directory (and with names), its error. With one, it succeeds exactly when every name's search succeeds, and a failure is the error of the first name that fails. |
| SortedSearch.SearchFile | src/main.rs:163-165 | The search of the name in the Doom directory and then "/public/doom", accepting everything. |
| SortedSearch.SearchFileBy | src/main.rs:167-173 | The search with the given predicate in the same roots. |
| Launch.DoomDir | src/main.rs:111-117 | The custom directory when set. Otherwise `doom` under the home directory, or `Homeless` without one. |
| Launch.DemoDir | src/main.rs:123-125 | `demo` inside the Doom directory; its error is passed on. |
| Launch.KeepTrimmed | src/main.rs:341-350 | At most as many arguments as words, each trimmed and not blank. |
| Launch.TrimmedWord | src/main.rs:342-349 | A word gives at most one argument, which is trimmed and not blank. |
| Launch.KeepTrimmedKeepsAll | src/main.rs:341-350 | Every word is kept if and only if no word is blank. |
| Launch.NoBlankWhenAllKept | src/main.rs:341-350 | If every word is kept, none was blank. |
| Launch.AllKeptWhenNoBlank | src/main.rs:341-350 | If no word is blank, every word is kept. |
| Launch.KeepTrimmedClean | src/main.rs:341-350 | Words that are already trimmed and non-empty pass unchanged. |
| Launch.KeepTrimmedAppend | src/main.rs:341-350 | The filter works word by word, so order is preserved. |
| Launch.LaunchIgnoresIndentation | src/main.rs:341-350 | A line's indentation never reaches the arguments. |
| Launch.ArgsOfAppend | src/main.rs:341-350 | The arguments of a command line are those of its lines in order. |
| Launch.ArgsOfLine | src/main.rs:341-350 | One line's arguments are its words, trimmed, with blank ones dropped. |
| Launch.RunDoom | src/main.rs:331-357 | An empty command line panics. A missing binary gives `FileNotFound` before any launch, and a spawn error gives `RunningDoom`. Otherwise Doom is launched with the trimmed non-blank arguments in order, in the binary's parent directory. |
| Launch.RunDoomArgs | src/main.rs:331-357 | With the binary on the first line, the launch has that binary and the arguments of the remaining lines. |
| Launch.EngineName | src/main.rs:488-493 | The engine named with `--engine`. Without one, the first alias the known engines list, and `NoEngines` exactly when no engine has an alias. |
| Launch.DefaultEngine | src/main.rs:489-493 | Without `--engine`, the engine name is the first alias of the first engine that has one. |
| Launch.SelectEngine | src/main.rs:488-497 | `NoEngines` when no name is found. Otherwise an unknown name makes the program exit with -1, and a known one gives the engine it is bound to. |
| Launch.IwadCandidates | src/main.rs:499-508 | The requested IWAD alone, or DOOM2.WAD, DOOM.WAD, DOOMU.WAD, DOOM1.WAD in that order. |
| Launch.FirstIwad | src/main.rs:509-526 | A hit holds at least one path. |
| Launch.FirstIwadIsFirstHit | src/main.rs:509-526 | The answer comes from the first name that does not miss: its paths, or its error when that error is not `FileNotFound`. The result is None exactly when every name misses. |
| Launch.IwadPath | src/main.rs:509-532 | Exit -1 when no IWAD is found. A search error is passed on. Otherwise the first path found, made absolute. |
| Launch.FindIwad | src/main.rs:499-532 | The IWAD loop returns exactly the IWAD path. |
| Launch.PwadArgFile | src/main.rs:599-607 | A path the PWAD search accepts has a text extension whose lower-cased form is a WAD or a patch extension, so the classification `match` covers it. |
| Launch.ClassifyPwad | src/main.rs:626-640 | Classification succeeds exactly for the files the PWAD search predicate accepts. It panics (`unreachable!`) only for a text extension outside the search's list. |
| Launch.ClassifyPwadSpec | src/main.rs:625-640 | deh/bex (lower-cased) go to `dehs`. No extension gives `NoFileExtension`, and an extension that is not text gives `NonUtf8Path`. |
| Launch.ClassifyAll | src/main.rs:625-640 | Each path goes to at most one list, and, when no path fails, to exactly one. |
| Launch.OfClass | src/main.rs:625-640 | The paths of one class, in input order: never more than the input. |
| Launch.OfClassSnoc | src/main.rs:625-640 | One more classified path is appended to the list of its class and to no other. |
| Launch.ClassifyAllSorts | src/main.rs:625-640 | Classification succeeds if and only if every path is accepted. Then the archives and the patches are each kept in input order. |
| Launch.ClassifyAllStops | src/main.rs:625-640 | At the first unaccepted path the loop stops with its error. The paths before it are already added. |
| Launch.OfClassPartition | src/main.rs:625-640 | For accepted paths, `wads` and `dehs` together are a permutation of the input. |
| Launch.ClassifiedPartition | src/main.rs:625-640 | When every path classifies, the two lists partition the input. |
| Launch.AddArgPwad | src/main.rs:626-639 | One path is classified and appended to exactly one list, or to neither on an error. |
| Launch.AddArgPwads | src/main.rs:625-640 | The loop appends the classified paths to `wads` and `dehs`, and returns the classification's error, if any. |
| Launch.StemsOf | src/main.rs:608-622 | Succeeds if and only if every path has a text stem, and then gives the stems in order. |
| Launch.ResolvePwadArgs | src/main.rs:596-624 | Without a Doom directory, its error. Every PWAD found passes the PWAD predicate. |
| Launch.ResolvedPwadsSort | src/main.rs:596-640 | The PWADs found always classify without error and are partitioned between `wads` and `dehs`. |
| Launch.IwadBase | src/main.rs:535-541 | The IWAD's file name when it is text. No file name gives `NoFileStem`, and a name that is not text gives `NonUtf8Path`. |
| Launch.DumpDirLayout | src/main.rs:765-768 | The dump directory is `<root>/Videos/<IWAD file name>/` followed by the components of the joined PWAD names. |
| Launch.DumpDirWithoutPwads | src/main.rs:765-768 | Without PWADs it is `<root>/Videos/<IWAD file name>`. |
| Launch.DumpDirNamesPwads | src/main.rs:765-768 | With PWADs, the last component splits on ',' back into the PWAD names. |
| Launch.SkillParam | src/main.rs:693-697 | Both words of the engine's skill pair are trimmed and non-empty, so they reach Doom unchanged. |
| Launch.SkillLines | src/main.rs:747-751 | At most one line, present exactly when a skill or a warp was given. |
| Launch.SkillArgs | src/main.rs:693-751 | An explicit skill gives [flag, skill], with the flag "+skill" for ZDoom and "-skill" otherwise. Without a skill, a warp adds ("+skill", "3") for ZDoom or ("-skill", "4") otherwise. Neither gives nothing. |
| Launch.WarpLines | src/main.rs:736-745 | One line exactly when a warp was given. |
| Launch.WarpArgs | src/main.rs:736-745 | "-warp" followed by the comma-separated parts, which join back to the warp value. |
| Launch.RecordPath | src/main.rs:699-705 | An absolute demo path is kept. A relative one goes under `demo` in the Doom directory, whose error is passed on. |
| Launch.RecordLines | src/main.rs:699-713 | Recording gives the record lines for the resolved path. Without recording, short tics gives "-shorttics", and otherwise nothing is added. |
| Launch.RecordingLines | src/main.rs:706-710 | Three lines, or two when short tics are asked for (no `-longtics`). |
| Launch.RecordingArgs | src/main.rs:706-710 | "-record", the path, then "-longtics" unless short tics. |
| Launch.ShortTicsArgs | src/main.rs:711-713 | Without recording, "-shorttics" exactly when short tics is set. |
| Launch.RecordFromToLines | src/main.rs:715-719 | Fewer than two values panic. |
| Launch.RecordFromToArgs | src/main.rs:715-719 | "-recordfromto" and the first two values. |
| Launch.SettingsLines | src/main.rs:677-691 | Four lines with pistol start, three without. |
| Launch.SettingsArgs | src/main.rs:677-691 | "-complevel" (default "9"), "-pistolstart" when set, "-vidmode" (default "GL") and "-geom" (default "2560x1440F"). |
| Launch.SwitchLines | src/main.rs:753-763 | One line per switch that is set. |
| Launch.SwitchArgs | src/main.rs:753-763 | "-nomonsters", "-fast" and "-respawn", each exactly when its switch is set, in that order. |
| Render.KeepBestResolver | src/render.rs:35 | A successful keep-best demo search yields exactly one path. |
| Render.SortedResolver | src/main.rs:774 | A successful sorted demo search yields at least one path, so the empty-result exit follows only a search that found nothing. |
| Render.DoomLauncher | src/render.rs:222 | With a successful spawn, `run_doom` on a render command line can fail only with `FileNotFound` for a missing binary. |
| Render.SpawnAfterChecks | src/main.rs:331-357 | `run_doom` checks the binary before spawning, so a missing binary gives its error even when spawning would fail. |
| Render.VideoName | src/render.rs:56-62 | For a non-empty stem without '/', the video lies directly in the dump directory and is named `<stem>.mp4`. |
| Render.JobFor | src/render.rs:45-75 | An error creating the dump directory is passed on. A demo without a stem gives `NoFileStem`, and a stem that is not text panics. Otherwise the job has the demo, its stem as name and its video. |
| Render.Renderings | src/main.rs:770-820 | No render option gives no jobs; otherwise the collected renderings. |
| Render.CollectJobs | src/render.rs:45-75 | On success, one job per demo. |
| Render.CollectTerms | src/render.rs:32-76 | On success, at least one job per term, since every term finds at least one demo. |
| Render.CollectRenderings | src/render.rs:28-77 | On success, at least one job: the ':' split gives at least one term. |
| Render.CollectJobsExactly | src/render.rs:45-76 | Succeeds if and only if every demo makes a job. Then there is one job per demo, in order. |
| Render.CollectTermsExactly | src/render.rs:32-76 | Succeeds if and only if every term resolves to at least one demo and every demo found makes a job. Then the jobs are those of the demos found, in term order. |
| Render.CollectTermsOk | src/render.rs:32-76 | The success condition alone. |
| Render.CollectTermsJobs | src/render.rs:32-76 | The jobs are those of the demos found, in order, each built by the job rule. |
| Render.CollectTermsDemos | src/render.rs:32-44 | The jobs' demos are the demos found, in term order. |
| Render.CollectTermsValid | src/render.rs:45-76 | Every job is the job of its own demo. |
| Render.CollectedJobsLayout | src/render.rs:45-75 | Each job's name is its demo's stem, as text, and its video is `<name>.mp4` in the dump directory. |
| Render.KeepBestOneJobPerTerm | src/render.rs:32-76 | With the keep-best search, the ':'-separated terms give one job each, in order, for the path found. |
| Render.ResolveAll | src/render.rs:102-105 | On success, all demos found, in word order. |
| Render.ResolveAllFails | src/render.rs:102-105 | Fails if and only if some word fails to resolve. |
| Render.NoJobWithoutEveryDemo | src/render.rs:102-147 | When any word fails, exactly one error is sent and no job. |
| Render.SendJobs | src/render.rs:106-137 | At most one message per demo. `Render.SendJobsExactly` gives the messages. |
| Render.SendJobsExactly | src/render.rs:106-146 | Sends one message for each demo before the first stemless one: its job when the stem is text, otherwise a `NonUtf8Path` error with the stem, and sending goes on. If some demo has no stem, one `NoFileStem` error follows for it, and nothing after it. |
| Render.SendJobsAll | src/render.rs:106-137 | When every demo has a text stem, one job per demo in order, named by the stem, with video `<stem>.mp4`. |
| Render.SendJobsStopsAtStemless | src/render.rs:106-137 | A demo without a stem sends its error last: sending stops there. |
| Render.ResolveAllFirstError | src/render.rs:102-105 | A failed resolution carries the error of the first word whose search fails, with every earlier word found. |
| Render.Dispatch | src/render.rs:102-146 | If every word's search succeeds, the messages are `SendJobs` of the demos found. Otherwise exactly one message is sent: the error of the first word whose search fails. |
| Render.Handle | src/render.rs:86-156 | Exits with 0 if and only if not cancellable. A resume signal is sent if and only if the pause is lifted, which happens exactly for a non-blank reply. A blank reply sends nothing, and a failed prompt sends only its I/O error. When it resumes, the messages sent are exactly those of `Dispatch` on the reply's words. |
| Render.CancellableHandler | src/render.rs:86-156 | While cancellable, the program's handler never exits: every reply is handled. |
| Render.React | src/render.rs:86-156 | The handler exits exactly when not cancellable. Otherwise it only appends to the job channel and never changes `CANCELLABLE`. |
| Render.Apply | src/render.rs:87-150 | The channel gets the messages sent, in order. The pause flag is the handler's, and the resume count grows exactly when a resume is sent. |
| Render.Cooldown | src/render.rs:210-212 | The interrupts of one cooldown are handled in order; `CANCELLABLE` is not changed by them. |
| Render.CooldownNeverExits | src/render.rs:87-155 | While cancellable, the program's handler never exits. |
| Render.Signals.constructor | src/render.rs:25-26 | Both flags start false, with an empty channel and no resume signals. |
| Render.Signals.Interrupt | src/render.rs:86-156 | One interrupt updates the shared state as the handler does, or changes nothing when the handler exits. |
| Render.Signals.Sleep | src/render.rs:210-212 | The cooldown's interrupts leave the shared state as `Cooldown` computes it. |
| Render.Signals.TakeJobs | src/render.rs:217-219 | The drain of the job channel, leaving the flags unchanged. |
| Render.Drain | src/render.rs:217-219 | The queue grows at its tail by the jobs received, which are also added to those arrived. |
| Render.DrainUpToFirstError | src/render.rs:217-219 | Up to the first error every job is appended in receipt order. That error aborts, and the messages after it stay in the channel. |
| Render.DrainArrivals | src/render.rs:217-219 | The jobs appended are exactly the messages before the first error, in receipt order. |
| Render.DrainFailure | src/render.rs:217-219 | The failure is the first error received, or none, and the rest of the channel is what follows it. |
| Render.FirstUnprintable | src/render.rs:161-169 | None exactly when every queued demo path is text. Otherwise a queued demo whose path is not text. |
| Render.UnprintableDemo | src/render.rs:161-169 | The queue-listing loop finds exactly that demo. |
| Render.Gate | src/render.rs:200-220 | The first turn's prompt and the later cooldowns. The loop continues only with `CANCELLABLE` false. The first turn never blocks. A later turn blocks if and only if the cooldown's interrupts, handled in order, leave `PAUSED` set with no resume signal pending, and no interrupt of the wait sends one. A later turn that continues has taken exactly one resume signal when `PAUSED` was set: a pending one if there was one, otherwise the one its wait received. When `PAUSED` was clear it takes none. Any other stop is a halt, never Done. The jobs taken and the launches are unchanged, and the FIFO order is kept. |
| Render.Wait | src/render.rs:213-215 | `recv` with no signal pending. It ends on the first interrupt of the wait whose handler sends a resume signal, and that signal is taken, so the resume count is unchanged. A wait that ends so is not paused. A wait that never ends stays paused. `CANCELLABLE` is unchanged and the channel only grows. With no interrupts, the loop just waits. |
| Render.Proceed | src/render.rs:216-219 | The end of a later turn's gate. `CANCELLABLE` is cleared and the pause flag and resume count are kept. The job channel is drained, growing the queue in FIFO order; a stop is a failure from the channel. |
| Render.PassGate | src/render.rs:200-220 | The method on the shared flags gives exactly the gate's outcome and leaves the flags as the gate says. |
| Render.Signals.Await | src/render.rs:213-215 | The wait's interrupts, handled one by one on the shared flags, leave them as `Wait` computes. The method reports whether a resume signal ended the wait. The program's handler never exits during a wait. |
| Render.Step | src/render.rs:159-225 | One turn removes the head of the queue. When it continues, it launches exactly one process, the launcher's for that job, and appends it to the launches. When it stops, nothing is launched. It never stops with Done. |
| Render.Launched | src/render.rs:223 | A turn that the gate stopped ends as the gate left it. Otherwise the launcher's halt stops the loop, or a failed spawn stops it with `RunningDoom`. Only when both succeed is the launch appended, with the rest of the state as the gate left it. |
| Render.Iterate | src/render.rs:160-222 | The method's turn equals `Step`, and its flags are those of the state reached. |
| Render.StepFifo | src/render.rs:172-218 | A turn keeps FIFO order: the jobs taken, followed by those queued, are the initial queue followed by the arrivals. |
| Render.StepLaunches | src/render.rs:172-222 | A turn keeps the i-th launch being the Doom run of the i-th job taken. |
| Render.Run | src/render.rs:159-226 | A run that ends with Done has an empty queue. |
| Render.RunDone | src/render.rs:159 | On an empty queue the loop ends with Done. |
| Render.RunFifo | src/render.rs:159-225 | Over the whole run, jobs leave the queue in FIFO order, arrivals included. |
| Render.RunLaunchesInOrder | src/render.rs:159-226 | Launches follow the order in which jobs are taken. A Done run ends with an empty queue and one launch per job taken. |
| Render.RunFlags | src/render.rs:200-226 | A run ends with `CANCELLABLE` set exactly when it is left waiting for a resume signal (Blocked), and a blocked run is paused with no resume pending. The result is Done only when the queue is empty. |
| Render.RenderArgs | src/render.rs:173-222 | The render launch has the base command's arguments followed by "-timedemo", the demo, "-viddump" and the video. |
| Render.RenderCommand | src/render.rs:173-191 | A fresh clone of the base command line plus the four job lines; the base is unchanged. A demo or video path that is not text fails with `NonUtf8Path` for the first such path. |
| Render.Spawn | src/render.rs:222 | The launch of a turn is `run_doom` on the command's words. |
| Render.BlankReplyBlocks | src/render.rs:210-215 | When the only interrupt of a cooldown gets a blank or failed reply and nothing interrupts the wait, `PAUSED` stays set and no resume signal is sent. The turn ends Blocked: the loop waits on the resume channel. |
| Render.LaterReplyResumes | src/render.rs:209-216 | A blank or failed reply followed, in the same cooldown, by a non-blank one does not block, whatever happens after the cooldown. The later reply unpauses the queue. |
| Render.ReplyResumes | src/render.rs:209-216 | A non-blank reply during the cooldown resumes the loop: the turn does not block, whatever happens after the cooldown. |
| Render.WaitReplyResumes | src/render.rs:209-216 | A blank reply during the cooldown, then a non-blank one while the loop waits on the resume channel: the turn does not block. If it goes on, the queue is not paused and no resume signal is left pending. |
| Render.NoStaleResume | src/render.rs:213-215 | After such a turn, a blank or failed reply in the next cooldown blocks the loop again: the signal that ended the wait was taken by it. |
| Render.RenderTurn | src/render.rs:159-225 | One iteration of the loop method keeps it on the path of `Run`, and the queue plus the channel shrink on quiet turns (termination). |
| Render.BatchRender | src/render.rs:79-227 | Without the signal handler, `SignalHandler` and no launch. Otherwise the loop ends as `Run` from the collected renderings does: the same outcome, the same launches and the same final flags. |
| Render.PlayLaunch | src/main.rs:828-843 | Without renderings, a prompt error is passed on, and otherwise Doom is launched once on the command line. With renderings, nothing is launched here. |
| Render.PlayLaunchArgs | src/main.rs:828-842 | The play launch has the engine binary and the arguments of the remaining lines. |

## Left out

- Directory walking, `is_dir`, `exists` and `create_dir_all` are inputs: each root's walk
  is a sequence of entries and walk failures. Path normalisation in `absolute_path` is
  an opaque function.
- Whether a path exists, and what `Command::status` returns, are inputs. A launch that
  happens is recorded as a `Launch` value. Exit codes are not interpreted.
- Concurrency is modelled as a sequence of turns:
  - the `ctrlc` registration, `AtomicBool` orderings, the `mpsc` channels and `sleep`
    are not modelled;
  - the flags and the channel contents are plain state;
  - a send on a channel always succeeds, so the `Send` error paths are not modelled;
  - `recv` on the resume channel never fails, since the handler keeps its sender for
    the whole run;
  - interrupts arrive during the first prompt, during a cooldown or during the wait on
    the resume channel;
  - an interrupt while Doom runs, or between two steps of a turn, is not modelled.
- Render.BatchRender: the handler and the launcher are parameters of the loop. The
  program's are `Render.CancellableHandler` and `Render.DoomLauncher`, which
  `BatchRender` requires.
- Configuration formats are not modelled:
  - KDL parsing in `read_known_engines`, where engine nodes are given already parsed,
    with their values as strings;
  - hjson in `read_from_file` and `create_template`;
  - RON and template creation in `src/autoload.rs`;
  - the TOML of `playdoom/`.
- HashMap iteration order is an input: the engine map is an ordered sequence.
- `src/job.rs` is not part of this model. A job is the triple of name, demo path and
  video path that the code builds.
- `PathBuf` is modelled by components:
  - rendering is canonical, so a doubled or trailing slash, or a `.` component after the
    start, is not kept in the text of the path;
  - a unit that is not valid UTF-8 is represented by U+FFFD, so a lossy conversion is
    the identity and `to_str` fails exactly on U+FFFD;
  - Windows prefixes and backslash separators are not modelled.
- Launch.ClassifyPwadSpec: `to_lowercase` is modelled as ASCII lower-casing. Unicode
  case mappings of extensions are not modelled.
- Launch.PwadArgFile: the same ASCII lower-casing stands for `to_lowercase`, so an
  extension that lower-cases into the list only through a Unicode mapping (`P\u{212A}3`,
  with a Kelvin sign, which Rust lowers to `pk3`) is rejected here and accepted by Rust.
- Launch.ClassifyPwad: the same ASCII lower-casing, so such an extension ends in the
  `unreachable!` panic here where Rust adds the file to the WADs.
- `DUMP_DIR` (via `findmnt`) is an input path. The Windows branch of `DUMP_DIR` is not
  modelled.
- Terminal UI is not modelled: dialoguer prompts (their outcomes are inputs),
  `select_between`, clap parsing, logging and `println!`.
- `-playdemo` is not modelled, because it depends on `select_between`'s interactive
  choice.
- The widescreen-assets lookup is not modelled. It is one `add_wads` of a search result,
  covered by `PwadLists.Pwads.AddWads`.
- The `-file`/`-deh` listing, `-iwad`, the debugger lines and the passthrough lines are
  not modelled as their own members. They are plain `push_line` calls, covered by
  `Cmd.CommandLine.PushLine` and `Launch.ArgsOfAppend`.
- Render.CollectTermsExactly: `exit(-1)` on a failed or empty demo search is modelled as
  a failed collection (`Halt`), not as a process exit with a message.
- Render.JobFor: the dump directory's creation is an input outcome. It is taken once
  per collection, where the code checks `exists` once per demo.

=== FILE: alias_map.dfy ===
/**
 * src/engine_manager/alias_map.rs: values stored once in a vector and reached through
 * any number of keys, each key bound to a value's index.
 */
module AliasMaps {
  import opened Wrappers

  /** The message `alias` fails with. */
  const PreviousKeyMissing: string := "Previous key does not exist."

  class AliasMap<K(==,!new), V> {
    var aliases: map<K, nat>
    var data: seq<V>

    /** Every bound index addresses a stored value, so a lookup never goes out of range. */
    ghost predicate Valid()
      reads this
    {
      forall k :: k in aliases ==> aliases[k] < |data|
    }

    /** `AliasMap::new`: no keys, no values. */
    constructor()
      ensures Valid() && aliases == map[] && data == []
    {
      aliases := map[];
      data := [];
    }

    /** `with_capacities`: the capacities only reserve room; the map starts empty. */
    constructor WithCapacities(keyCount: nat, valueCount: nat)
      ensures Valid() && aliases == map[] && data == []
    {
      aliases := map[];
      data := [];
    }

    /** `insert`: stores the value at a new last index and binds the key to it. */
    method Insert(key: K, value: V) returns (r: V)
      requires Valid()
      modifies this
      ensures Valid()
      ensures data == old(data) + [value] && aliases == old(aliases)[key := |old(data)|]
      ensures r == value
      ensures Get(key) == Some(value)
      ensures forall k :: k != key ==> Get(k) == old(Get(k))
    {
      var dataIndex := |data|;
      data := data + [value];
      aliases := aliases[key := dataIndex];
      r := data[dataIndex];
    }

    /** `alias`: binds `newKey` to the index of `previousKey`, replacing any binding it
        had; fails and changes nothing when `previousKey` is unbound. */
    method Alias(previousKey: K, newKey: K) returns (r: Result<(), string>)
      requires Valid()
      modifies this
      ensures Valid() && data == old(data)
      ensures previousKey !in old(aliases) ==> r == Err(PreviousKeyMissing) && aliases == old(aliases)
      ensures previousKey in old(aliases) ==>
        r == Ok(()) && aliases == old(aliases)[newKey := old(aliases)[previousKey]]
      ensures r.Ok? ==> Get(newKey) == old(Get(previousKey)) && Get(previousKey) == old(Get(previousKey))
      ensures forall k :: k != newKey ==> Get(k) == old(Get(k))
    {
      if previousKey !in aliases {
        return Err(PreviousKeyMissing);
      }
      var dataIndex := aliases[previousKey];
      aliases := aliases[newKey := dataIndex];
      return Ok(());
    }

    /** `get`: the value the key is bound to, if any. */
    function Get(key: K): (r: Option<V>)
      requires Valid()
      reads this
      ensures r.Some? <==> key in aliases
      ensures r.Some? ==> r.value == data[aliases[key]]
    {
      if key in aliases then Some(data[aliases[key]]) else None
    }
  }

  /** The unit test `alias_map_empty`: a fresh map binds nothing. */
  method EmptyMapBindsNothing() returns (r: Option<int>)
    ensures r == None
  {
    var m := new AliasMap<string, int>();
    r := m.Get("test");
  }

  /** The unit test `alias_map_retrieve`: an inserted key finds its value, another key
      nothing. */
  method InsertedKeyRetrieved() returns (hit: Option<int>, miss: Option<int>)
    ensures hit == Some(0) && miss == None
  {
    var m := new AliasMap<string, int>();
    var _ := m.Insert("test", 0);
    hit := m.Get("test");
    miss := m.Get("set");
  }

  /** The unit test `alias_map_retrieve_aliased`: an alias finds what its key finds. */
  method AliasRetrievesSameValue() returns (viaKey: Option<int>, viaAlias: Option<int>)
    ensures viaKey == viaAlias == Some(0)
  {
    var m := new AliasMap<string, int>();
    var _ := m.Insert("test", 0);
    var ok := m.Alias("test", "set");
    viaKey := m.Get("test");
    viaAlias := m.Get("set");
  }

  /** The names each registry entry is registered under: its key, then its aliases. */
  function Namings<V>(entries: seq<(string, V)>, aliasesOf: V -> seq<string>): (r: seq<seq<string>>)
    ensures |r| == |entries|
    ensures forall i :: 0 <= i < |entries| ==> r[i] == [entries[i].0] + aliasesOf(entries[i].1)
  {
    seq(|entries|, i requires 0 <= i < |entries| => [entries[i].0] + aliasesOf(entries[i].1))
  }

  /** The names of one more entry come after those of the entries before it. */
  lemma NamingsSnoc<V>(entries: seq<(string, V)>, aliasesOf: V -> seq<string>, n: nat)
    requires n < |entries|
    ensures Namings(entries[..n + 1], aliasesOf)
            == Namings(entries[..n], aliasesOf) + [[entries[n].0] + aliasesOf(entries[n].1)]
  {
    var a := Namings(entries[..n + 1], aliasesOf);
    var b := Namings(entries[..n], aliasesOf) + [[entries[n].0] + aliasesOf(entries[n].1)];
    assert |a| == |b|;
    forall i | 0 <= i < |a| ensures a[i] == b[i] {
      assert entries[..n + 1][i] == entries[i];
    }
  }

  /** The entry a name resolves to when entries are registered in order, each under
      its names: the last entry naming it, or none. */
  function LastNaming(names: seq<seq<string>>, name: string): (r: Option<nat>)
    ensures r.None? <==> forall j :: 0 <= j < |names| ==> name !in names[j]
    ensures r.Some? ==> r.value < |names| && name in names[r.value]
    ensures r.Some? ==> forall j :: r.value < j < |names| ==> name !in names[j]
  {
    if names == [] then None
    else if name in names[|names| - 1] then Some(|names| - 1)
    else LastNaming(names[..|names| - 1], name)
  }

  /** Naming more entries never unbinds a name; a name the new entry does not carry
      keeps its binding. */
  lemma LastNamingExtend(names: seq<seq<string>>, entry: seq<string>, name: string)
    ensures name in entry ==> LastNaming(names + [entry], name) == Some(|names|)
    ensures name !in entry ==> LastNaming(names + [entry], name) == LastNaming(names, name)
  {
    assert (names + [entry])[..|names|] == names;
  }

  /** The map binds exactly the names of `names`, each to the last entry naming it. */
  ghost predicate BindsLastNaming(aliases: map<string, nat>, names: seq<seq<string>>) {
    forall name :: (name in aliases <==> LastNaming(names, name).Some?)
                   && (name in aliases ==> aliases[name] == LastNaming(names, name).value)
  }

  /** Binding a key to a new last entry that carries only that key. */
  lemma BindsNewEntry(aliases: map<string, nat>, names: seq<seq<string>>, key: string)
    requires BindsLastNaming(aliases, names)
    ensures BindsLastNaming(aliases[key := |names|], names + [[key]])
  {
    forall name {
      LastNamingExtend(names, [key], name);
    }
  }

  /** Binding one more name of the last entry to it. */
  lemma BindsMoreNames(aliases: map<string, nat>, names: seq<seq<string>>, entry: seq<string>, name: string)
    requires BindsLastNaming(aliases, names + [entry])
    ensures BindsLastNaming(aliases[name := |names|], names + [entry + [name]])
  {
    var aliases' := aliases[name := |names|];
    var names' := names + [entry + [name]];
    forall n
      ensures (n in aliases' <==> LastNaming(names', n).Some?)
              && (n in aliases' ==> aliases'[n] == LastNaming(names', n).value)
    {
      LastNamingExtend(names, entry, n);
      LastNamingExtend(names, entry + [name], n);
    }
  }
}

=== FILE: cmd.dfy ===
/**
 * src/cmd.rs: a command line kept as lines of words for display, where only the first
 * word of a line is indented.
 */
module Cmd {
  import opened Wrappers
  import opened Text

  /** A line of the command line: its words, the first one possibly indented. */
  datatype Line = Line(words: seq<string>)

  /** Spaces per indentation level. */
  const IndentationWidth: nat := 4

  function Spaces(n: nat): (r: string)
    ensures |r| == n
    ensures forall i :: 0 <= i < n ==> r[i] == ' '
  {
    seq(n, _ => ' ')
  }

  /** The indented form of a word: the indentation, then the word unchanged. */
  function Indented(word: string, depth: nat): (r: string)
    ensures |r| == IndentationWidth * depth + |word|
    ensures forall i :: 0 <= i < IndentationWidth * depth ==> r[i] == ' '
    ensures r[IndentationWidth * depth..] == word
  {
    Spaces(IndentationWidth * depth) + word
  }

  /** `Line::indent_word`: pushes 4 * depth spaces one at a time, then the word. */
  method IndentWord(word: string, depth: nat) returns (r: string)
    ensures r == Indented(word, depth)
  {
    r := [];
    for i := 0 to depth * IndentationWidth
      invariant r == Spaces(i)
    {
      r := r + [' '];
    }
    r := r + word;
  }

  /** Trimming undoes the indentation: an indented word trims like the word itself. */
  lemma {:induction false} TrimStartIndented(word: string, n: nat)
    ensures TrimStart(Spaces(n) + word) == TrimStart(word)
  {
    if n > 0 {
      assert (Spaces(n) + word)[1..] == Spaces(n - 1) + word;
      TrimStartIndented(word, n - 1);
    } else {
      assert Spaces(n) + word == word;
    }
  }

  lemma TrimIndented(word: string, depth: nat)
    ensures Trim(Indented(word, depth)) == Trim(word)
  {
    TrimStartIndented(word, IndentationWidth * depth);
  }

  /** `Line::from_words`: the first word indented, the others verbatim. */
  function FromWords(words: seq<string>, depth: nat): (r: Line)
    ensures |r.words| == |words|
    ensures words != [] ==> r.words[0] == Indented(words[0], depth)
    ensures forall i :: 1 <= i < |words| ==> r.words[i] == words[i]
  {
    if words == [] then Line([]) else Line([Indented(words[0], depth)] + words[1..])
  }

  /** `Line::from_word`: one indented word. */
  function FromWord(word: string, depth: nat): (r: Line)
    ensures |r.words| == 1 && r.words[0] == Indented(word, depth)
  {
    Line([Indented(word, depth)])
  }

  /** A one-word line is the line of that single word. */
  lemma FromWordIsFromWords(word: string, depth: nat)
    ensures FromWord(word, depth) == FromWords([word], depth)
  {
    assert [word][1..] == [];
  }

  /** Trimmed, the words of a line are the trimmed words it was built from. */
  lemma FromWordsTrimmed(words: seq<string>, depth: nat, i: int)
    requires 0 <= i < |words|
    ensures Trim(FromWords(words, depth).words[i]) == Trim(words[i])
  {
    if i == 0 {
      TrimIndented(words[0], depth);
    }
  }

  /** All words of the lines, line after line. */
  function Words(lines: seq<Line>): seq<string> {
    if lines == [] then [] else Words(lines[..|lines| - 1]) + lines[|lines| - 1].words
  }

  /** The words of two runs of lines are the words of each run, in order. */
  lemma {:induction false} WordsAppend(a: seq<Line>, b: seq<Line>)
    ensures Words(a + b) == Words(a) + Words(b)
    decreases |b|
  {
    if b == [] {
      assert a + b == a;
    } else {
      var b' := b[..|b| - 1];
      assert (a + b)[..|a + b| - 1] == a + b';
      WordsAppend(a, b');
    }
  }

  /** The count of words is the sum of the lines' counts. */
  function WordCount(lines: seq<Line>): nat {
    if lines == [] then 0 else WordCount(lines[..|lines| - 1]) + |lines[|lines| - 1].words|
  }

  lemma {:induction false} WordsLength(lines: seq<Line>)
    ensures |Words(lines)| == WordCount(lines)
  {
    if lines != [] {
      WordsLength(lines[..|lines| - 1]);
    }
  }

  /** `CommandLine`: the lines pushed so far. */
  class CommandLine {
    var lines: seq<Line>

    /** `CommandLine::new`: no lines. */
    constructor()
      ensures lines == []
    {
      lines := [];
    }

    /** `push_line`: appends the line; earlier lines are unchanged. */
    method PushLine(line: Line)
      modifies this
      ensures lines == old(lines) + [line]
      ensures Words(lines) == Words(old(lines)) + line.words
    {
      lines := lines + [line];
      assert lines[..|lines| - 1] == old(lines);
    }

    /** `iter_words`: every line's words, in line order. */
    function IterWords(): (r: seq<string>)
      reads this
      ensures |r| == WordCount(lines)
      ensures r == Words(lines)
    {
      WordsLength(lines);
      Words(lines)
    }

    /** `iter_lines`: the lines in push order. */
    function IterLines(): (r: seq<Line>)
      reads this
      ensures r == lines
    {
      lines
    }

    /** `clone`: a new command line with the same lines; the original is untouched. */
    method Clone() returns (c: CommandLine)
      ensures fresh(c) && c.lines == lines
    {
      c := new CommandLine();
      c.lines := lines;
    }
  }

  /** Folding `f` over words from the left. */
  function FoldLeft<B>(f: (B, string) -> B, init: B, words: seq<string>): B {
    if words == [] then init else FoldLeft(f, f(init, words[0]), words[1..])
  }

  /** Collecting by a fold gives back exactly the words folded over. */
  lemma {:induction false} FoldCollects(acc: seq<string>, words: seq<string>)
    ensures FoldLeft((a: seq<string>, w: string) => a + [w], acc, words) == acc + words
    decreases |words|
  {
    if words != [] {
      FoldCollects(acc + [words[0]], words[1..]);
      assert (acc + [words[0]]) + words[1..] == acc + words;
    } else {
      assert acc + words == acc;
    }
  }

  /** `LineIterator`: a line and the index of the next word. */
  class LineIterator {
    const line: Line
    var index: nat

    /** `Line::iter`: an iterator at the first word. */
    constructor(line: Line)
      ensures this.line == line && index == 0
    {
      this.line := line;
      index := 0;
    }

    /** `next`: the word at the index, if any; the index advances in every case. */
    method Next() returns (r: Option<string>)
      modifies this
      ensures index == old(index) + 1
      ensures old(index) < |line.words| ==> r == Some(line.words[old(index)])
      ensures old(index) >= |line.words| ==> r == None
    {
      r := if index < |line.words| then Some(line.words[index]) else None;
      index := index + 1;
    }

    /** `nth`: the n-th word counted from the start of the line, whatever the index. */
    function Nth(n: nat): (r: Option<string>)
      ensures r.Some? <==> n < |line.words|
      ensures r.Some? ==> r.value == line.words[n]
    {
      if n < |line.words| then Some(line.words[n]) else None
    }

    /** The words `next` has still to give. */
    function Remaining(): (r: seq<string>)
      reads this
      ensures |r| == if index < |line.words| then |line.words| - index else 0
    {
      if index < |line.words| then line.words[index..] else []
    }

    /** `fold`: `f` applied through the remaining words by calling `next` until it
        gives nothing. */
    method Fold<B>(init: B, f: (B, string) -> B) returns (r: B)
      modifies this
      ensures r == FoldLeft(f, init, old(Remaining()))
    {
      r := init;
      var w := Next();
      while w.Some?
        invariant index >= 1
        invariant w.Some? <==> index - 1 < |line.words|
        invariant w.Some? ==> w.value == line.words[index - 1]
        invariant FoldLeft(f, init, old(Remaining()))
               == FoldLeft(f, r, if w.Some? then line.words[index - 1..] else [])
        decreases |line.words| + 1 - index
      {
        assert line.words[index - 1..][1..] == line.words[index..];
        r := f(r, w.value);
        w := Next();
      }
    }
  }
}

=== FILE: engine.dfy ===
/**
 * src/engine.rs: the known engines read from the engines file, looked up by name or
 * alias, and how one engine's settings are read from its child nodes.
 */
module DoomEngines {
  import opened Wrappers
  import opened Errors
  import opened Paths
  import opened AliasMaps

  datatype DoomEngineKind = Vanilla | Boom | MBF | Eternity | ZDoom

  datatype DoomEngine = DoomEngine(aliases: seq<string>, binary: Path, kind: DoomEngineKind,
                                   supportsWidescreenAssets: bool, requiredArgs: seq<string>)

  /** `DoomEngine::default`: no aliases, "/bin/true", Vanilla, no widescreen support,
      no required arguments. */
  function Default(): (e: DoomEngine)
    ensures e.aliases == [] && e.requiredArgs == []
    ensures Render(e.binary) == "/bin/true"
    ensures e.kind == Vanilla && !e.supportsWidescreenAssets
  {
    DoomEngine([], Path(RootDir, ["bin", "true"]), Vanilla, false, [])
  }

  /** The names the engines file uses for the kinds. */
  function KindName(k: DoomEngineKind): string {
    match k
    case Vanilla => "Vanilla"
    case Boom => "Boom"
    case MBF => "MBF"
    case Eternity => "Eternity"
    case ZDoom => "ZDoom"
  }

  /** The value of a `kind` node; any other string makes the reader panic (`None`). */
  function ParseKind(s: string): (r: Option<DoomEngineKind>)
    ensures r.Some? <==> s in ["Vanilla", "MBF", "Boom", "ZDoom", "Eternity"]
    ensures r.Some? ==> KindName(r.value) == s
  {
    match s
    case "Vanilla" => Some(Vanilla)
    case "MBF" => Some(MBF)
    case "Boom" => Some(Boom)
    case "ZDoom" => Some(ZDoom)
    case "Eternity" => Some(Eternity)
    case _ => None
  }

  /** Every kind reads back from its name. */
  lemma ParseKindName(k: DoomEngineKind)
    ensures ParseKind(KindName(k)) == Some(k)
  {
  }

  /** A child node of an engine definition, with its values as strings. */
  datatype Node = Node(name: string, values: seq<string>)

  /** The node names the reader understands; others are ignored. */
  predicate KnownNode(n: Node) {
    n.name in ["aliases", "binary", "kind", "supports_widescreen_assets", "required_args"]
  }

  /** One node's effect on the engine being read; a missing first value or an unknown
      kind is a panic. */
  function ApplyNode(e: DoomEngine, n: Node): Result<DoomEngine, Halt> {
    match n.name
    case "aliases" => Ok(e.(aliases := e.aliases + n.values))
    case "binary" => if n.values == [] then Err(Panic) else Ok(e.(binary := Parse(n.values[0])))
    case "kind" =>
      if n.values == [] then Err(Panic)
      else (match ParseKind(n.values[0])
            case None => Err(Panic)
            case Some(k) => Ok(e.(kind := k)))
    case "supports_widescreen_assets" =>
      if n.values == [] then Err(Panic) else Ok(e.(supportsWidescreenAssets := n.values[0] == "true"))
    case "required_args" => Ok(e.(requiredArgs := n.values))
    case _ => Ok(e)
  }

  function ApplyNodes(e: DoomEngine, nodes: seq<Node>): Result<DoomEngine, Halt>
    decreases |nodes|
  {
    if nodes == [] then Ok(e)
    else match ApplyNode(e, nodes[0])
      case Err(h) => Err(h)
      case Ok(e') => ApplyNodes(e', nodes[1..])
  }

  /** The node loop of `read_known_engines` for one engine, from the default engine. */
  method ReadEngine(children: seq<Node>) returns (r: Result<DoomEngine, Halt>)
    ensures r == ApplyNodes(Default(), children)
  {
    var engine := Default();
    for i := 0 to |children|
      invariant ApplyNodes(Default(), children) == ApplyNodes(engine, children[i..])
    {
      assert children[i..][1..] == children[i + 1..];
      var node := children[i];
      match node.name {
        case "aliases" =>
          engine := engine.(aliases := engine.aliases + node.values);
        case "binary" =>
          if node.values == [] {
            return Err(Panic);
          }
          engine := engine.(binary := Parse(node.values[0]));
        case "kind" =>
          if node.values == [] {
            return Err(Panic);
          }
          match ParseKind(node.values[0]) {
            case None => return Err(Panic);
            case Some(k) => engine := engine.(kind := k);
          }
        case "supports_widescreen_assets" =>
          if node.values == [] {
            return Err(Panic);
          }
          engine := engine.(supportsWidescreenAssets := node.values[0] == "true");
        case "required_args" =>
          engine := engine.(requiredArgs := node.values);
        case _ =>
      }
    }
    assert children[|children|..] == [];
    return Ok(engine);
  }

  /** The values of every `aliases` node, in order. */
  function AliasValues(nodes: seq<Node>): seq<string> {
    if nodes == [] then []
    else (if nodes[0].name == "aliases" then nodes[0].values else []) + AliasValues(nodes[1..])
  }

  /** `aliases` nodes accumulate: the engine's aliases are the values of all of them. */
  lemma {:induction false} AliasesAccumulate(e: DoomEngine, nodes: seq<Node>)
    requires ApplyNodes(e, nodes).Ok?
    ensures ApplyNodes(e, nodes).value.aliases == e.aliases + AliasValues(nodes)
    decreases |nodes|
  {
    if nodes != [] {
      var e' := ApplyNode(e, nodes[0]).value;
      var added := if nodes[0].name == "aliases" then nodes[0].values else [];
      NodeAddsAliases(e, nodes[0]);
      AliasesAccumulate(e', nodes[1..]);
      assert AliasValues(nodes) == added + AliasValues(nodes[1..]);
      assert e.aliases + added + AliasValues(nodes[1..]) == e.aliases + (added + AliasValues(nodes[1..]));
    } else {
      assert e.aliases + [] == e.aliases;
    }
  }

  /** Only an `aliases` node adds aliases, and it adds its values. */
  lemma NodeAddsAliases(e: DoomEngine, n: Node)
    requires ApplyNode(e, n).Ok?
    ensures ApplyNode(e, n).value.aliases == e.aliases + (if n.name == "aliases" then n.values else [])
  {
    if n.name != "aliases" {
      assert e.aliases + [] == e.aliases;
    }
  }

  function KnownNodes(nodes: seq<Node>): seq<Node> {
    if nodes == [] then [] else (if KnownNode(nodes[0]) then [nodes[0]] else []) + KnownNodes(nodes[1..])
  }

  /** Nodes with any other name are ignored. */
  lemma {:induction false} UnknownNodesIgnored(e: DoomEngine, nodes: seq<Node>)
    ensures ApplyNodes(e, nodes) == ApplyNodes(e, KnownNodes(nodes))
    decreases |nodes|
  {
    if nodes != [] {
      if KnownNode(nodes[0]) {
        assert ([nodes[0]] + KnownNodes(nodes[1..]))[1..] == KnownNodes(nodes[1..]);
        match ApplyNode(e, nodes[0])
        case Err(_) =>
        case Ok(e') => UnknownNodesIgnored(e', nodes[1..]);
      } else {
        assert KnownNodes(nodes) == KnownNodes(nodes[1..]);
        UnknownNodesIgnored(e, nodes[1..]);
      }
    }
  }

  /** The widescreen setting is on exactly when the first value of the last such node
      is "true". */
  lemma {:induction false} WidescreenFromLastNode(e: DoomEngine, nodes: seq<Node>, i: int)
    requires ApplyNodes(e, nodes).Ok?
    requires 0 <= i < |nodes| && nodes[i].name == "supports_widescreen_assets"
    requires forall j :: i < j < |nodes| ==> nodes[j].name != "supports_widescreen_assets"
    ensures |nodes[i].values| > 0
    ensures ApplyNodes(e, nodes).value.supportsWidescreenAssets <==> nodes[i].values[0] == "true"
    decreases |nodes|
  {
    var e' := ApplyNode(e, nodes[0]).value;
    if i > 0 {
      WidescreenFromLastNode(e', nodes[1..], i - 1);
    } else {
      WidescreenUnchanged(e', nodes[1..]);
    }
  }

  lemma {:induction false} WidescreenUnchanged(e: DoomEngine, nodes: seq<Node>)
    requires ApplyNodes(e, nodes).Ok?
    requires forall j :: 0 <= j < |nodes| ==> nodes[j].name != "supports_widescreen_assets"
    ensures ApplyNodes(e, nodes).value.supportsWidescreenAssets == e.supportsWidescreenAssets
    decreases |nodes|
  {
    if nodes != [] {
      WidescreenUnchanged(ApplyNode(e, nodes[0]).value, nodes[1..]);
    }
  }

  datatype Registry = KnownEngines(aliasMap: map<string, nat>, engines: seq<DoomEngine>)

  /** Every bound index addresses an engine. */
  predicate IndicesInRange(k: Registry) {
    forall name :: name in k.aliasMap ==> k.aliasMap[name] < |k.engines|
  }

  type KnownEngines = k: Registry | IndicesInRange(k) witness KnownEngines(map[], [])

  /** The names each entry is registered under: its name, then its aliases. */
  function NamesOf(engineMap: seq<(string, DoomEngine)>): seq<seq<string>> {
    Namings(engineMap, (e: DoomEngine) => e.aliases)
  }

  /** `KnownEngines::new`: the engine at index i is the i-th entry's, and its name and
      every alias are bound to i, later bindings replacing earlier ones. */
  method New(engineMap: seq<(string, DoomEngine)>) returns (k: KnownEngines)
    ensures |k.engines| == |engineMap|
    ensures forall i :: 0 <= i < |engineMap| ==> k.engines[i] == engineMap[i].1
    ensures BindsLastNaming(k.aliasMap, NamesOf(engineMap))
  {
    var aliasMap: map<string, nat> := map[];
    var engines: seq<DoomEngine> := [];
    for n := 0 to |engineMap|
      invariant |engines| == n && forall i :: 0 <= i < n ==> engines[i] == engineMap[i].1
      invariant BindsLastNaming(aliasMap, NamesOf(engineMap[..n]))
      invariant forall name :: name in aliasMap ==> aliasMap[name] < n
    {
      aliasMap := BindEntry(aliasMap, engineMap, n);
      engines := engines + [engineMap[n].1];
    }
    assert engineMap[..|engineMap|] == engineMap;
    k := KnownEngines(aliasMap, engines);
  }

  /** One pass of the loop of `KnownEngines::new`: the entry's name, then its aliases,
      bound to its index. */
  method BindEntry(aliasMap: map<string, nat>, engineMap: seq<(string, DoomEngine)>, n: nat)
    returns (m: map<string, nat>)
    requires n < |engineMap|
    requires BindsLastNaming(aliasMap, NamesOf(engineMap[..n]))
    requires forall name :: name in aliasMap ==> aliasMap[name] < n
    ensures BindsLastNaming(m, NamesOf(engineMap[..n + 1]))
    ensures forall name :: name in m ==> m[name] < n + 1
  {
    var (name, eng) := engineMap[n];
    ghost var prev := NamesOf(engineMap[..n]);
    NamingsSnoc(engineMap, (e: DoomEngine) => e.aliases, n);
    BindsNewEntry(aliasMap, prev, name);
    m := aliasMap[name := n];
    m := BindAliases(m, prev, n, name, eng.aliases);
  }

  /** The inner loop of `KnownEngines::new`: binds each alias of the entry just added,
      whose name is already bound, to that entry's index. */
  method BindAliases(aliasMap: map<string, nat>, ghost prev: seq<seq<string>>, i: nat, name: string,
                     aliases: seq<string>) returns (m: map<string, nat>)
    requires i == |prev|
    requires BindsLastNaming(aliasMap, prev + [[name]])
    requires forall x :: x in aliasMap ==> aliasMap[x] <= |prev|
    ensures BindsLastNaming(m, prev + [[name] + aliases])
    ensures forall x :: x in m ==> m[x] <= |prev|
  {
    m := aliasMap;
    for j := 0 to |aliases|
      invariant BindsLastNaming(m, prev + [[name] + aliases[..j]])
      invariant forall x :: x in m ==> m[x] <= |prev|
    {
      assert aliases[..j + 1] == aliases[..j] + [aliases[j]];
      assert ([name] + aliases[..j]) + [aliases[j]] == [name] + aliases[..j + 1];
      BindsMoreNames(m, prev, [name] + aliases[..j], aliases[j]);
      m := m[aliases[j] := i];
    }
    assert aliases[..|aliases|] == aliases;
  }

  /** `get`: the engine a name or alias is bound to, if any. */
  function Get(k: KnownEngines, name: string): (r: Option<DoomEngine>)
    ensures r.Some? <==> name in k.aliasMap
    ensures r.Some? ==> r.value == k.engines[k.aliasMap[name]]
  {
    if name in k.aliasMap then Some(k.engines[k.aliasMap[name]]) else None
  }

  /** After `new`, a name finds the engine of the last entry naming it, and nothing
      when no entry names it. */
  lemma GetAfterNew(engineMap: seq<(string, DoomEngine)>, k: KnownEngines, name: string)
    requires |k.engines| == |engineMap| && forall i :: 0 <= i < |engineMap| ==> k.engines[i] == engineMap[i].1
    requires BindsLastNaming(k.aliasMap, NamesOf(engineMap))
    ensures Get(k, name).None? <==> forall i :: 0 <= i < |engineMap| ==> name != engineMap[i].0 && name !in engineMap[i].1.aliases
    ensures Get(k, name).Some? ==> exists i :: (0 <= i < |engineMap| && Get(k, name) == Some(engineMap[i].1)
      && (name == engineMap[i].0 || name in engineMap[i].1.aliases)
      && forall j :: i < j < |engineMap| ==> name != engineMap[j].0 && name !in engineMap[j].1.aliases)
  {
    var names := NamesOf(engineMap);
    var r := LastNaming(names, name);
    if r.None? {
      assert forall i :: 0 <= i < |engineMap| ==> name !in names[i];
    } else {
      var i := r.value;
      assert name in names[i];
      assert forall j :: i < j < |engineMap| ==> name !in names[j];
    }
  }

  /** The aliases of the engines, concatenated in engine order. */
  function AllAliases(engines: seq<DoomEngine>): (r: seq<string>)
    ensures forall a :: a in r <==> exists i :: 0 <= i < |engines| && a in engines[i].aliases
  {
    if engines == [] then []
    else
      var init := engines[..|engines| - 1];
      assert forall i :: 0 <= i < |init| ==> init[i] == engines[i];
      AllAliases(init) + engines[|engines| - 1].aliases
  }

  /** The aliases of two runs of engines are those of the first run, then those of the
      second: order and repetitions are kept. */
  lemma {:induction false} AllAliasesAppend(a: seq<DoomEngine>, b: seq<DoomEngine>)
    ensures AllAliases(a + b) == AllAliases(a) + AllAliases(b)
    decreases |b|
  {
    if b == [] {
      assert a + b == a;
    } else {
      var b' := b[..|b| - 1];
      assert (a + b)[..|a + b| - 1] == a + b';
      AllAliasesAppend(a, b');
    }
  }

  /** The aliases of one engine are its own aliases. */
  lemma AllAliasesSingle(e: DoomEngine)
    ensures AllAliases([e]) == e.aliases
  {
    assert [e][..0] == [];
  }

  /** `iter`: the aliases of all engines, in engine order; names are not listed. The
      first alias it yields, which `run` takes as the default engine, is the first alias
      of the first engine that has any. */
  function Iter(k: KnownEngines): (r: seq<string>)
    ensures forall a :: a in r <==> exists i :: 0 <= i < |k.engines| && a in k.engines[i].aliases
    ensures r == [] <==> forall i :: 0 <= i < |k.engines| ==> k.engines[i].aliases == []
    ensures r != [] ==> exists i ::
      && 0 <= i < |k.engines| && k.engines[i].aliases != []
      && r[0] == k.engines[i].aliases[0] && forall j :: 0 <= j < i ==> k.engines[j].aliases == []
  {
    AllAliasesFirst(k.engines);
    AllAliases(k.engines)
  }

  /** No aliases at all exactly when no engine has one; otherwise the first alias is
      that of the first engine with aliases. */
  lemma AllAliasesFirst(e: seq<DoomEngine>)
    ensures AllAliases(e) == [] <==> forall i :: 0 <= i < |e| ==> e[i].aliases == []
    ensures AllAliases(e) != [] ==> exists i ::
      && 0 <= i < |e| && e[i].aliases != []
      && AllAliases(e)[0] == e[i].aliases[0] && forall j :: 0 <= j < i ==> e[j].aliases == []
  {
    var r := AllAliases(e);
    forall i | 0 <= i < |e| && e[i].aliases != [] ensures r != [] {
      assert e[i].aliases[0] in r;
    }
    if r != [] {
      assert r[0] in r;
      var i := FirstAliased(e);
      FirstAliasedLeads(e, i);
    }
  }

  /** The aliases start with those of the first engine that has any. */
  lemma FirstAliasedLeads(e: seq<DoomEngine>, i: nat)
    requires i < |e| && forall j :: 0 <= j < i ==> e[j].aliases == []
    ensures AllAliases(e) == e[i].aliases + AllAliases(e[i + 1..])
  {
    assert e == e[..i] + [e[i]] + e[i + 1..];
    AllAliasesAppend(e[..i] + [e[i]], e[i + 1..]);
    AllAliasesAppend(e[..i], [e[i]]);
    AllAliasesSingle(e[i]);
    AllAliasesNone(e[..i]);
  }

  /** Engines without aliases contribute none. */
  lemma {:induction false} AllAliasesNone(e: seq<DoomEngine>)
    requires forall j :: 0 <= j < |e| ==> e[j].aliases == []
    ensures AllAliases(e) == []
  {
    if e != [] {
      AllAliasesNone(e[..|e| - 1]);
    }
  }

  /** The index of the first engine with an alias, when one has. */
  function FirstAliased(engines: seq<DoomEngine>): (i: nat)
    requires exists j :: 0 <= j < |engines| && engines[j].aliases != []
    ensures i < |engines| && engines[i].aliases != []
    ensures forall j :: 0 <= j < i ==> engines[j].aliases == []
  {
    if engines[0].aliases != [] then 0
    else
      assert exists j :: 0 <= j < |engines[1..]| && engines[1..][j].aliases != [] by {
        var j :| 0 <= j < |engines| && engines[j].aliases != [];
        assert engines[1..][j - 1] == engines[j];
      }
      1 + FirstAliased(engines[1..])
  }
}

=== FILE: engine_manager.dfy ===
/**
 * src/engine_manager.rs: the engine registry read from the engines file. Every engine
 * is stored once and reached by its key and by each of its aliases.
 */
module EngineManager {
  import opened Wrappers
  import opened Paths
  import opened AliasMaps

  datatype EngineKind = Vanilla | Boom | Mbf | Eternity | ZDoom

  /** An engine as the file describes it; two settings may be absent. */
  datatype RawEngine = RawEngine(aliases: seq<string>, path: Path, kind: EngineKind,
                                 supportsWidescreenAssets: Option<bool>, requiredArgs: Option<seq<string>>)

  datatype Engine = Engine(path: Path, kind: EngineKind, supportsWidescreenAssets: bool, requiredArgs: seq<string>)

  /** The stored engine: no widescreen support and no required arguments unless given. */
  function FromRaw(v: RawEngine): (e: Engine)
    ensures e.path == v.path && e.kind == v.kind
    ensures e.supportsWidescreenAssets <==> v.supportsWidescreenAssets == Some(true)
    ensures v.requiredArgs.None? ==> e.requiredArgs == []
    ensures v.requiredArgs.Some? ==> e.requiredArgs == v.requiredArgs.value
  {
    Engine(v.path, v.kind,
           if v.supportsWidescreenAssets.Some? then v.supportsWidescreenAssets.value else false,
           if v.requiredArgs.Some? then v.requiredArgs.value else [])
  }

  /** The names each entry is registered under: its key, then its aliases. */
  function NamesOf(raw: seq<(string, RawEngine)>): seq<seq<string>> {
    Namings(raw, (v: RawEngine) => v.aliases)
  }

  /** The engine a name reaches once the entries are registered in order: that of the
      last entry carrying the name as key or alias. */
  function Resolve(raw: seq<(string, RawEngine)>, name: string): (r: Option<Engine>)
    ensures r.None? <==> forall i :: 0 <= i < |raw| ==> name != raw[i].0 && name !in raw[i].1.aliases
  {
    match LastNaming(NamesOf(raw), name)
    case None => None
    case Some(i) => Some(FromRaw(raw[i].1))
  }

  /** An entry's key and aliases reach that entry's engine as long as no later entry
      takes the name over. */
  lemma NamesReachTheirEntry(raw: seq<(string, RawEngine)>, i: int, name: string)
    requires 0 <= i < |raw| && (name == raw[i].0 || name in raw[i].1.aliases)
    requires forall j :: i < j < |raw| ==> name != raw[j].0 && name !in raw[j].1.aliases
    ensures Resolve(raw, name) == Some(FromRaw(raw[i].1))
  {
    assert name in NamesOf(raw)[i];
  }

  class Engines {
    const first: Option<string>
    const data: AliasMap<string, Engine>

    ghost predicate Valid()
      reads this, data
    {
      && data.Valid()
      && (first.Some? ==> first.value in data.aliases)
    }

    /** `read_from_file` after parsing: each entry in the file's iteration order is
        registered; `first` is the first key. */
    constructor ReadFromFile(raw: seq<(string, RawEngine)>)
      ensures Valid() && fresh(data)
      ensures first == if raw == [] then None else Some(raw[0].0)
      ensures forall name :: Get(name) == Resolve(raw, name)
    {
      var m, f := Load(raw);
      first := f;
      data := m;
      new;
      assert first.Some? ==> LastNaming(NamesOf(raw), first.value).Some? by {
        if raw != [] {
          assert first.value in NamesOf(raw)[0];
        }
      }
    }

    /** The read loop: every entry registered in order, the first key remembered. */
    static method Load(raw: seq<(string, RawEngine)>) returns (m: AliasMap<string, Engine>, f: Option<string>)
      ensures fresh(m) && m.Valid()
      ensures f == if raw == [] then None else Some(raw[0].0)
      ensures |m.data| == |raw| && forall j :: 0 <= j < |raw| ==> m.data[j] == FromRaw(raw[j].1)
      ensures BindsLastNaming(m.aliases, NamesOf(raw))
    {
      f := None;
      m := new AliasMap<string, Engine>();
      for i := 0 to |raw|
        invariant fresh(m) && m.Valid()
        invariant f == if i == 0 then None else Some(raw[0].0)
        invariant |m.data| == i && forall j :: 0 <= j < i ==> m.data[j] == FromRaw(raw[j].1)
        invariant BindsLastNaming(m.aliases, NamesOf(raw[..i]))
      {
        if f == None {
          f := Some(raw[i].0);
        }
        NamingsSnoc(raw, (v: RawEngine) => v.aliases, i);
        Register(m, raw[i].0, raw[i].1, NamesOf(raw[..i]));
      }
      assert raw[..|raw|] == raw;
    }

    /** One pass of the read loop: the engine inserted under its key, then each alias
        bound to the key's entry; the alias calls cannot fail since the key was just
        inserted. */
    static method Register(m: AliasMap<string, Engine>, k: string, v: RawEngine, ghost names: seq<seq<string>>)
      requires m.Valid() && |m.data| == |names| && BindsLastNaming(m.aliases, names)
      modifies m
      ensures m.Valid() && m.data == old(m.data) + [FromRaw(v)]
      ensures BindsLastNaming(m.aliases, names + [[k] + v.aliases])
    {
      BindsNewEntry(m.aliases, names, k);
      var _ := m.Insert(k, FromRaw(v));
      BindAliases(m, k, names, v.aliases);
    }

    /** The inner loop of the read loop: each alias bound to the entry of the key. */
    static method BindAliases(m: AliasMap<string, Engine>, k: string, ghost names: seq<seq<string>>,
                              aliases: seq<string>)
      requires m.Valid() && BindsLastNaming(m.aliases, names + [[k]])
      modifies m
      ensures m.Valid() && m.data == old(m.data)
      ensures BindsLastNaming(m.aliases, names + [[k] + aliases])
    {
      for j := 0 to |aliases|
        invariant m.Valid() && m.data == old(m.data)
        invariant BindsLastNaming(m.aliases, names + [[k] + aliases[..j]])
      {
        assert ([k] + aliases[..j]) + [aliases[j]] == [k] + aliases[..j + 1];
        BindAlias(m, k, names, [k] + aliases[..j], aliases[j]);
      }
      assert aliases[..|aliases|] == aliases;
    }

    /** One `alias` call of the read loop: it cannot fail, since the entry's key is bound
        to the entry just inserted. */
    static method BindAlias(m: AliasMap<string, Engine>, k: string, ghost names: seq<seq<string>>,
                            ghost entry: seq<string>, a: string)
      requires m.Valid() && k in entry && BindsLastNaming(m.aliases, names + [entry])
      modifies m
      ensures m.Valid() && m.data == old(m.data)
      ensures BindsLastNaming(m.aliases, names + [entry + [a]])
    {
      LastNamingExtend(names, entry, k);
      assert k in m.aliases && m.aliases[k] == |names|;
      BindsMoreNames(m.aliases, names, entry, a);
      var r := m.Alias(k, a);
      assert r.Ok?;
    }

    /** `first`: the engine of the first key, absent only when there are no engines. */
    function First(): (r: Option<Engine>)
      requires Valid()
      reads this, data
      ensures r.Some? <==> first.Some?
      ensures first.Some? ==> r == Get(first.value)
    {
      if first.Some? then data.Get(first.value) else None
    }

    /** `get`: the alias-map lookup. */
    function Get(name: string): (r: Option<Engine>)
      requires Valid()
      reads this, data
      ensures r.Some? <==> name in data.aliases
    {
      data.Get(name)
    }
  }
}

=== FILE: errors.dfy ===
/**
 * The launcher's error type (the `Error` enum at the end of src/main.rs), with the
 * payloads that cannot be modelled (library error values) reduced to an I/O kind
 * or dropped, and the ways the program stops without returning an error.
 */
module Errors {

  /** The kind of an operating-system I/O failure. */
  datatype IoKind = PermissionDenied | NotFound | Interrupted | OtherIo

  datatype Error =
    | BadRon(file: string)
    | CreatingAutoloadsFile(cause: IoKind)
    | FileNotFound(name: string)
    | Fmt
    | Homeless
    | Io(cause: IoKind)
    | NoEngines
    | NoFileExtension(path: string)
    | NoFileStem(path: string)
    | OpeningFile(cause: IoKind)
    | Recv
    | RunningDoom(cause: IoKind)
    | Send
    | SignalHandler
    | NonUtf8Path(path: string)
    | WalkDir

  /** How a computation that may end the whole process stops: with an error returned
      to `main`, with `exit(code)`, or with a panic (`unwrap`, `unreachable!`, `panic!`). */
  datatype Halt = Fail(error: Error) | Exit(code: int) | Panic
}

=== FILE: launch.dfy ===
/**
 * The launch decisions of `run` in src/main.rs: where the Doom and demo directories are,
 * how `run_doom` turns the command line into a process launch, which IWAD is used,
 * how the chosen PWADs are sorted into archives and patches, which flag lines the
 * options produce, and how the video dump directory is named.
 *
 * The process launch itself is an input: whether the binary exists and what spawning
 * it returns. A launch that happens is recorded as a `Launch` value.
 */
module Launch {
  import opened Wrappers
  import opened Errors
  import opened Text
  import opened Paths
  import opened Util
  import opened Cmd
  import opened PwadLists
  import opened DoomEngines
  import Search
  import SortedSearch

  // ---------------------------------------------------------------------------
  // Directories
  // ---------------------------------------------------------------------------

  /** `doom_dir`: the custom directory when one is set, otherwise `doom` under the home
      directory, and `Homeless` when there is no home directory. */
  function DoomDir(custom: Option<Path>, home: Option<Path>): (r: Result<Path, Error>)
    ensures custom.Some? ==> r == Ok(custom.value)
    ensures custom.None? ==> (r.Err? <==> home.None?)
    ensures r.Err? ==> r.error == Homeless
    ensures custom.None? && home.Some? ==>
      r.Ok? && Parent(r.value) == home.value && FileName(r.value) == Some("doom")
  {
    match custom
    case Some(d) => Ok(d)
    case None =>
      match home
      case None => Err(Homeless)
      case Some(h) =>
        JoinedName(h, "doom");
        Ok(Joined(h, Parse("doom")))
  }

  /** `demo_dir`: `demo` inside the Doom directory; its error is passed on. */
  function DemoDir(doomDir: Result<Path, Error>): (r: Result<Path, Error>)
    ensures doomDir.Err? ==> r == Err(doomDir.error)
    ensures doomDir.Ok? ==> r.Ok? && Parent(r.value) == doomDir.value && FileName(r.value) == Some("demo")
  {
    match doomDir
    case Err(e) => Err(e)
    case Ok(d) =>
      JoinedName(d, "demo");
      Ok(Joined(d, Parse("demo")))
  }

  // ---------------------------------------------------------------------------
  // run_doom
  // ---------------------------------------------------------------------------

  /** A process started by `run_doom`: the binary, its arguments and its working
      directory. */
  datatype Launch = Launch(binary: Path, args: seq<string>, cwd: Path)

  /** A word as `trim` leaves it, when it is not blank: no whitespace at either end. */
  predicate Clean(w: string) {
    w != [] && !IsWhitespace(w[0]) && !IsWhitespace(w[|w| - 1])
  }

  /** The arguments `run_doom` passes: every word trimmed, blank words dropped. */
  function KeepTrimmed(words: seq<string>): (r: seq<string>)
    ensures |r| <= |words|
    ensures forall w :: w in r ==> Clean(w)
  {
    if words == [] then [] else TrimmedWord(words[0]) + KeepTrimmed(words[1..])
  }

  /** One word as `run_doom` passes it: trimmed, or nothing when blank. */
  function TrimmedWord(w: string): (r: seq<string>)
    ensures |r| <= 1 && forall v :: v in r ==> Clean(v)
  {
    var t := Trim(w);
    TrimmedEnds(w);
    assert t != [] ==> Clean(t);
    if t == [] then [] else [t]
  }

  /** Nothing is dropped exactly when no word is blank. */
  lemma KeepTrimmedKeepsAll(words: seq<string>)
    ensures |KeepTrimmed(words)| == |words| <==> forall i :: 0 <= i < |words| ==> !IsBlank(words[i])
  {
    if |KeepTrimmed(words)| == |words| {
      NoBlankWhenAllKept(words);
    }
    if forall i :: 0 <= i < |words| ==> !IsBlank(words[i]) {
      AllKeptWhenNoBlank(words);
    }
  }

  lemma {:induction false} NoBlankWhenAllKept(words: seq<string>)
    requires |KeepTrimmed(words)| == |words|
    ensures forall i :: 0 <= i < |words| ==> !IsBlank(words[i])
  {
    if words != [] {
      var tail := words[1..];
      assert |KeepTrimmed(words)| == |TrimmedWord(words[0])| + |KeepTrimmed(tail)|;
      NoBlankWhenAllKept(tail);
      TrimEmptyIffBlank(words[0]);
      forall i | 0 <= i < |words| ensures !IsBlank(words[i]) {
        if i > 0 {
          assert words[i] == tail[i - 1];
        }
      }
    }
  }

  lemma {:induction false} AllKeptWhenNoBlank(words: seq<string>)
    requires forall i :: 0 <= i < |words| ==> !IsBlank(words[i])
    ensures |KeepTrimmed(words)| == |words|
  {
    if words != [] {
      var tail := words[1..];
      forall i | 0 <= i < |tail| ensures !IsBlank(tail[i]) {
        assert tail[i] == words[i + 1];
      }
      AllKeptWhenNoBlank(tail);
      TrimEmptyIffBlank(words[0]);
      assert |KeepTrimmed(words)| == |TrimmedWord(words[0])| + |KeepTrimmed(tail)|;
    }
  }

  /** Words that are already trimmed and not blank pass through unchanged. */
  lemma {:induction false} KeepTrimmedClean(words: seq<string>)
    requires forall i :: 0 <= i < |words| ==> words[i] != [] && Trim(words[i]) == words[i]
    ensures KeepTrimmed(words) == words
  {
    if words != [] {
      KeepTrimmedClean(words[1..]);
    }
  }

  /** Trimming works word by word, so it distributes over concatenation. */
  lemma {:induction false} KeepTrimmedAppend(a: seq<string>, b: seq<string>)
    ensures KeepTrimmed(a + b) == KeepTrimmed(a) + KeepTrimmed(b)
  {
    if a != [] {
      var ab := a + b;
      assert ab[0] == a[0] && ab[1..] == a[1..] + b;
      KeepTrimmedAppend(a[1..], b);
      calc {
        KeepTrimmed(ab);
        TrimmedWord(a[0]) + KeepTrimmed(a[1..] + b);
        TrimmedWord(a[0]) + (KeepTrimmed(a[1..]) + KeepTrimmed(b));
        { Regroup(TrimmedWord(a[0]), KeepTrimmed(a[1..]), KeepTrimmed(b)); }
        TrimmedWord(a[0]) + KeepTrimmed(a[1..]) + KeepTrimmed(b);
        KeepTrimmed(a) + KeepTrimmed(b);
      }
    } else {
      assert a + b == b;
    }
  }

  /** Only the trimmed form of each word matters. */
  lemma {:induction false} KeepTrimmedPointwise(a: seq<string>, b: seq<string>)
    requires |a| == |b|
    requires forall i :: 0 <= i < |a| ==> Trim(a[i]) == Trim(b[i])
    ensures KeepTrimmed(a) == KeepTrimmed(b)
  {
    if a != [] {
      KeepTrimmedPointwise(a[1..], b[1..]);
    }
  }

  /** The indentation a line gives its first word never reaches the launched process. */
  lemma LaunchIgnoresIndentation(words: seq<string>, depth: nat)
    ensures KeepTrimmed(FromWords(words, depth).words) == KeepTrimmed(words)
  {
    forall i | 0 <= i < |words| ensures Trim(FromWords(words, depth).words[i]) == Trim(words[i]) {
      FromWordsTrimmed(words, depth, i);
    }
    KeepTrimmedPointwise(FromWords(words, depth).words, words);
  }

  /** What the process receives from a run of lines. */
  function ArgsOf(lines: seq<Line>): seq<string> {
    KeepTrimmed(Words(lines))
  }

  /** The arguments of two runs of lines are those of each run, in order. */
  lemma ArgsOfAppend(a: seq<Line>, b: seq<Line>)
    ensures ArgsOf(a + b) == ArgsOf(a) + ArgsOf(b)
  {
    WordsAppend(a, b);
    KeepTrimmedAppend(Words(a), Words(b));
  }

  /** A single line gives the trimmed, non-blank words it was built from. */
  lemma ArgsOfLine(words: seq<string>, depth: nat)
    ensures ArgsOf([FromWords(words, depth)]) == KeepTrimmed(words)
  {
    var line := FromWords(words, depth);
    assert [line][..0] == [];
    assert Words([line]) == Words([]) + line.words;
    assert Words([line]) == line.words;
    LaunchIgnoresIndentation(words, depth);
  }

  /** `run_doom`: the first word names the binary (a panic when there is none), which
      must exist; the other words are trimmed and the blank ones dropped, and the
      process runs in the binary's directory. `present` and `spawn` are what the
      file system and the process launch answer. */
  function RunDoom(words: seq<string>, present: Path -> bool, spawn: Result<(), IoKind>): (r: Result<Launch, Halt>)
    ensures words == [] ==> r == Err(Panic)
    ensures words != [] && !present(Parse(words[0])) ==> r == Err(Fail(FileNotFound(Render(Parse(words[0])))))
    ensures words != [] && present(Parse(words[0])) && spawn.Err? ==> r == Err(Fail(RunningDoom(spawn.error)))
    ensures r.Ok? <==> words != [] && present(Parse(words[0])) && spawn.Ok?
    ensures r.Ok? ==>
      && r.value.binary == Parse(words[0])
      && r.value.args == KeepTrimmed(words[1..])
      && r.value.cwd == Parent(r.value.binary)
  {
    if words == [] then Err(Panic)
    else
      var binary := Parse(words[0]);
      if !present(binary) then Err(Fail(FileNotFound(Render(binary))))
      else match spawn
        case Err(k) => Err(Fail(RunningDoom(k)))
        case Ok(_) => Ok(Launch(binary, KeepTrimmed(words[1..]), Parent(binary)))
  }

  /** The process launched for a command line whose first line is the binary alone gets
      exactly the trimmed words of the other lines. */
  lemma RunDoomArgs(binary: string, rest: seq<Line>, present: Path -> bool, spawn: Result<(), IoKind>)
    requires present(Parse(binary)) && spawn.Ok?
    ensures var r := RunDoom(Words([FromWord(binary, 0)] + rest), present, spawn);
      r.Ok? && r.value.binary == Parse(binary) && r.value.args == ArgsOf(rest)
  {
    WordsAppend([FromWord(binary, 0)], rest);
    assert Words([FromWord(binary, 0)]) == Words([]) + FromWord(binary, 0).words;
    var words := Words([FromWord(binary, 0)] + rest);
    assert Indented(binary, 0) == binary;
    assert words == [binary] + Words(rest);
    assert words[1..] == Words(rest);
  }

  // ---------------------------------------------------------------------------
  // Engine selection
  // ---------------------------------------------------------------------------

  /** The engine to run: the one named with `--engine`, else the first alias the known
      engines list; with none listed the run fails with `NoEngines`. */
  function EngineName(requested: Option<string>, k: KnownEngines): (r: Result<string, Error>)
    ensures requested.Some? ==> r == Ok(requested.value)
    ensures requested.None? ==> (r.Err? <==> forall i :: 0 <= i < |k.engines| ==> k.engines[i].aliases == [])
    ensures r.Err? ==> r.error == NoEngines
  {
    if requested.Some? then Ok(requested.value)
    else if Iter(k) == [] then Err(NoEngines)
    else Ok(Iter(k)[0])
  }

  /** The engine `run` launches: an unknown name makes the program exit with -1. */
  function SelectEngine(requested: Option<string>, k: KnownEngines): (r: Result<DoomEngine, Halt>)
    ensures EngineName(requested, k).Err? ==> r == Err(Fail(NoEngines))
    ensures EngineName(requested, k).Ok? ==>
      var name := EngineName(requested, k).value;
      && (Get(k, name).None? <==> r == Err(Exit(-1)))
      && (r.Ok? <==> name in k.aliasMap)
      && (r.Ok? ==> r.value == k.engines[k.aliasMap[name]])
  {
    match EngineName(requested, k)
    case Err(e) => Err(Fail(e))
    case Ok(name) =>
      match Get(k, name)
      case None => Err(Exit(-1))
      case Some(e) => Ok(e)
  }

  /** Without `--engine`, the default is the first alias of the first engine that has
      one; it runs the engine that alias is bound to, which is the last engine carrying
      it. */
  lemma DefaultEngine(k: KnownEngines, i: nat)
    requires i < |k.engines| && k.engines[i].aliases != []
    requires forall j :: 0 <= j < i ==> k.engines[j].aliases == []
    ensures EngineName(None, k) == Ok(k.engines[i].aliases[0])
  {
    var r := Iter(k);
    var i' :| 0 <= i' < |k.engines| && k.engines[i'].aliases != []
               && r[0] == k.engines[i'].aliases[0] && forall j :: 0 <= j < i' ==> k.engines[j].aliases == [];
    assert i' == i;
  }

  // ---------------------------------------------------------------------------
  // IWAD fallback
  // ---------------------------------------------------------------------------

  /** The IWADs tried when none is requested, in order. */
  const DefaultIwads: seq<string> := ["DOOM2.WAD", "DOOM.WAD", "DOOMU.WAD", "DOOM1.WAD"]

  /** The names tried: the requested IWAD alone, or the defaults. */
  function IwadCandidates(requested: Option<string>): (r: seq<string>)
    ensures requested.Some? ==> r == [requested.value]
    ensures requested.None? ==> r == DefaultIwads
  {
    match requested
    case Some(i) => [i]
    case None => DefaultIwads
  }

  /** A search that finds nothing: `FileNotFound` counts as a miss, not as an error. */
  predicate Miss(found: Result<seq<Path>, Error>) {
    found.Err? && found.error.FileNotFound?
  }

  /** The fallback over the names: the first name found answers; a search error that is
      not a miss is passed on; `None` when every name misses. */
  function FirstIwad(names: seq<string>, host: Search.Host): (r: Result<Option<seq<Path>>, Error>)
    ensures r.Ok? && r.value.Some? ==> |r.value.value| >= 1
  {
    if names == [] then Ok(None)
    else
      var found := SortedSearch.SearchFile(names[0], host);
      if Miss(found) then FirstIwad(names[1..], host)
      else match found
        case Err(e) => Err(e)
        case Ok(ps) => Ok(Some(ps))
  }

  /** The names before `k` all miss. */
  predicate MissesBefore(names: seq<string>, k: int, host: Search.Host)
    requires 0 <= k <= |names|
  {
    forall j :: 0 <= j < k ==> Miss(SortedSearch.SearchFile(names[j], host))
  }

  /** The fallback answers with the first name that does not miss, whether it was found
      or failed; it gives `None` exactly when every name misses. */
  lemma {:induction false} FirstIwadIsFirstHit(names: seq<string>, host: Search.Host)
    ensures FirstIwad(names, host) == Ok(None) <==> MissesBefore(names, |names|, host)
    ensures forall k :: 0 <= k < |names| && MissesBefore(names, k, host) && !Miss(SortedSearch.SearchFile(names[k], host)) ==>
      FirstIwad(names, host) == (if SortedSearch.SearchFile(names[k], host).Ok?
                                 then Ok(Some(SortedSearch.SearchFile(names[k], host).value))
                                 else Err(SortedSearch.SearchFile(names[k], host).error))
  {
    if names != [] {
      FirstIwadIsFirstHit(names[1..], host);
      assert forall j :: 1 <= j < |names| ==> names[j] == names[1..][j - 1];
      var hit0 := !Miss(SortedSearch.SearchFile(names[0], host));
      if !hit0 {
        assert MissesBefore(names, |names|, host) <==> MissesBefore(names[1..], |names| - 1, host);
        forall k | 0 < k < |names| && MissesBefore(names, k, host)
          ensures MissesBefore(names[1..], k - 1, host)
        {
        }
      }
    }
  }

  /** Where the chosen IWAD ends up: the first path found, made absolute; with no IWAD
      the program exits with -1. */
  function IwadPath(requested: Option<string>, host: Search.Host): (r: Result<Path, Halt>)
    ensures FirstIwad(IwadCandidates(requested), host) == Ok(None) ==> r == Err(Exit(-1))
    ensures FirstIwad(IwadCandidates(requested), host).Err? ==> r == Err(Fail(FirstIwad(IwadCandidates(requested), host).error))
    ensures r.Ok? ==>
      var first := FirstIwad(IwadCandidates(requested), host);
      first.Ok? && first.value.Some? && AbsolutePath(first.value.value[0], host.doomDir, host.normalize) == Ok(r.value)
  {
    match FirstIwad(IwadCandidates(requested), host)
    case Err(e) => Err(Fail(e))
    case Ok(None) => Err(Exit(-1))
    case Ok(Some(ps)) =>
      match AbsolutePath(ps[0], host.doomDir, host.normalize)
      case Err(e) => Err(Fail(e))
      case Ok(p) => Ok(p)
  }

  /** The IWAD loop of `run`: tries the names in order until one is found. */
  method FindIwad(requested: Option<string>, host: Search.Host) returns (r: Result<Path, Halt>)
    ensures r == IwadPath(requested, host)
  {
    var names := IwadCandidates(requested);
    var k := 0;
    var iwadPath: Option<seq<Path>> := None;
    while k < |names|
      invariant 0 <= k <= |names|
      invariant FirstIwad(names, host) == FirstIwad(names[k..], host)
    {
      assert names[k..][1..] == names[k + 1..];
      var found := SortedSearch.SearchFile(names[k], host);
      if Miss(found) {
        k := k + 1;
        continue;
      }
      match found {
        case Err(e) => return Err(Fail(e));
        case Ok(ps) =>
          iwadPath := Some(ps);
          break;
      }
    }
    match iwadPath {
      case None =>
        return Err(Exit(-1));
      case Some(ps) =>
        match AbsolutePath(ps[0], host.doomDir, host.normalize) {
          case Err(e) => return Err(Fail(e));
          case Ok(p) => return Ok(p);
        }
    }
  }

  // ---------------------------------------------------------------------------
  // PWAD arguments
  // ---------------------------------------------------------------------------

  /** The extensions the PWAD argument search accepts, compared after lowering. */
  const PwadArgExtensions: seq<string> := ["wad", "pk3", "pk7", "pke", "zip", "deh", "bex"]
  /** The extensions that go to the archives. */
  const WadExtensions: seq<string> := ["wad", "pk3", "zip", "pk7", "pke"]
  /** The extensions that go to the patches. */
  const DehExtensions: seq<string> := ["deh", "bex"]

  /** The filter of the PWAD argument search: an extension that is text and, lowered,
      one of the listed ones. */
  predicate PwadArgFile(p: Path): (b: bool)
    ensures b ==> Extension(p).Some? && LowerAscii(Extension(p).value) in WadExtensions + DehExtensions
  {
    Extension(p).Some? && IsText(Extension(p).value) && LowerAscii(Extension(p).value) in PwadArgExtensions
  }

  datatype PwadClass = Wad | Deh

  /** The `match` on a chosen PWAD's lowered extension. An extension outside both lists
      reaches `unreachable!`. */
  function ClassifyPwad(p: Path): (r: Result<PwadClass, Halt>)
    ensures r.Ok? <==> PwadArgFile(p)
    ensures r == Err(Panic) ==> Extension(p).Some? && LowerAscii(Extension(p).value) !in PwadArgExtensions
  {
    match Extension(p)
    case None => Err(Fail(NoFileExtension(Render(p))))
    case Some(ext) =>
      if !IsText(ext) then Err(Fail(NonUtf8Path(ext)))
      else if LowerAscii(ext) in WadExtensions then Ok(Wad)
      else if LowerAscii(ext) in DehExtensions then Ok(Deh)
      else Err(Panic)
  }

  /** An accepted path goes to the patches exactly when its lowered extension is a patch
      extension; the failures name the missing or non-text extension. */
  lemma ClassifyPwadSpec(p: Path)
    ensures ClassifyPwad(p) == Ok(Deh) <==> PwadArgFile(p) && LowerAscii(Extension(p).value) in DehExtensions
    ensures Extension(p).None? ==> ClassifyPwad(p) == Err(Fail(NoFileExtension(Render(p))))
    ensures Extension(p).Some? && !IsText(Extension(p).value) ==>
      ClassifyPwad(p) == Err(Fail(NonUtf8Path(Extension(p).value)))
  {
  }

  /** The outcome of sorting the chosen PWADs: what went to each list, and how the
      sorting stopped, if it did. */
  datatype Sorting = Sorting(wads: seq<Path>, dehs: seq<Path>, failure: Option<Halt>)

  function Then(wads: seq<Path>, dehs: seq<Path>, rest: Sorting): Sorting {
    Sorting(wads + rest.wads, dehs + rest.dehs, rest.failure)
  }

  /** The paths are classified in order; the first that cannot be stops the sorting. */
  function ClassifyAll(ps: seq<Path>): (r: Sorting)
    ensures |r.wads| + |r.dehs| <= |ps|
    ensures r.failure.None? ==> |r.wads| + |r.dehs| == |ps|
  {
    if ps == [] then Sorting([], [], None)
    else match ClassifyPwad(ps[0])
      case Err(h) => Sorting([], [], Some(h))
      case Ok(Wad) => Then([ps[0]], [], ClassifyAll(ps[1..]))
      case Ok(Deh) => Then([], [ps[0]], ClassifyAll(ps[1..]))
  }

  /** The paths of one class, in order: the reference the sorting is measured against. */
  function OfClass(ps: seq<Path>, c: PwadClass): (r: seq<Path>)
    ensures |r| <= |ps|
  {
    if ps == [] then []
    else (if ClassifyPwad(ps[0]) == Ok(c) then [ps[0]] else []) + OfClass(ps[1..], c)
  }

  /** The sorting runs to the end exactly when the PWAD filter accepts every path, and
      it then puts each path in the list of its class, in order. */
  lemma {:induction false} ClassifyAllSorts(ps: seq<Path>)
    ensures ClassifyAll(ps).failure.None? <==> forall i :: 0 <= i < |ps| ==> PwadArgFile(ps[i])
    ensures ClassifyAll(ps).failure.None? ==> ClassifyAll(ps) == Sorting(OfClass(ps, Wad), OfClass(ps, Deh), None)
  {
    if ps != [] {
      ClassifyAllSorts(ps[1..]);
      assert forall i :: 1 <= i < |ps| ==> ps[i] == ps[1..][i - 1];
    }
  }

  /** The sorting stops at the first path the PWAD filter rejects, with that path's
      error; the paths before it are sorted by class, in order. */
  lemma {:induction false} ClassifyAllStops(ps: seq<Path>, k: nat)
    requires k < |ps| && !PwadArgFile(ps[k])
    requires forall i :: 0 <= i < k ==> PwadArgFile(ps[i])
    ensures ClassifyAll(ps) == Sorting(OfClass(ps[..k], Wad), OfClass(ps[..k], Deh), Some(ClassifyPwad(ps[k]).error))
  {
    if k == 0 {
      assert ps[..0] == [];
    } else {
      var tail := ps[1..];
      assert tail[k - 1] == ps[k];
      assert forall i :: 0 <= i < k - 1 ==> tail[i] == ps[i + 1];
      ClassifyAllStops(tail, k - 1);
      var pre := ps[..k];
      assert pre[0] == ps[0] && pre[1..] == tail[..k - 1];
      var c := ClassifyPwad(ps[0]).value;
      assert ClassifyAll(ps) == Then(if c == Wad then [ps[0]] else [], if c == Deh then [ps[0]] else [], ClassifyAll(tail));
    }
  }

  /** The accepted prefix grows by a path that classifies. */
  lemma AcceptedUpTo(ps: seq<Path>, k: nat)
    requires k < |ps| && ClassifyPwad(ps[k]).Ok?
    requires forall i :: 0 <= i < k ==> PwadArgFile(ps[i])
    ensures forall i :: 0 <= i < k + 1 ==> PwadArgFile(ps[i])
  {
  }

  /** `OfClassSnoc` behind a list the paths are appended to. */
  lemma AddedUpTo(base: seq<Path>, ps: seq<Path>, k: nat, c: PwadClass)
    requires k < |ps|
    ensures base + OfClass(ps[..k + 1], c) == base + OfClass(ps[..k], c) + (if ClassifyPwad(ps[k]) == Ok(c) then [ps[k]] else [])
  {
    OfClassSnoc(ps, k, c);
  }

  /** Classifying one more path extends the list of its class by that path. */
  lemma OfClassSnoc(ps: seq<Path>, k: nat, c: PwadClass)
    requires k < |ps|
    ensures OfClass(ps[..k + 1], c) == OfClass(ps[..k], c) + (if ClassifyPwad(ps[k]) == Ok(c) then [ps[k]] else [])
  {
    OfClassIsSelect(ps[..k + 1], c);
    OfClassIsSelect(ps[..k], c);
    SelectSnoc(ps, ClassifyPwad, k, c);
  }

  lemma {:induction false} SelectSnoc(ps: seq<Path>, classify: Path -> Result<PwadClass, Halt>, k: nat, c: PwadClass)
    requires k < |ps|
    ensures Select(ps[..k + 1], classify, c) == Select(ps[..k], classify, c) + (if classify(ps[k]) == Ok(c) then [ps[k]] else [])
  {
    var x := if classify(ps[k]) == Ok(c) then [ps[k]] else [];
    if k == 0 {
      assert ps[..1] == [ps[0]] && ps[..0] == [];
      assert Select(ps[..1], classify, c) == x + Select([], classify, c);
    } else {
      var tail := ps[1..];
      var h := if classify(ps[0]) == Ok(c) then [ps[0]] else [];
      SelectSnoc(tail, classify, k - 1, c);
      assert tail[k - 1] == ps[k];
      assert ps[..k + 1][0] == ps[0] && ps[..k + 1][1..] == tail[..k];
      assert ps[..k][0] == ps[0] && ps[..k][1..] == tail[..k - 1];
      calc {
        Select(ps[..k + 1], classify, c);
        h + Select(tail[..k], classify, c);
        h + (Select(tail[..k - 1], classify, c) + x);
        (h + Select(tail[..k - 1], classify, c)) + x;
        Select(ps[..k], classify, c) + x;
      }
    }
  }

  /** The two classes share out the accepted paths: together they hold each of them once. */
  lemma OfClassPartition(ps: seq<Path>)
    requires forall i :: 0 <= i < |ps| ==> PwadArgFile(ps[i])
    ensures multiset(OfClass(ps, Wad)) + multiset(OfClass(ps, Deh)) == multiset(ps)
  {
    AcceptedClassified(ps);
    ClassifiedPartition(ps);
  }

  lemma ClassifiedPartition(ps: seq<Path>)
    requires forall i :: 0 <= i < |ps| ==> ClassifyPwad(ps[i]).Ok?
    ensures multiset(OfClass(ps, Wad)) + multiset(OfClass(ps, Deh)) == multiset(ps)
  {
    OfClassIsSelect(ps, Wad);
    OfClassIsSelect(ps, Deh);
    SelectPartition(ps, ClassifyPwad);
  }

  lemma AcceptedClassified(ps: seq<Path>)
    requires forall i :: 0 <= i < |ps| ==> PwadArgFile(ps[i])
    ensures forall i :: 0 <= i < |ps| ==> ClassifyPwad(ps[i]).Ok?
  {
  }

  /** The paths a classification puts in class `c`, in order. */
  function Select(ps: seq<Path>, classify: Path -> Result<PwadClass, Halt>, c: PwadClass): seq<Path> {
    if ps == [] then []
    else (if classify(ps[0]) == Ok(c) then [ps[0]] else []) + Select(ps[1..], classify, c)
  }

  lemma {:induction false} OfClassIsSelect(ps: seq<Path>, c: PwadClass)
    ensures OfClass(ps, c) == Select(ps, ClassifyPwad, c)
  {
    if ps != [] {
      OfClassIsSelect(ps[1..], c);
    }
  }

  lemma {:induction false} SelectPartition(ps: seq<Path>, classify: Path -> Result<PwadClass, Halt>)
    requires forall i :: 0 <= i < |ps| ==> classify(ps[i]).Ok?
    ensures multiset(Select(ps, classify, Wad)) + multiset(Select(ps, classify, Deh)) == multiset(ps)
  {
    if ps != [] {
      var p, tail := ps[0], ps[1..];
      forall i | 0 <= i < |tail| ensures classify(tail[i]).Ok? {
        assert tail[i] == ps[i + 1];
      }
      SelectPartition(tail, classify);
      var wads, dehs := Select(tail, classify, Wad), Select(tail, classify, Deh);
      assert multiset(ps) == multiset([p]) + multiset(tail) by {
        assert ps == [p] + tail;
      }
      assert classify(p).Ok?;
      match classify(p).value {
        case Wad =>
          assert Select(ps, classify, Wad) == [p] + wads;
          assert Select(ps, classify, Deh) == [] + dehs;
          MultisetRegroup(multiset([p] + wads), multiset([] + dehs), multiset([p]), multiset(wads), multiset(dehs),
                          multiset(tail));
        case Deh =>
          assert Select(ps, classify, Wad) == [] + wads;
          assert Select(ps, classify, Deh) == [p] + dehs;
          MultisetRegroup(multiset([] + wads), multiset([p] + dehs), multiset([p]), multiset(wads), multiset(dehs),
                          multiset(tail));
      }
    }
  }

  lemma MultisetRegroup<T>(a: multiset<T>, b: multiset<T>, x: multiset<T>, c: multiset<T>, d: multiset<T>, e: multiset<T>)
    requires c + d == e && a + b == x + c + d
    ensures a + b == x + e
  {
  }

  /** One path of that loop: classified, then added to the list of its class. */
  method AddArgPwad(pwads: Pwads, pwad: Path) returns (c: Result<PwadClass, Halt>)
    modifies pwads
    ensures c == ClassifyPwad(pwad)
    ensures pwads.wads == old(pwads.wads) + (if c == Ok(Wad) then [pwad] else [])
    ensures pwads.dehs == old(pwads.dehs) + (if c == Ok(Deh) then [pwad] else [])
  {
    c := ClassifyPwad(pwad);
    match c {
      case Err(h) =>
        assert pwads.wads + [] == pwads.wads && pwads.dehs + [] == pwads.dehs;
      case Ok(Wad) =>
        pwads.AddWad(pwad);
        assert pwads.dehs + [] == pwads.dehs;
      case Ok(Deh) =>
        pwads.AddDeh(pwad);
        assert pwads.wads + [] == pwads.wads;
    }
  }

  /** The loop of `run` that adds each chosen PWAD to its list. On a failure the paths
      sorted before it stay added. */
  method AddArgPwads(pwads: Pwads, argPwads: seq<Path>) returns (r: Result<(), Halt>)
    modifies pwads
    ensures pwads.wads == old(pwads.wads) + ClassifyAll(argPwads).wads
    ensures pwads.dehs == old(pwads.dehs) + ClassifyAll(argPwads).dehs
    ensures r.Ok? <==> ClassifyAll(argPwads).failure.None?
    ensures r.Err? ==> r.error == ClassifyAll(argPwads).failure.value
  {
    var k := 0;
    assert argPwads[..0] == [];
    assert old(pwads.wads) + [] == old(pwads.wads) && old(pwads.dehs) + [] == old(pwads.dehs);
    while k < |argPwads|
      invariant 0 <= k <= |argPwads|
      invariant forall i :: 0 <= i < k ==> PwadArgFile(argPwads[i])
      invariant pwads.wads == old(pwads.wads) + OfClass(argPwads[..k], Wad)
      invariant pwads.dehs == old(pwads.dehs) + OfClass(argPwads[..k], Deh)
    {
      var c := AddArgPwad(pwads, argPwads[k]);
      if c.Err? {
        ClassifyAllStops(argPwads, k);
        return Err(c.error);
      }
      AcceptedUpTo(argPwads, k);
      AddedUpTo(old(pwads.wads), argPwads, k, Wad);
      AddedUpTo(old(pwads.dehs), argPwads, k, Deh);
      k := k + 1;
    }
    assert argPwads[..k] == argPwads;
    ClassifyAllSorts(argPwads);
    return Ok(());
  }

  /** The stems of the paths, as text; the first path without one, or with one that is
      not text, is the error. */
  function StemsOf(ps: seq<Path>): (r: Result<seq<string>, Error>)
    ensures r.Ok? <==> forall i :: 0 <= i < |ps| ==> FileStem(ps[i]).Some? && IsText(FileStem(ps[i]).value)
    ensures r.Ok? ==> |r.value| == |ps| && forall i :: 0 <= i < |ps| ==> FileStem(ps[i]) == Some(r.value[i])
  {
    if ps == [] then Ok([])
    else match FileStem(ps[0])
      case None => Err(NoFileStem(Render(ps[0])))
      case Some(stem) =>
        if !IsText(stem) then Err(NonUtf8Path(stem))
        else match StemsOf(ps[1..])
          case Err(e) => Err(e)
          case Ok(rest) =>
            assert forall i :: 1 <= i < |ps| ==> ps[i] == ps[1..][i - 1];
            Ok([stem] + rest)
  }

  /** The loop of `run` over the comma-separated PWAD terms: each term contributes every
      matching PWAD file, and the stems of everything the plain search finds for it name
      the dump folder. The first failure is the result. */
  function ResolvePwadArgs(terms: seq<string>, host: Search.Host): (r: Result<(seq<Path>, seq<string>), Error>)
    ensures host.doomDir.Err? && terms != [] ==> r == Err(host.doomDir.error)
    ensures r.Ok? ==> forall p :: p in r.value.0 ==> PwadArgFile(p)
  {
    if terms == [] then Ok(([], []))
    else match SortedSearch.SearchFileBy(terms[0], PwadArgFile, host)
      case Err(e) => Err(e)
      case Ok(files) =>
        match SortedSearch.SearchFile(terms[0], host)
        case Err(e) => Err(e)
        case Ok(named) =>
          match StemsOf(named)
          case Err(e) => Err(e)
          case Ok(stems) =>
            match ResolvePwadArgs(terms[1..], host)
            case Err(e) => Err(e)
            case Ok(rest) =>
              SortedSearch.SortedSearchAccepted(Parse(terms[0]), [host.doomDir.value, Search.PublicDoomDir], PwadArgFile, host);
              Ok((files + rest.0, stems + rest.1))
  }

  /** The PWADs the terms resolve to always sort cleanly: neither the missing-extension
      error nor `unreachable!` can happen, and each path lands in the list of its class. */
  lemma ResolvedPwadsSort(terms: seq<string>, host: Search.Host)
    requires ResolvePwadArgs(terms, host).Ok?
    ensures var ps := ResolvePwadArgs(terms, host).value.0;
      ClassifyAll(ps) == Sorting(OfClass(ps, Wad), OfClass(ps, Deh), None)
      && multiset(OfClass(ps, Wad)) + multiset(OfClass(ps, Deh)) == multiset(ps)
  {
    var ps := ResolvePwadArgs(terms, host).value.0;
    ClassifyAllSorts(ps);
    OfClassPartition(ps);
  }

  // ---------------------------------------------------------------------------
  // The video dump directory
  // ---------------------------------------------------------------------------

  /** The IWAD's file name, which names the dump directory. */
  function IwadBase(iwad: Path): (r: Result<string, Error>)
    ensures FileName(iwad).None? ==> r == Err(NoFileStem(Render(iwad)))
    ensures FileName(iwad).Some? && !IsText(FileName(iwad).value) ==> r == Err(NonUtf8Path(FileName(iwad).value))
    ensures r.Ok? ==> FileName(iwad) == Some(r.value) && IsText(r.value)
  {
    match FileName(iwad)
    case None => Err(NoFileStem(Render(iwad)))
    case Some(f) => if IsText(f) then Ok(f) else Err(NonUtf8Path(f))
  }

  /** `Videos/<IWAD file name>/<PWAD stems joined by commas>` under the dump root. */
  function DumpDir(dumpRoot: Path, iwadBase: string, folderNames: seq<string>): Path {
    Joined(Joined(Joined(dumpRoot, Parse("Videos")), Parse(iwadBase)), Parse(Join(folderNames, ',')))
  }

  /** A character found in none of the parts, other than the separator, is not in
      their join. */
  lemma {:induction false} JoinKeepsOut(parts: seq<string>, sep: char, c: char)
    requires c != sep
    requires forall i :: 0 <= i < |parts| ==> c !in parts[i]
    ensures c !in Join(parts, sep)
  {
    if |parts| > 1 {
      JoinKeepsOut(parts[1..], sep, c);
    }
  }

  /** The dump directory lies two levels under `Videos` in the dump root; the folder
      part is missing when no PWAD was named. */
  lemma DumpDirLayout(dumpRoot: Path, iwadBase: Component, folderNames: seq<string>)
    requires forall i :: 0 <= i < |folderNames| ==> '/' !in folderNames[i]
    ensures var d := DumpDir(dumpRoot, iwadBase, folderNames);
      d.absolute == dumpRoot.absolute
      && d.comps == dumpRoot.comps + ["Videos", iwadBase] + Parse(Join(folderNames, ',')).comps
  {
    FolderRelative(folderNames);
    DumpDirShape(dumpRoot, iwadBase, Parse(Join(folderNames, ',')));
  }

  /** `Videos`, the IWAD file name, then a relative folder part, joined onto a root. */
  lemma DumpDirShape(dumpRoot: Path, iwadBase: Component, folder: Path)
    requires !folder.absolute
    ensures var d := Joined(Joined(Joined(dumpRoot, Parse("Videos")), Parse(iwadBase)), folder);
      d.absolute == dumpRoot.absolute && d.comps == dumpRoot.comps + ["Videos", iwadBase] + folder.comps
  {
    JoinedComponents(dumpRoot, "Videos", iwadBase);
    JoinedRelative(Joined(Joined(dumpRoot, Parse("Videos")), Parse(iwadBase)), folder);
  }

  /** The folder part of the dump directory is a relative path. */
  lemma FolderRelative(folderNames: seq<string>)
    requires forall i :: 0 <= i < |folderNames| ==> '/' !in folderNames[i]
    ensures !Parse(Join(folderNames, ',')).absolute
  {
    JoinKeepsOut(folderNames, ',', '/');
  }

  /** Joining a relative path onto a non-empty one appends its components. */
  lemma JoinedRelative(p: Path, q: Path)
    requires !q.absolute && p != EmptyPath
    ensures Joined(p, q) == Path(p.anchor, p.comps + q.comps)
  {
  }

  /** Joining two components one after the other appends both. */
  lemma JoinedComponents(p: Path, a: Component, b: Component)
    ensures Joined(Joined(p, Parse(a)), Parse(b)) == Path(p.anchor, p.comps + [a, b])
  {
    ParseComponent(a);
    ParseComponent(b);
    assert p.comps + [a] + [b] == p.comps + [a, b];
  }

  /** Without PWADs the dump directory is `Videos/<IWAD file name>` itself. */
  lemma DumpDirWithoutPwads(dumpRoot: Path, iwadBase: Component)
    ensures DumpDir(dumpRoot, iwadBase, []) == Path(dumpRoot.anchor, dumpRoot.comps + ["Videos", iwadBase])
  {
    DumpDirLayout(dumpRoot, iwadBase, []);
    assert Parse(Join([], ',')) == EmptyPath by {
      assert Split("", '/') == [""];
      assert KeepComponents([""]) == [];
    }
    assert dumpRoot.comps + ["Videos", iwadBase] + [] == dumpRoot.comps + ["Videos", iwadBase];
  }

  /** When the stems hold no comma and their joined text is one component, the last
      component of the dump directory gives the stems back. */
  lemma DumpDirNamesPwads(dumpRoot: Path, iwadBase: Component, folderNames: seq<string>)
    requires folderNames != []
    requires forall i :: 0 <= i < |folderNames| ==> ',' !in folderNames[i]
    requires forall i :: 0 <= i < |folderNames| ==> '/' !in folderNames[i]
    requires Join(folderNames, ',') != "" && Join(folderNames, ',') != "."
    ensures var d := DumpDir(dumpRoot, iwadBase, folderNames);
      d.comps != [] && Split(d.comps[|d.comps| - 1], ',') == folderNames
  {
    JoinKeepsOut(folderNames, ',', '/');
    var folder: Component := Join(folderNames, ',');
    ParseComponent(folder);
    DumpDirLayout(dumpRoot, iwadBase, folderNames);
    SplitJoin(folderNames, ',');
  }

  // ---------------------------------------------------------------------------
  // Flag lines
  // ---------------------------------------------------------------------------

  /** `trim` leaves a word without whitespace at its ends as it is. */
  lemma TrimClean(w: string)
    requires Clean(w)
    ensures Trim(w) == w
  {
    assert TrimStart(w) == w;
    assert TrimEnd(w) == w;
  }

  /** A line whose words are all clean passes them all on. */
  lemma ArgsOfCleanLine(words: seq<string>, depth: nat, rest: seq<Line>)
    requires forall w :: w in words ==> Clean(w)
    ensures ArgsOf([FromWords(words, depth)] + rest) == words + ArgsOf(rest)
  {
    forall i | 0 <= i < |words| ensures words[i] != [] && Trim(words[i]) == words[i] {
      TrimClean(words[i]);
    }
    KeepTrimmedClean(words);
    ArgsOfAppend([FromWords(words, depth)], rest);
    ArgsOfLine(words, depth);
  }

  /** The skill pair of the engine: `+skill 3` for ZDoom, `-skill 4` for the others. */
  function SkillParam(kind: DoomEngineKind): (r: (string, string))
    ensures Clean(r.0) && Clean(r.1)
  {
    if kind == ZDoom then ("+skill", "3") else ("-skill", "4")
  }

  /** The skill line: the engine's flag with the chosen skill, or the engine's default
      pair when only a warp was asked for. */
  function SkillLines(kind: DoomEngineKind, skill: Option<string>, warp: bool): (r: seq<Line>)
    ensures |r| <= 1 && (r != [] <==> skill.Some? || warp)
  {
    var (flag, default) := SkillParam(kind);
    match skill
    case Some(s) => [FromWords([flag, s], 1)]
    case None => if warp then [FromWords([flag, default], 1)] else []
  }

  /** What the engine receives for the skill: an explicit skill follows the engine's
      flag; without one the default skill is passed only along with a warp. */
  lemma SkillArgs(kind: DoomEngineKind, skill: Option<string>, warp: bool)
    ensures skill.Some? && Clean(skill.value) ==>
      ArgsOf(SkillLines(kind, skill, warp)) == [if kind == ZDoom then "+skill" else "-skill", skill.value]
    ensures skill.None? && warp && kind == ZDoom ==> ArgsOf(SkillLines(kind, skill, warp)) == ["+skill", "3"]
    ensures skill.None? && warp && kind != ZDoom ==> ArgsOf(SkillLines(kind, skill, warp)) == ["-skill", "4"]
    ensures skill.None? && !warp ==> ArgsOf(SkillLines(kind, skill, warp)) == []
  {
    var (flag, default) := SkillParam(kind);
    assert Clean(flag) && Clean(default);
    assert ArgsOf([]) == [];
    match skill {
      case Some(s) =>
        if Clean(s) {
          PairLineArgs(flag, s);
        }
      case None =>
        if warp {
          PairLineArgs(flag, default);
        }
    }
  }

  /** A line of two clean words passes both. */
  lemma PairLineArgs(a: string, b: string)
    requires Clean(a) && Clean(b)
    ensures ArgsOf([FromWords([a, b], 1)]) == [a, b]
  {
    ArgsOfCleanLine([a, b], 1, []);
    assert ArgsOf([]) == [];
    assert [a, b] + [] == [a, b];
  }

  /** The warp line: `-warp` followed by the comma-separated parts of the option. */
  function WarpLines(warp: Option<string>): (r: seq<Line>)
    ensures |r| == if warp.Some? then 1 else 0
  {
    match warp
    case None => []
    case Some(w) => [FromWords(["-warp"] + Split(w, ','), 1)]
  }

  /** The engine receives `-warp` and each part, and the parts join back into the
      option's value. */
  lemma WarpArgs(warp: string)
    requires forall part :: part in Split(warp, ',') ==> Clean(part)
    ensures ArgsOf(WarpLines(Some(warp))) == ["-warp"] + Split(warp, ',')
    ensures Join(ArgsOf(WarpLines(Some(warp)))[1..], ',') == warp
  {
    assert ArgsOf([]) == [];
    ArgsOfCleanLine(["-warp"] + Split(warp, ','), 1, []);
    assert (["-warp"] + Split(warp, ','))[1..] == Split(warp, ',');
    JoinSplit(warp, ',');
  }

  /** Where a recorded demo goes: an absolute path is kept, a relative one is put under
      the demo directory, whose error is then passed on. */
  function RecordPath(record: string, doomDir: Result<Path, Error>): (r: Result<Path, Error>)
    ensures Parse(record).absolute ==> r == Ok(Parse(record))
    ensures !Parse(record).absolute && doomDir.Err? ==> r == Err(doomDir.error)
    ensures !Parse(record).absolute && doomDir.Ok? ==>
      r.Ok? && r.value.absolute == doomDir.value.absolute
      && r.value.comps == doomDir.value.comps + ["demo"] + Parse(record).comps
  {
    var demoPath := Parse(record);
    if demoPath.absolute then Ok(demoPath)
    else match DemoDir(doomDir)
      case Err(e) => Err(e)
      case Ok(d) =>
        ParseComponent("demo");
        Ok(Joined(d, demoPath))
  }

  /** The recording lines for a demo path: `-record` and the path, then `-longtics`
      unless short tics were asked for. */
  function RecordingLines(demo: string, shortTics: bool): (r: seq<Line>)
    ensures |r| == if shortTics then 2 else 3
  {
    [FromWord("-record", 1), FromWord(demo, 2)] + (if shortTics then [] else [FromWord("-longtics", 1)])
  }

  /** The recording options: with a demo to record, its lines; without one, short tics
      give `-shorttics`. */
  function RecordLines(record: Option<string>, shortTics: bool, doomDir: Result<Path, Error>): (r: Result<seq<Line>, Error>)
    ensures record.Some? ==> (r.Err? <==> RecordPath(record.value, doomDir).Err?)
    ensures record.Some? && r.Ok? ==> r.value == RecordingLines(Render(RecordPath(record.value, doomDir).value), shortTics)
    ensures record.None? && shortTics ==> r == Ok([FromWord("-shorttics", 1)])
    ensures record.None? && !shortTics ==> r == Ok([])
  {
    match record
    case None => Ok(if shortTics then [FromWord("-shorttics", 1)] else [])
    case Some(rec) =>
      match RecordPath(rec, doomDir)
      case Err(e) => Err(e)
      case Ok(p) => Ok(RecordingLines(Render(p), shortTics))
  }

  /** A one-word line passes on a clean word. */
  lemma ArgsOfWord(w: string, depth: nat)
    requires Clean(w)
    ensures ArgsOf([FromWord(w, depth)]) == [w]
  {
    FromWordIsFromWords(w, depth);
    TrimClean(w);
    ArgsOfLine([w], depth);
    KeepTrimmedClean([w]);
  }

  /** A line of one clean word passes it on ahead of what follows. */
  lemma ArgsOfWordThen(w: string, depth: nat, rest: seq<Line>)
    requires Clean(w)
    ensures ArgsOf([FromWord(w, depth)] + rest) == [w] + ArgsOf(rest)
  {
    ArgsOfWord(w, depth);
    ArgsOfAppend([FromWord(w, depth)], rest);
  }

  /** A line of one clean word that is there only when asked for. */
  lemma OptionalWordArgs(present: bool, w: string, depth: nat, rest: seq<Line>)
    requires Clean(w)
    ensures ArgsOf((if present then [FromWord(w, depth)] else []) + rest) == (if present then [w] else []) + ArgsOf(rest)
  {
    if present {
      ArgsOfWordThen(w, depth, rest);
    } else {
      assert [] + rest == rest;
    }
  }

  /** What the engine receives when recording: `-record`, the demo path, and
      `-longtics` exactly when short tics were not asked for. */
  lemma RecordingArgs(demo: string, shortTics: bool)
    requires Clean(demo)
    ensures ArgsOf(RecordingLines(demo, shortTics)) == ["-record", demo] + (if shortTics then [] else ["-longtics"])
  {
    assert Clean("-record") && Clean("-longtics");
    TwoWordsThenOptional("-record", demo, "-longtics", !shortTics);
  }

  /** Two clean words, on lines at depths 1 and 2, then a third one at depth 1 when
      asked for. */
  lemma TwoWordsThenOptional(a: string, b: string, c: string, present: bool)
    requires Clean(a) && Clean(b) && Clean(c)
    ensures ArgsOf([FromWord(a, 1), FromWord(b, 2)] + (if present then [FromWord(c, 1)] else []))
            == [a, b] + (if present then [c] else [])
  {
    var tail := if present then [FromWord(c, 1)] else [];
    var tailArgs := if present then [c] else [];
    assert ArgsOf(tail) == tailArgs by {
      assert ArgsOf([]) == [];
      OptionalWordArgs(present, c, 1, []);
      Regroup([], tail, []);
      Regroup([], tailArgs, []);
    }
    TwoWordsThen(a, b, tail);
  }

  /** Two clean words, on lines at depths 1 and 2, in front of other lines. */
  lemma TwoWordsThen(a: string, b: string, rest: seq<Line>)
    requires Clean(a) && Clean(b)
    ensures ArgsOf([FromWord(a, 1), FromWord(b, 2)] + rest) == [a, b] + ArgsOf(rest)
  {
    var la, lb := FromWord(a, 1), FromWord(b, 2);
    calc {
      ArgsOf([la, lb] + rest);
      { assert [la, lb] == [la] + [lb]; Regroup([la], [lb], rest); }
      ArgsOf([la] + ([lb] + rest));
      { ArgsOfWordThen(a, 1, [lb] + rest); }
      [a] + ArgsOf([lb] + rest);
      { ArgsOfWordThen(b, 2, rest); }
      [a] + ([b] + ArgsOf(rest));
      { assert [a, b] == [a] + [b]; Regroup([a], [b], ArgsOf(rest)); }
      [a, b] + ArgsOf(rest);
    }
  }

  /** Without recording, the engine receives `-shorttics` exactly when short tics were
      asked for. */
  lemma ShortTicsArgs(shortTics: bool, doomDir: Result<Path, Error>)
    ensures ArgsOf(RecordLines(None, shortTics, doomDir).value) == if shortTics then ["-shorttics"] else []
  {
    OptionalWordArgs(shortTics, "-shorttics", 1, []);
    var lines: seq<Line> := if shortTics then [FromWord("-shorttics", 1)] else [];
    assert lines + [] == lines;
    var words: seq<string> := if shortTics then ["-shorttics"] else [];
    assert words + [] == words;
  }

  /** `-recordfromto` and the first two values of the option on the next line; fewer
      than two values make the slice panic. */
  function RecordFromToLines(fromTo: Option<seq<string>>): (r: Result<seq<Line>, Halt>)
    ensures fromTo.None? ==> r == Ok([])
    ensures fromTo.Some? ==> (r == Err(Panic) <==> |fromTo.value| < 2)
  {
    match fromTo
    case None => Ok([])
    case Some(v) =>
      if |v| < 2 then Err(Panic)
      else Ok([FromWord("-recordfromto", 1), FromWords(v[0..2], 2)])
  }

  /** The engine receives `-recordfromto` and the two values. */
  lemma RecordFromToArgs(v: seq<string>)
    requires |v| >= 2 && Clean(v[0]) && Clean(v[1])
    ensures RecordFromToLines(Some(v)).Ok?
    ensures ArgsOf(RecordFromToLines(Some(v)).value) == ["-recordfromto", v[0], v[1]]
  {
    var pair := v[0..2];
    assert pair == [v[0], v[1]];
    var flag, line := FromWord("-recordfromto", 1), FromWords(pair, 2);
    assert [flag, line] == [flag] + [line];
    assert ["-recordfromto"] + pair == ["-recordfromto", v[0], v[1]];
    assert forall w :: w in pair ==> Clean(w);
    assert ArgsOf([]) == [];
    ArgsOfCleanLine(pair, 2, []);
    Regroup([], [line], []);
    Regroup([], pair, []);
    ArgsOfWordThen("-recordfromto", 1, [line]);
  }

  function OrDefault(value: Option<string>, default: string): string {
    if value.Some? then value.value else default
  }

  /** The compatibility level, pistol start, video mode and geometry lines, with the
      defaults `9`, `GL` and `2560x1440F`. */
  function SettingsLines(complevel: Option<string>, pistolStart: bool, videoMode: Option<string>, geometry: Option<string>)
    : (r: seq<Line>)
    ensures |r| == if pistolStart then 4 else 3
  {
    [FromWords(["-complevel", OrDefault(complevel, "9")], 1)]
    + (if pistolStart then [FromWord("-pistolstart", 1)] else [])
    + [FromWords(["-vidmode", OrDefault(videoMode, "GL")], 1)]
    + [FromWords(["-geom", OrDefault(geometry, "2560x1440F")], 1)]
  }

  /** What the engine receives for the settings: each flag with the given value or its
      default, and `-pistolstart` only when asked for. */
  lemma SettingsArgs(complevel: Option<string>, pistolStart: bool, videoMode: Option<string>, geometry: Option<string>)
    requires complevel.Some? ==> Clean(complevel.value)
    requires videoMode.Some? ==> Clean(videoMode.value)
    requires geometry.Some? ==> Clean(geometry.value)
    ensures ArgsOf(SettingsLines(complevel, pistolStart, videoMode, geometry)) ==
      ["-complevel", OrDefault(complevel, "9")]
      + (if pistolStart then ["-pistolstart"] else [])
      + ["-vidmode", OrDefault(videoMode, "GL"), "-geom", OrDefault(geometry, "2560x1440F")]
  {
    FlagLinesArgs("-complevel", OrDefault(complevel, "9"), pistolStart, "-pistolstart",
                  "-vidmode", OrDefault(videoMode, "GL"), "-geom", OrDefault(geometry, "2560x1440F"));
  }

  /** The shape of the settings lines: a flag with its value, an optional switch, and two
      more flags with their values. */
  lemma FlagLinesArgs(f1: string, v1: string, on: bool, sw: string, f2: string, v2: string, f3: string, v3: string)
    requires Clean(f1) && Clean(v1) && Clean(sw) && Clean(f2) && Clean(v2) && Clean(f3) && Clean(v3)
    ensures ArgsOf([FromWords([f1, v1], 1)] + (if on then [FromWord(sw, 1)] else []) + [FromWords([f2, v2], 1)] + [FromWords([f3, v3], 1)])
      == [f1, v1] + (if on then [sw] else []) + [f2, v2, f3, v3]
  {
    var last := [FromWords([f3, v3], 1)];
    var mid := [FromWords([f2, v2], 1)];
    var opt := if on then [FromWord(sw, 1)] else [];
    var first := [FromWords([f1, v1], 1)];
    assert [f2, v2] + [f3, v3] == [f2, v2, f3, v3];
    assert ArgsOf([]) == [];
    FlagValueArgs(f3, v3, []);
    Regroup([], last, []);
    FlagValueArgs(f2, v2, last);
    OptionalWordArgs(on, sw, 1, mid + last);
    FlagValueArgs(f1, v1, opt + (mid + last));
    Regroup(first, opt, mid + last);
    Regroup(first + opt, mid, last);
    Regroup([], [f3, v3], []);
    Regroup([f1, v1], if on then [sw] else [], [f2, v2, f3, v3]);
  }

  /** Concatenation regroups freely, and the empty sequence is its unit. */
  lemma Regroup<T>(a: seq<T>, b: seq<T>, c: seq<T>)
    ensures a + (b + c) == a + b + c
    ensures a + [] == a && [] + a == a
  {
  }

  /** A line of a flag and its value passes both on when they are clean. */
  lemma FlagValueArgs(flag: string, value: string, rest: seq<Line>)
    requires Clean(flag) && Clean(value)
    ensures ArgsOf([FromWords([flag, value], 1)] + rest) == [flag, value] + ArgsOf(rest)
  {
    ArgsOfCleanLine([flag, value], 1, rest);
  }

  /** The `-nomonsters`, `-fast` and `-respawn` switches, each present when asked for. */
  function SwitchLines(noMonsters: bool, fast: bool, respawn: bool): (r: seq<Line>)
    ensures |r| == (if noMonsters then 1 else 0) + (if fast then 1 else 0) + (if respawn then 1 else 0)
  {
    Switch(noMonsters, "-nomonsters") + Switch(fast, "-fast") + Switch(respawn, "-respawn")
  }

  /** A switch's line, when it is on. */
  function Switch(on: bool, w: string): seq<Line> {
    if on then [FromWord(w, 1)] else []
  }

  /** The engine receives exactly the switches asked for, in that order. */
  lemma SwitchArgs(noMonsters: bool, fast: bool, respawn: bool)
    ensures ArgsOf(SwitchLines(noMonsters, fast, respawn)) ==
      (if noMonsters then ["-nomonsters"] else []) + (if fast then ["-fast"] else []) + (if respawn then ["-respawn"] else [])
  {
    assert Clean("-nomonsters") && Clean("-fast") && Clean("-respawn");
    ThreeSwitchArgs(noMonsters, "-nomonsters", fast, "-fast", respawn, "-respawn");
  }

  lemma ThreeSwitchArgs(x: bool, a: string, y: bool, b: string, z: bool, c: string)
    requires Clean(a) && Clean(b) && Clean(c)
    ensures ArgsOf(Switch(x, a) + Switch(y, b) + Switch(z, c)) ==
      (if x then [a] else []) + (if y then [b] else []) + (if z then [c] else [])
  {
    ArgsOfAppend(Switch(x, a) + Switch(y, b), Switch(z, c));
    ArgsOfAppend(Switch(x, a), Switch(y, b));
    SwitchArgsOne(x, a);
    SwitchArgsOne(y, b);
    SwitchArgsOne(z, c);
  }

  lemma SwitchArgsOne(on: bool, w: string)
    requires Clean(w)
    ensures ArgsOf(Switch(on, w)) == if on then [w] else []
  {
    if on {
      ArgsOfWord(w, 1);
    }
  }
}

=== FILE: paths.dfy ===
/**
 * Paths as Rust's `Path::components` sees them: how the path starts (at the root, at
 * a leading `.`, or directly with a name) and its normal components; every other `.`
 * component and every empty one is dropped. The text of a path is its canonical
 * rendering ("/" or "./" in front, components joined by '/').
 */
module Paths {
  import opened Wrappers
  import opened Text

  /** A normal path component: non-empty, without separator, not `.`. */
  type Component = c: string | c != "" && c != "." && '/' !in c witness "_"

  /** The start of a path: `RootDir`, a leading `.` (`CurDir`, which Rust keeps only in
      front of a relative path), or neither. */
  datatype Anchor = RootDir | CurDir | Unanchored

  datatype Path = Path(anchor: Anchor, comps: seq<Component>) {
    /** `Path::is_absolute` */
    const absolute: bool := anchor == RootDir
  }

  /** The empty path `""`. */
  const EmptyPath: Path := Path(Unanchored, [])

  /** `Path::to_string_lossy`: the text of the path. */
  function Render(p: Path): string {
    match p.anchor
    case RootDir => "/" + Join(p.comps, '/')
    case CurDir => if p.comps == [] then "." else "./" + Join(p.comps, '/')
    case Unanchored => Join(p.comps, '/')
  }

  /** `Path::to_str`: the text of the path when every unit of it is text. */
  function ToStr(p: Path): (r: Option<string>)
    ensures r.Some? <==> IsText(Render(p))
    ensures r.Some? ==> r.value == Render(p)
  {
    if IsText(Render(p)) then Some(Render(p)) else None
  }

  /** The pieces of a split that are normal components. */
  function KeepComponents(parts: seq<string>): (cs: seq<Component>)
    requires forall i :: 0 <= i < |parts| ==> '/' !in parts[i]
  {
    if parts == [] then []
    else if parts[0] == "" || parts[0] == "." then KeepComponents(parts[1..])
    else [parts[0]] + KeepComponents(parts[1..])
  }

  /** `PathBuf::from(s)`, seen through its components: a leading '/' is the root, a
      leading `.` piece (`.` alone or `./...`) is `CurDir`. */
  function Parse(s: string): Path {
    var parts := Split(s, '/');
    var anchor := if |s| > 0 && s[0] == '/' then RootDir else if parts[0] == "." then CurDir else Unanchored;
    Path(anchor, KeepComponents(parts))
  }

  /** A path starts at the root exactly when its text starts with '/', and at `.`
      exactly when its text is `.` or starts with `./`. */
  lemma ParseStart(s: string)
    ensures Parse(s).anchor == RootDir <==> |s| > 0 && s[0] == '/'
    ensures Parse(s).anchor == CurDir <==> s == "." || (|s| >= 2 && s[0] == '.' && s[1] == '/')
  {
    var parts := Split(s, '/');
    if '/' in s {
      var k := IndexOf(s, '/');
      assert parts[0] == s[..k];
      if |s| >= 2 && s[0] == '.' && s[1] == '/' {
        assert k == 1;
      }
      if s[..k] == "." {
        assert k == 1 && s[0] == '.' && s[1] == '/';
      }
    }
  }

  lemma {:induction false} KeepAllComponents(cs: seq<Component>)
    ensures KeepComponents(cs) == cs
  {
    if cs != [] {
      KeepAllComponents(cs[1..]);
    }
  }

  lemma JoinStartsWithFirst(cs: seq<Component>)
    requires cs != []
    ensures Join(cs, '/') != [] && Join(cs, '/')[0] == cs[0][0]
  {
  }

  /** A string without '/' is a single piece. */
  lemma SplitNoSeparator(s: string)
    requires '/' !in s
    ensures Split(s, '/') == [s]
  {
  }

  /** A string that starts with `lead` and a '/' splits into `lead` and the pieces of
      the rest. */
  lemma SplitAfterLead(lead: string, rest: string)
    requires '/' !in lead
    ensures Split(lead + "/" + rest, '/') == [lead] + Split(rest, '/')
  {
    var s := lead + "/" + rest;
    assert s[|lead|] == '/';
    assert s[..|lead|] == lead;
    assert forall i :: 0 <= i < |lead| ==> s[i] == lead[i];
    assert s[|lead| + 1..] == rest;
  }

  /** Reading back the text of a path gives the same path. */
  lemma ParseRender(p: Path)
    ensures Parse(Render(p)) == p
  {
    var j := Join(p.comps, '/');
    var s := Render(p);
    var parts := if p.comps == [] then [""] else p.comps;
    assert Split(j, '/') == parts by {
      if p.comps != [] { SplitJoin(p.comps, '/'); }
    }
    assert KeepComponents(parts) == p.comps by {
      if p.comps != [] { KeepAllComponents(p.comps); }
    }
    match p.anchor
    case RootDir =>
      assert s == "/" + j;
      assert "" + "/" + j == s;
      SplitAfterLead("", j);
      assert KeepComponents([""] + parts) == KeepComponents(parts);
    case CurDir =>
      if p.comps == [] {
        assert s == ".";
        SplitNoSeparator(s);
      } else {
        assert s == "." + "/" + j;
        SplitAfterLead(".", j);
        assert KeepComponents(["."] + parts) == KeepComponents(parts);
      }
    case Unanchored =>
      assert s == j;
      if p.comps != [] {
        JoinStartsWithFirst(p.comps);
        assert parts[0] != ".";
      }
  }

  /** A single component reads as the relative path holding only that component. */
  lemma ParseComponent(c: Component)
    ensures Parse(c) == Path(Unanchored, [c])
  {
    ParseRender(Path(Unanchored, [c]));
  }

  /** `Path::file_name`: the last component, unless the path ends in the root or `..`. */
  function FileName(p: Path): Option<Component> {
    if p.comps == [] || p.comps[|p.comps| - 1] == ".." then None
    else Some(p.comps[|p.comps| - 1])
  }

  /** Rust's `rsplit_file_at_dot`, resolved into (stem, extension): a file name is cut
      at its last '.', unless that '.' is its first character or there is none. */
  function SplitAtDot(f: string): (string, Option<string>) {
    var k := LastIndexOf(f, '.');
    if k <= 0 then (f, None) else (f[..k], Some(f[k + 1..]))
  }

  /** `Path::file_stem` */
  function FileStem(p: Path): Option<string> {
    match FileName(p)
    case None => None
    case Some(f) => Some(SplitAtDot(f).0)
  }

  /** `Path::extension` */
  function Extension(p: Path): Option<string> {
    match FileName(p)
    case None => None
    case Some(f) => SplitAtDot(f).1
  }

  /** Stem and extension cut the file name at a dot: the stem is never empty, the
      extension holds no dot, and without an extension the stem is the whole name. */
  lemma StemAndExtension(p: Path)
    ensures FileStem(p).Some? <==> FileName(p).Some?
    ensures Extension(p).Some? ==> FileName(p).Some?
    ensures FileStem(p).Some? ==> FileStem(p).value != [] && '/' !in FileStem(p).value
    ensures Extension(p).Some? ==>
      FileStem(p).value + "." + Extension(p).value == FileName(p).value && '.' !in Extension(p).value
    ensures FileName(p).Some? && Extension(p).None? ==> FileStem(p).value == FileName(p).value
  {
    if FileName(p).Some? {
      var f := FileName(p).value;
      var k := LastIndexOf(f, '.');
      if k > 0 {
        assert f == f[..k] + "." + f[k + 1..];
        assert forall i :: 0 <= i < k ==> f[..k][i] == f[i];
      }
    }
  }

  /** `PathBuf::pop`: drop the last component; a lone `.` pops to the empty path, and
      the root and the empty path stay. */
  function Parent(p: Path): (r: Path)
    ensures r.absolute == p.absolute
    ensures p.comps != [] ==> r.anchor == p.anchor && r.comps + [p.comps[|p.comps| - 1]] == p.comps
    ensures p.comps == [] && p.anchor == CurDir ==> r == EmptyPath
    ensures p.comps == [] && p.anchor != CurDir ==> r == p
  {
    if p.comps != [] then Path(p.anchor, p.comps[..|p.comps| - 1])
    else if p.anchor == CurDir then EmptyPath
    else p
  }

  /** `Path::ancestors().skip(1)`: the proper ancestors, nearest first, down to the
      root or the empty path; a path that starts with `.` reaches `.` and then the
      empty path. */
  function Ancestors(p: Path): (r: seq<Path>)
    ensures |r| == |p.comps| + (if p.anchor == CurDir then 1 else 0)
  {
    var n := |p.comps|;
    seq(n, i requires 0 <= i < n => Path(p.anchor, p.comps[..n - 1 - i]))
      + (if p.anchor == CurDir then [EmptyPath] else [])
  }

  /** Each ancestor is the parent of the previous one, starting from the path's parent,
      and the last one has no parent of its own (it is the root or the empty path). */
  lemma AncestorsAreParents(p: Path)
    ensures |Ancestors(p)| > 0 ==> Ancestors(p)[0] == Parent(p)
    ensures forall i :: 0 < i < |Ancestors(p)| ==> Ancestors(p)[i] == Parent(Ancestors(p)[i - 1])
    ensures |Ancestors(p)| > 0 ==>
      var last := Ancestors(p)[|Ancestors(p)| - 1];
      last.comps == [] && last.anchor != CurDir && Parent(last) == last
  {
  }

  /** `PathBuf::join` / `push`: an absolute argument replaces the path, a relative one
      is appended to it; pushed onto the empty path it is taken as it is. */
  function Joined(p: Path, q: Path): (r: Path)
    ensures q.absolute ==> r == q
    ensures !q.absolute ==> r.absolute == p.absolute && |r.comps| == |p.comps| + |q.comps|
    ensures !q.absolute ==> r.comps[..|p.comps|] == p.comps && r.comps[|p.comps|..] == q.comps
    ensures !q.absolute && p != EmptyPath ==> r.anchor == p.anchor
    ensures p == EmptyPath ==> r == q
  {
    if q.absolute then q
    else Path(if p == EmptyPath then q.anchor else p.anchor, p.comps + q.comps)
  }

  /** Joining a file name onto a directory: the name becomes the last component. */
  lemma JoinedName(dir: Path, c: Component)
    ensures FileName(Joined(dir, Parse(c))) == if c == ".." then None else Some(c)
    ensures Parent(Joined(dir, Parse(c))) == dir
  {
    ParseComponent(c);
    assert Joined(dir, Parse(c)).comps == dir.comps + [c];
  }
}

=== FILE: pwads.dfy ===
/**
 * src/pwads.rs: the PWADs chosen for a launch, kept as two lists in the order they were
 * added: WAD-like archives and DeHackEd patches.
 */
module PwadLists {
  import opened Paths

  class Pwads {
    var wads: seq<Path>
    var dehs: seq<Path>

    /** `Pwads::new`: both lists empty. */
    constructor()
      ensures wads == [] && dehs == []
    {
      wads := [];
      dehs := [];
    }

    /** `add_wads`: appends all the paths in order; the patches are untouched. */
    method AddWads(paths: seq<Path>)
      modifies this
      ensures wads == old(wads) + paths && dehs == old(dehs)
    {
      wads := wads + paths;
    }

    /** `add_wad`: appends one path. */
    method AddWad(wad: Path)
      modifies this
      ensures wads == old(wads) + [wad] && dehs == old(dehs)
    {
      wads := wads + [wad];
    }

    /** `add_dehs`: appends all the paths in order; the archives are untouched. */
    method AddDehs(paths: seq<Path>)
      modifies this
      ensures dehs == old(dehs) + paths && wads == old(wads)
    {
      dehs := dehs + paths;
    }

    /** `add_deh`: appends one path. */
    method AddDeh(deh: Path)
      modifies this
      ensures dehs == old(dehs) + [deh] && wads == old(wads)
    {
      dehs := dehs + [deh];
    }

    /** `wads`: the archives in the order added. */
    function Wads(): (r: seq<Path>)
      reads this
      ensures r == wads
    {
      wads
    }

    /** `dehs`: the patches in the order added. */
    function Dehs(): (r: seq<Path>)
      reads this
      ensures r == dehs
    {
      dehs
    }
  }
}

=== FILE: render.dfy ===
// The render subcommand: demos named on the command line become rendering jobs, each
// job is rendered by one Doom run, and between runs the operator may interrupt to add
// demos to the queue or to hold the queue.  src/render.rs and its copy at the end of
// `run` in src/main.rs are the same code except for the demo search they use; both are
// modelled here, with the search passed in as a resolver.
module Render {
  import opened Wrappers
  import opened Errors
  import opened Text
  import opened Paths
  import opened Cmd
  import opened Launch
  import Search
  import SortedSearch

  /** A rendering job: the name shown in the queue, the demo and the video it is dumped to. */
  datatype Job = Job(name: string, demoName: Path, videoName: Path)

  /** How a demo name is resolved to demo files. */
  type Resolver = string -> Result<seq<Path>, Error>

  /** The resolver of src/render.rs: the keep-best search. */
  function KeepBestResolver(host: Search.Host): (r: Resolver)
    ensures forall n :: r(n).Ok? ==> |r(n).value| == 1
  {
    (name: string) => Search.SearchFile(name, host)
  }

  /** The resolver of the copy in src/main.rs: the sorted search. */
  function SortedResolver(host: Search.Host): (r: Resolver)
    ensures forall n :: r(n).Ok? ==> r(n).value != []
  {
    (name: string) => SortedSearch.SearchFile(name, host)
  }

  /** How Doom is started for a job once the process spawns. */
  type Launcher = Job -> Result<Launch, Halt>

  /** `run_doom` with a successful spawn on the base command line followed by the job's
      lines, for a file system where `present` says which files exist. */
  function DoomLauncher(base: seq<Line>, present: Path -> bool): (l: Launcher)
    ensures forall job :: l(job).Err? ==> l(job).error.Fail? && l(job).error.error.FileNotFound?
  {
    assert forall job :: Words(base + RenderLines(job)) != [] by {
      forall job ensures Words(base + RenderLines(job)) != [] {
        WordsAppend(base, RenderLines(job));
      }
    }
    (job: Job) => RunDoom(Words(base + RenderLines(job)), present, Ok(()))
  }

  /** `run_doom` checks the binary before it spawns: its outcome is the launcher's
      error, or the spawn's error, or the launch. */
  lemma SpawnAfterChecks(base: seq<Line>, job: Job, present: Path -> bool, spawn: Result<(), IoKind>)
    ensures RunDoom(Words(base + RenderLines(job)), present, spawn) ==
      match DoomLauncher(base, present)(job)
      case Err(h) => Err(h)
      case Ok(l) => if spawn.Err? then Err(Fail(RunningDoom(spawn.error))) else Ok(l)
  {
  }

  /** The video of a demo with this stem: the stem with ".mp4" appended, directly in the
      dump directory. */
  function VideoName(dumpDir: Path, stem: string): (r: Path)
    ensures stem != [] && '/' !in stem ==> Parent(r) == dumpDir && FileName(r) == Some(stem + ".mp4")
  {
    if stem != [] && '/' !in stem then
      SuffixedComponent(stem, ".mp4");
      var c: Component := stem + ".mp4";
      JoinedName(dumpDir, c);
      Joined(dumpDir, Parse(stem + ".mp4"))
    else Joined(dumpDir, Parse(stem + ".mp4"))
  }

  lemma SuffixedComponent(stem: string, suffix: string)
    requires stem != [] && '/' !in stem
    requires suffix != [] && suffix[0] == '.' && '/' !in suffix && suffix != "."
    ensures stem + suffix != "" && stem + suffix != "." && stem + suffix != ".."
    ensures '/' !in stem + suffix
  {
    var c := stem + suffix;
    assert |c| >= 2;
    forall i | 0 <= i < |c| ensures c[i] != '/' {
      if i < |stem| { assert c[i] == stem[i]; } else { assert c[i] == suffix[i - |stem|]; }
    }
  }

  // ---------------------------------------------------------------------------
  // collect_renderings
  // ---------------------------------------------------------------------------

  /** One demo found for the render list, as a job: the dump directory is created when
      missing, the demo's stem names the job and its video; a stem that is not text
      panics at `unwrap`. */
  function JobFor(demo: Path, dumpDir: Path, ready: Result<(), IoKind>): (r: Result<Job, Halt>)
    ensures ready.Err? ==> r == Err(Fail(Io(ready.error)))
    ensures ready.Ok? && FileStem(demo).None? ==> r == Err(Fail(NoFileStem(Render(demo))))
    ensures ready.Ok? && FileStem(demo).Some? && !IsText(FileStem(demo).value) ==> r == Err(Panic)
    ensures r.Ok? <==> ready.Ok? && FileStem(demo).Some? && IsText(FileStem(demo).value)
    ensures r.Ok? ==> r.value.demoName == demo && FileStem(demo) == Some(r.value.name)
  {
    match ready
    case Err(k) => Err(Fail(Io(k)))
    case Ok(_) =>
      match FileStem(demo)
      case None => Err(Fail(NoFileStem(Render(demo))))
      case Some(stem) =>
        if IsText(stem) then Ok(Job(stem, demo, VideoName(dumpDir, stem))) else Err(Panic)
  }

  /** The jobs of the demos found for one term, stopping at the first failure. */
  function CollectJobs(demos: seq<Path>, dumpDir: Path, ready: Result<(), IoKind>): (r: Result<seq<Job>, Halt>)
    ensures r.Ok? ==> |r.value| == |demos|
  {
    if demos == [] then Ok([])
    else match JobFor(demos[0], dumpDir, ready)
      case Err(h) => Err(h)
      case Ok(j) =>
        match CollectJobs(demos[1..], dumpDir, ready)
        case Err(h) => Err(h)
        case Ok(js) => Ok([j] + js)
  }

  /** The render list term by term: a term whose search fails or finds nothing ends the
      program with status -1; the demos of each term become jobs before the next term is
      searched. */
  function CollectTerms(terms: seq<string>, resolve: Resolver, dumpDir: Path, ready: Result<(), IoKind>)
    : (r: Result<seq<Job>, Halt>)
    ensures r.Ok? ==> |r.value| >= |terms|
  {
    if terms == [] then Ok([])
    else match resolve(terms[0])
      case Err(_) => Err(Exit(-1))
      case Ok(demos) =>
        if demos == [] then Err(Exit(-1))
        else match CollectJobs(demos, dumpDir, ready)
          case Err(h) => Err(h)
          case Ok(js) =>
            match CollectTerms(terms[1..], resolve, dumpDir, ready)
            case Err(h) => Err(h)
            case Ok(rest) => Ok(js + rest)
  }

  /** `collect_renderings`: the render list is split at ':'. */
  function CollectRenderings(matches: string, resolve: Resolver, dumpDir: Path, ready: Result<(), IoKind>)
    : (r: Result<seq<Job>, Halt>)
    ensures r.Ok? ==> r.value != []
  {
    CollectTerms(Split(matches, ':'), resolve, dumpDir, ready)
  }

  /** The renderings of `run`: none without a render list. */
  function Renderings(render: Option<string>, resolve: Resolver, dumpDir: Path, ready: Result<(), IoKind>)
    : (r: Result<seq<Job>, Halt>)
    ensures render.None? ==> r == Ok([])
    ensures render.Some? ==> r == CollectRenderings(render.value, resolve, dumpDir, ready)
  {
    match render
    case None => Ok([])
    case Some(m) => CollectRenderings(m, resolve, dumpDir, ready)
  }

  /** Every demo the terms resolve to, in term order. */
  function Found(terms: seq<string>, resolve: Resolver): seq<Path> {
    if terms == [] then []
    else (if resolve(terms[0]).Ok? then resolve(terms[0]).value else []) + Found(terms[1..], resolve)
  }

  function DemosOf(js: seq<Job>): (r: seq<Path>)
    ensures |r| == |js| && forall i :: 0 <= i < |js| ==> r[i] == js[i].demoName
  {
    if js == [] then [] else [js[0].demoName] + DemosOf(js[1..])
  }

  lemma DemosOfAppend(a: seq<Job>, b: seq<Job>)
    ensures DemosOf(a + b) == DemosOf(a) + DemosOf(b)
  {
  }

  /** The jobs of one term are exactly its demos' jobs, in order, unless one demo fails. */
  lemma {:induction false} CollectJobsExactly(demos: seq<Path>, dumpDir: Path, ready: Result<(), IoKind>)
    ensures CollectJobs(demos, dumpDir, ready).Ok? <==> forall d :: d in demos ==> JobFor(d, dumpDir, ready).Ok?
    ensures CollectJobs(demos, dumpDir, ready).Ok? ==>
      var js := CollectJobs(demos, dumpDir, ready).value;
      DemosOf(js) == demos && forall i :: 0 <= i < |js| ==> JobFor(demos[i], dumpDir, ready) == Ok(js[i])
  {
    if demos != [] {
      CollectJobsExactly(demos[1..], dumpDir, ready);
      assert forall d :: d in demos <==> d == demos[0] || d in demos[1..];
      var r := CollectJobs(demos, dumpDir, ready);
      if r.Ok? {
        var j := JobFor(demos[0], dumpDir, ready).value;
        var js := CollectJobs(demos[1..], dumpDir, ready).value;
        assert r.value == [j] + js;
        DemosOfAppend([j], js);
        assert demos == [demos[0]] + demos[1..];
      }
    }
  }

  /** `collect_renderings` succeeds exactly when every term finds at least one demo and
      every demo found yields a job; the jobs are then those of the demos found, in
      term order. */
  lemma CollectTermsExactly(terms: seq<string>, resolve: Resolver, dumpDir: Path, ready: Result<(), IoKind>)
    ensures CollectTerms(terms, resolve, dumpDir, ready).Ok? <==>
      && (forall t :: t in terms ==> resolve(t).Ok? && resolve(t).value != [])
      && (forall d :: d in Found(terms, resolve) ==> JobFor(d, dumpDir, ready).Ok?)
    ensures CollectTerms(terms, resolve, dumpDir, ready).Ok? ==>
      var js := CollectTerms(terms, resolve, dumpDir, ready).value;
      DemosOf(js) == Found(terms, resolve)
      && forall i :: 0 <= i < |js| ==> JobFor(js[i].demoName, dumpDir, ready) == Ok(js[i])
  {
    CollectTermsOk(terms, resolve, dumpDir, ready);
    if CollectTerms(terms, resolve, dumpDir, ready).Ok? {
      CollectTermsJobs(terms, resolve, dumpDir, ready);
    }
  }

  lemma {:induction false} CollectTermsOk(terms: seq<string>, resolve: Resolver, dumpDir: Path,
                                          ready: Result<(), IoKind>)
    ensures CollectTerms(terms, resolve, dumpDir, ready).Ok? <==>
      && (forall t :: t in terms ==> resolve(t).Ok? && resolve(t).value != [])
      && (forall d :: d in Found(terms, resolve) ==> JobFor(d, dumpDir, ready).Ok?)
  {
    if terms != [] {
      CollectTermsOk(terms[1..], resolve, dumpDir, ready);
      assert forall t :: t in terms <==> t == terms[0] || t in terms[1..];
      var first := resolve(terms[0]);
      if first.Ok? && first.value != [] {
        CollectJobsExactly(first.value, dumpDir, ready);
        assert Found(terms, resolve) == first.value + Found(terms[1..], resolve);
        assert forall d :: d in Found(terms, resolve) <==> d in first.value || d in Found(terms[1..], resolve);
      }
    }
  }

  lemma CollectTermsJobs(terms: seq<string>, resolve: Resolver, dumpDir: Path, ready: Result<(), IoKind>)
    requires CollectTerms(terms, resolve, dumpDir, ready).Ok?
    ensures var js := CollectTerms(terms, resolve, dumpDir, ready).value;
      DemosOf(js) == Found(terms, resolve)
      && forall i :: 0 <= i < |js| ==> JobFor(js[i].demoName, dumpDir, ready) == Ok(js[i])
  {
    CollectTermsDemos(terms, resolve, dumpDir, ready);
    CollectTermsValid(terms, resolve, dumpDir, ready);
    var js := CollectTerms(terms, resolve, dumpDir, ready).value;
    assert forall i :: 0 <= i < |js| ==> js[i] in js;
  }

  /** The demos of the collected jobs are the demos found, in order. */
  lemma {:induction false} CollectTermsDemos(terms: seq<string>, resolve: Resolver, dumpDir: Path,
                                             ready: Result<(), IoKind>)
    requires CollectTerms(terms, resolve, dumpDir, ready).Ok?
    ensures DemosOf(CollectTerms(terms, resolve, dumpDir, ready).value) == Found(terms, resolve)
  {
    if terms != [] {
      var first := resolve(terms[0]).value;
      CollectJobsExactly(first, dumpDir, ready);
      var js := CollectJobs(first, dumpDir, ready).value;
      var rest := CollectTerms(terms[1..], resolve, dumpDir, ready).value;
      CollectTermsDemos(terms[1..], resolve, dumpDir, ready);
      assert CollectTerms(terms, resolve, dumpDir, ready).value == js + rest;
      DemosOfAppend(js, rest);
    }
  }

  /** Every collected job is the job of its own demo. */
  lemma {:induction false} CollectTermsValid(terms: seq<string>, resolve: Resolver, dumpDir: Path,
                                             ready: Result<(), IoKind>)
    requires CollectTerms(terms, resolve, dumpDir, ready).Ok?
    ensures forall j :: j in CollectTerms(terms, resolve, dumpDir, ready).value ==>
      JobFor(j.demoName, dumpDir, ready) == Ok(j)
  {
    if terms != [] {
      var first := resolve(terms[0]).value;
      CollectJobsExactly(first, dumpDir, ready);
      var js := CollectJobs(first, dumpDir, ready).value;
      var rest := CollectTerms(terms[1..], resolve, dumpDir, ready).value;
      CollectTermsValid(terms[1..], resolve, dumpDir, ready);
      forall j | j in js
        ensures JobFor(j.demoName, dumpDir, ready) == Ok(j)
      {
        var i :| 0 <= i < |js| && js[i] == j;
        assert DemosOf(js)[i] == first[i];
      }
      assert CollectTerms(terms, resolve, dumpDir, ready).value == js + rest;
    }
  }

  /** Every job collected is named after its demo's stem, which is text, and its video
      is that stem with ".mp4" directly in the dump directory. */
  lemma CollectedJobsLayout(terms: seq<string>, resolve: Resolver, dumpDir: Path, ready: Result<(), IoKind>)
    requires CollectTerms(terms, resolve, dumpDir, ready).Ok?
    ensures var js := CollectTerms(terms, resolve, dumpDir, ready).value;
      forall j :: j in js ==>
        && FileStem(j.demoName) == Some(j.name) && IsText(j.name)
        && Parent(j.videoName) == dumpDir && FileName(j.videoName) == Some(j.name + ".mp4")
  {
    CollectTermsExactly(terms, resolve, dumpDir, ready);
    var js := CollectTerms(terms, resolve, dumpDir, ready).value;
    forall j | j in js
      ensures FileStem(j.demoName) == Some(j.name) && IsText(j.name)
      ensures Parent(j.videoName) == dumpDir && FileName(j.videoName) == Some(j.name + ".mp4")
    {
      var i :| 0 <= i < |js| && js[i] == j;
      assert JobFor(j.demoName, dumpDir, ready) == Ok(j);
      StemAndExtension(j.demoName);
    }
  }

  lemma {:induction false} FoundOfSingles(terms: seq<string>, resolve: Resolver)
    requires forall t :: t in terms ==> resolve(t).Ok? && |resolve(t).value| == 1
    ensures |Found(terms, resolve)| == |terms|
    ensures forall i :: 0 <= i < |terms| ==> Found(terms, resolve)[i] == resolve(terms[i]).value[0]
  {
    if terms != [] {
      assert forall t :: t in terms[1..] ==> t in terms;
      FoundOfSingles(terms[1..], resolve);
      assert Found(terms, resolve) == resolve(terms[0]).value + Found(terms[1..], resolve);
    }
  }

  /** With the keep-best search of src/render.rs every term of the render list becomes
      exactly one job, in list order. */
  lemma KeepBestOneJobPerTerm(matches: string, host: Search.Host, dumpDir: Path, ready: Result<(), IoKind>)
    requires CollectRenderings(matches, KeepBestResolver(host), dumpDir, ready).Ok?
    ensures var terms := Split(matches, ':');
      var js := CollectRenderings(matches, KeepBestResolver(host), dumpDir, ready).value;
      |js| == |terms|
      && forall i :: 0 <= i < |js| ==>
        Search.SearchFile(terms[i], host).Ok? && js[i].demoName == Search.SearchFile(terms[i], host).value[0]
  {
    var terms := Split(matches, ':');
    var resolve := KeepBestResolver(host);
    CollectTermsExactly(terms, resolve, dumpDir, ready);
    forall t | t in terms ensures resolve(t).Ok? && |resolve(t).value| == 1 {
      assert resolve(t) == Search.SearchFile(t, host);
    }
    FoundOfSingles(terms, resolve);
  }

  // ---------------------------------------------------------------------------
  // The interrupt handler
  // ---------------------------------------------------------------------------

  /** What the job channel carries. */
  type Message = Result<Job, Error>

  /** The operator's reply to the handler's prompt, or the prompt's failure. */
  type Reply = Result<string, IoKind>

  /** Every word resolved, before any job is sent: the first failure, or all demos found
      in word order. */
  function ResolveAll(words: seq<string>, resolve: Resolver): (r: Result<seq<Path>, Error>)
    ensures r.Ok? ==> r.value == Found(words, resolve)
  {
    if words == [] then Ok([])
    else match resolve(words[0])
      case Err(e) => Err(e)
      case Ok(demos) =>
        match ResolveAll(words[1..], resolve)
        case Err(e) => Err(e)
        case Ok(rest) => Ok(demos + rest)
  }

  /** The messages sent for the demos found: a job per demo whose stem is text, an error
      for one whose stem is not; a demo without a stem ends the sending with its error. */
  function SendJobs(demos: seq<Path>, dumpDir: Path): (r: seq<Message>)
    ensures |r| <= |demos|
  {
    if demos == [] then []
    else match FileStem(demos[0])
      case None => [Err(NoFileStem(Render(demos[0])))]
      case Some(stem) => [StemMessage(demos[0], stem, dumpDir)] + SendJobs(demos[1..], dumpDir)
  }

  /** What the handler sends for a non-blank reply: when every word resolves, the
      messages for the demos found; otherwise only the error of the first word that
      fails. */
  function Dispatch(words: seq<string>, resolve: Resolver, dumpDir: Path): (r: seq<Message>)
    ensures (exists w :: w in words && resolve(w).Err?) ==> |r| == 1 && r[0].Err?
    ensures (forall w :: w in words ==> resolve(w).Ok?) ==> |r| <= |Found(words, resolve)|
    ensures (forall w :: w in words ==> resolve(w).Ok?) ==> r == SendJobs(Found(words, resolve), dumpDir)
    ensures (exists w :: w in words && resolve(w).Err?) ==>
      exists i :: 0 <= i < |words| && resolve(words[i]).Err? && r == [Err(resolve(words[i]).error)]
        && forall j :: 0 <= j < i ==> resolve(words[j]).Ok?
  {
    ResolveAllFails(words, resolve);
    ResolveAllFirstError(words, resolve);
    match ResolveAll(words, resolve)
    case Err(e) => [Err(e)]
    case Ok(demos) => SendJobs(demos, dumpDir)
  }

  /** One run of the handler: exit, or the new pause flag, the messages sent and whether
      a resume signal was sent. */
  datatype Reaction = Exit0 | Handled(paused: bool, sent: seq<Message>, resumed: bool)

  /** The Ctrl-C handler: outside the cooldown it exits with status 0; inside it pauses,
      reads demo names and, unless the reply is blank, sends their jobs, lifts the pause
      and signals the loop.  A failed prompt sends its error and counts as blank. */
  function Handle(cancellable: bool, reply: Reply, resolve: Resolver, dumpDir: Path): (r: Reaction)
    ensures r.Exit0? <==> !cancellable
    ensures r.Handled? ==> (r.resumed <==> !r.paused)
    ensures r.Handled? ==> (r.resumed <==> reply.Ok? && !IsBlank(reply.value))
    ensures r.Handled? && reply.Err? ==> r.sent == [Err(Io(reply.error))]
    ensures r.Handled? && reply.Ok? && !r.resumed ==> r.sent == []
    ensures r.Handled? && r.resumed ==> r.sent == Dispatch(SplitWhitespace(reply.value), resolve, dumpDir)
  {
    if !cancellable then Exit0
    else match reply
      case Err(k) => Handled(true, [Err(Io(k))], false)
      case Ok(line) =>
        SplitWhitespaceEmptyIffBlank(line);
        var words := SplitWhitespace(line);
        if words == [] then Handled(true, [], false)
        else Handled(false, Dispatch(words, resolve, dumpDir), true)
  }

  lemma {:induction false} ResolveAllFails(words: seq<string>, resolve: Resolver)
    ensures ResolveAll(words, resolve).Err? <==> exists w :: w in words && resolve(w).Err?
  {
    if words != [] {
      ResolveAllFails(words[1..], resolve);
      assert forall w :: w in words <==> w == words[0] || w in words[1..];
    }
  }

  /** A failed resolution carries the error of the first word that fails. */
  lemma {:induction false} ResolveAllFirstError(words: seq<string>, resolve: Resolver)
    ensures ResolveAll(words, resolve).Err? ==>
      exists i :: 0 <= i < |words| && resolve(words[i]) == Err(ResolveAll(words, resolve).error)
        && forall j :: 0 <= j < i ==> resolve(words[j]).Ok?
  {
    if words != [] && resolve(words[0]).Ok? && ResolveAll(words, resolve).Err? {
      ResolveAllFirstError(words[1..], resolve);
      var i :| 0 <= i < |words[1..]| && resolve(words[1..][i]) == Err(ResolveAll(words[1..], resolve).error)
        && forall j :: 0 <= j < i ==> resolve(words[1..][j]).Ok?;
      assert resolve(words[i + 1]) == Err(ResolveAll(words, resolve).error);
      assert forall j :: 0 < j < i + 1 ==> resolve(words[j]) == resolve(words[1..][j - 1]);
    }
  }

  /** When any word of the reply fails to resolve, no job is sent: only that error. */
  lemma NoJobWithoutEveryDemo(words: seq<string>, resolve: Resolver, dumpDir: Path)
    requires exists w :: w in words && resolve(w).Err?
    ensures |Dispatch(words, resolve, dumpDir)| == 1 && Dispatch(words, resolve, dumpDir)[0].Err?
  {
    ResolveAllFails(words, resolve);
  }

  /** When every demo found has a stem that is text, one job per demo is sent, in order. */
  lemma SendJobsAll(demos: seq<Path>, dumpDir: Path)
    requires forall d :: d in demos ==> FileStem(d).Some? && IsText(FileStem(d).value)
    ensures var r := SendJobs(demos, dumpDir);
      |r| == |demos|
      && forall i :: 0 <= i < |r| ==>
        r[i] == Ok(Job(FileStem(demos[i]).value, demos[i], VideoName(dumpDir, FileStem(demos[i]).value)))
  {
    SendJobsBefore(demos, dumpDir);
    SendJobsAtStemless(demos, dumpDir);
    assert forall i :: 0 <= i < |demos| ==> demos[i] in demos;
  }

  /** The position of the first demo without a stem, or the number of demos when every
      demo has one. */
  function FirstStemless(demos: seq<Path>): (k: nat)
    ensures k <= |demos|
    ensures forall i :: 0 <= i < k ==> FileStem(demos[i]).Some?
    ensures k < |demos| ==> FileStem(demos[k]).None?
  {
    if demos == [] || FileStem(demos[0]).None? then 0
    else 1 + FirstStemless(demos[1..])
  }

  /** What is sent for the demos found: for each demo before the first stemless one, its
      job when the stem is text and a `NonUtf8Path` error carrying the stem when it is
      not, with sending going on after that error; then, if some demo has no stem, one
      `NoFileStem` error for it, and nothing after. */
  lemma SendJobsExactly(demos: seq<Path>, dumpDir: Path)
    ensures var r := SendJobs(demos, dumpDir);
      var k := FirstStemless(demos);
      && |r| == k + (if k < |demos| then 1 else 0)
      && (forall i :: 0 <= i < k ==>
            var stem := FileStem(demos[i]).value;
            r[i] == if IsText(stem) then Ok(Job(stem, demos[i], VideoName(dumpDir, stem)))
                    else Err(NonUtf8Path(stem)))
      && (k < |demos| ==> r[k] == Err(NoFileStem(Render(demos[k]))))
  {
    SendJobsBefore(demos, dumpDir);
    SendJobsAtStemless(demos, dumpDir);
  }

  /** The message sent for a demo with a stem. */
  function StemMessage(demo: Path, stem: string, dumpDir: Path): Message {
    if IsText(stem) then Ok(Job(stem, demo, VideoName(dumpDir, stem))) else Err(NonUtf8Path(stem))
  }

  /** Sending the demos found starts with the messages of the demos before the first
      stemless one. */
  lemma {:induction false} SendJobsBefore(demos: seq<Path>, dumpDir: Path)
    ensures var r := SendJobs(demos, dumpDir);
      && |r| >= FirstStemless(demos)
      && forall i :: 0 <= i < FirstStemless(demos) ==>
           r[i] == StemMessage(demos[i], FileStem(demos[i]).value, dumpDir)
  {
    if demos != [] && FileStem(demos[0]).Some? {
      var r := SendJobs(demos, dumpDir);
      var rest := SendJobs(demos[1..], dumpDir);
      assert r == [StemMessage(demos[0], FileStem(demos[0]).value, dumpDir)] + rest;
      assert FirstStemless(demos) == 1 + FirstStemless(demos[1..]);
      SendJobsBefore(demos[1..], dumpDir);
      forall i | 1 <= i < FirstStemless(demos)
        ensures r[i] == StemMessage(demos[i], FileStem(demos[i]).value, dumpDir)
      {
        assert r[i] == rest[i - 1] && demos[i] == demos[1..][i - 1];
      }
    } else {
      assert FirstStemless(demos) == 0;
    }
  }

  /** Sending ends right after the first stemless demo, with its `NoFileStem` error, or
      after the last demo when every demo has a stem. */
  lemma {:induction false} SendJobsAtStemless(demos: seq<Path>, dumpDir: Path)
    ensures var r := SendJobs(demos, dumpDir);
      var k := FirstStemless(demos);
      && |r| == k + (if k < |demos| then 1 else 0)
      && (k < |demos| ==> r[k] == Err(NoFileStem(Render(demos[k]))))
  {
    if demos != [] && FileStem(demos[0]).Some? {
      var rest := SendJobs(demos[1..], dumpDir);
      assert SendJobs(demos, dumpDir) == [StemMessage(demos[0], FileStem(demos[0]).value, dumpDir)] + rest;
      SendJobsAtStemless(demos[1..], dumpDir);
      var k := FirstStemless(demos[1..]);
      if k < |demos[1..]| {
        assert demos[k + 1] == demos[1..][k];
      }
    }
  }

  /** A demo without a stem is the last thing sent for a reply. */
  lemma {:induction false} SendJobsStopsAtStemless(demos: seq<Path>, dumpDir: Path)
    ensures var r := SendJobs(demos, dumpDir);
      forall i :: 0 <= i < |r| && r[i].Err? && r[i].error.NoFileStem? ==> i == |r| - 1
  {
    SendJobsBefore(demos, dumpDir);
    SendJobsAtStemless(demos, dumpDir);
  }

  // ---------------------------------------------------------------------------
  // The flags and channels shared by the handler and the loop
  // ---------------------------------------------------------------------------

  /** CANCELLABLE, PAUSED, the job channel (sent, not yet received) and the number of
      resume signals sent and not yet received. */
  datatype Shared = Shared(cancellable: bool, paused: bool, inbox: seq<Message>, resumes: nat)

  /** The shared state after one interrupt, or None when the handler exits. */
  function React(sh: Shared, reply: Reply, resolve: Resolver, dumpDir: Path): (r: Option<Shared>)
    ensures r.None? <==> !sh.cancellable
    ensures r.Some? ==> r.value.cancellable == sh.cancellable
    ensures r.Some? ==> |r.value.inbox| >= |sh.inbox| && r.value.inbox[..|sh.inbox|] == sh.inbox
  {
    Apply(sh, Handle(sh.cancellable, reply, resolve, dumpDir))
  }

  /** The shared state after the handler reacted, or None when it exits. */
  function Apply(sh: Shared, h: Reaction): (r: Option<Shared>)
    ensures r.None? <==> h == Exit0
    ensures r.Some? ==> r.value.cancellable == sh.cancellable
    ensures r.Some? ==> r.value.inbox == sh.inbox + h.sent
    ensures r.Some? ==> r.value.paused == h.paused && (r.value.resumes > sh.resumes <==> h.resumed)
  {
    match h
    case Exit0 => None
    case Handled(paused, sent, resumed) =>
      Some(Shared(sh.cancellable, paused, sh.inbox + sent, if resumed then sh.resumes + 1 else sh.resumes))
  }

  /** The handler's reaction to an interrupt that arrives while the loop is cancellable.
      A reaction that returns leaves the queue paused exactly when it sends no resume
      signal. */
  type Handler = h: Reply -> Reaction | forall reply :: h(reply).Handled? ==> (h(reply).resumed <==> !h(reply).paused)
    witness (reply: Reply) => Exit0

  /** The handler of the program, for the given search and dump directory. */
  function CancellableHandler(resolve: Resolver, dumpDir: Path): (h: Handler)
    ensures forall reply :: h(reply).Handled?
  {
    (reply: Reply) => Handle(true, reply, resolve, dumpDir)
  }

  /** The shared state after the interrupts of one cooldown, in order, or None when one
      of them makes the handler exit. */
  function Cooldown(sh: Shared, replies: seq<Reply>, handle: Handler): (r: Option<Shared>)
    ensures r.Some? ==> r.value.cancellable == sh.cancellable
    ensures replies == [] ==> r == Some(sh)
    decreases |replies|
  {
    if replies == [] then Some(sh)
    else match Apply(sh, handle(replies[0]))
      case None => None
      case Some(sh') => Cooldown(sh', replies[1..], handle)
  }

  /** The program's handler never exits during a cooldown, which is cancellable. */
  lemma {:induction false} CooldownNeverExits(sh: Shared, replies: seq<Reply>, resolve: Resolver, dumpDir: Path)
    requires sh.cancellable
    ensures Cooldown(sh, replies, CancellableHandler(resolve, dumpDir)).Some?
    decreases |replies|
  {
    if replies != [] {
      var h := CancellableHandler(resolve, dumpDir);
      assert h(replies[0]) == Handle(true, replies[0], resolve, dumpDir);
      CooldownNeverExits(Apply(sh, h(replies[0])).value, replies[1..], resolve, dumpDir);
    }
  }

  /** How the wait for a resume signal ends: a signal arrived and `recv` took it, no
      interrupt of the wait sent one, or the handler exited. */
  datatype Waited = Resumed(shared: Shared) | Waiting(shared: Shared) | WaitExit

  /** `recv` on the resume channel with no signal pending: the interrupts that arrive
      meanwhile are handled in order until one sends a resume signal, and `recv` takes
      that signal. */
  function Wait(sh: Shared, replies: seq<Reply>, handle: Handler): (r: Waited)
    ensures !r.WaitExit? ==> r.shared.cancellable == sh.cancellable && r.shared.resumes == sh.resumes
    ensures !r.WaitExit? ==> |r.shared.inbox| >= |sh.inbox| && r.shared.inbox[..|sh.inbox|] == sh.inbox
    ensures r.Resumed? ==> !r.shared.paused
    ensures r.Waiting? && sh.paused ==> r.shared.paused
    ensures replies == [] ==> r == Waiting(sh)
    decreases |replies|
  {
    if replies == [] then Waiting(sh)
    else match Apply(sh, handle(replies[0]))
      case None => WaitExit
      case Some(sh') =>
        if sh'.resumes > sh.resumes then Resumed(sh'.(resumes := sh.resumes))
        else
          var r := Wait(sh', replies[1..], handle);
          assert !r.WaitExit? ==> r.shared.inbox[..|sh.inbox|] == r.shared.inbox[..|sh'.inbox|][..|sh.inbox|];
          r
  }

  class Signals {
    var cancellable: bool
    var paused: bool
    var inbox: seq<Message>
    var resumes: nat

    /** Both flags start false and both channels empty. */
    constructor()
      ensures State() == Shared(false, false, [], 0)
    {
      cancellable := false;
      paused := false;
      inbox := [];
      resumes := 0;
    }

    function State(): Shared
      reads this
    {
      Shared(cancellable, paused, inbox, resumes)
    }

    /** The handler run for one Ctrl-C; `exited` when it ends the program. */
    method Interrupt(reply: Reply, resolve: Resolver, dumpDir: Path) returns (exited: bool)
      modifies this
      ensures exited <==> React(old(State()), reply, resolve, dumpDir).None?
      ensures exited ==> State() == old(State())
      ensures !exited ==> State() == React(old(State()), reply, resolve, dumpDir).value
    {
      if !cancellable {
        return true;
      }
      paused := true;
      var line: string := [];
      match reply {
        case Err(k) =>
          inbox := inbox + [Err(Io(k))];
        case Ok(l) =>
          line := l;
      }
      var words := SplitWhitespace(line);
      if words == [] {
        return false;
      }
      inbox := inbox + Dispatch(words, resolve, dumpDir);
      paused := false;
      resumes := resumes + 1;
      return false;
    }

    /** The ten-second cooldown: the interrupts that arrive during it, handled in order. */
    method Sleep(replies: seq<Reply>, resolve: Resolver, dumpDir: Path)
      requires cancellable
      modifies this
      ensures Cooldown(old(State()), replies, CancellableHandler(resolve, dumpDir)) == Some(State())
    {
      var i := 0;
      while i < |replies|
        invariant 0 <= i <= |replies|
        invariant cancellable
        invariant Cooldown(old(State()), replies, CancellableHandler(resolve, dumpDir)) ==
          Cooldown(State(), replies[i..], CancellableHandler(resolve, dumpDir))
      {
        var exited := Interrupt(replies[i], resolve, dumpDir);
        assert replies[i..][1..] == replies[i + 1..];
        i := i + 1;
      }
    }

    /** `recv` on the resume channel with no signal pending: the interrupts of the wait,
        handled in order until one sends a resume signal, which `recv` takes; `resumed`
        is false when none of them does. */
    method Await(replies: seq<Reply>, resolve: Resolver, dumpDir: Path) returns (resumed: bool)
      requires cancellable
      modifies this
      ensures var w := Wait(old(State()), replies, CancellableHandler(resolve, dumpDir));
        !w.WaitExit? && (resumed <==> w.Resumed?) && State() == w.shared
    {
      var i := 0;
      while i < |replies|
        invariant 0 <= i <= |replies|
        invariant cancellable
        invariant Wait(old(State()), replies, CancellableHandler(resolve, dumpDir)) ==
          Wait(State(), replies[i..], CancellableHandler(resolve, dumpDir))
      {
        var before := resumes;
        var exited := Interrupt(replies[i], resolve, dumpDir);
        assert replies[i..][1..] == replies[i + 1..];
        if resumes > before {
          resumes := before;
          return true;
        }
        i := i + 1;
      }
      return false;
    }

    /** `try_iter` over the job channel: every job received is queued, and the first
        error ends the loop with that error. */
    method TakeJobs(queue: seq<Job>, arrived: seq<Job>) returns (q: seq<Job>, a: seq<Job>, failure: Option<Error>)
      modifies this
      ensures Drained(q, a, inbox, failure) == Drain(queue, arrived, old(inbox))
      ensures cancellable == old(cancellable) && paused == old(paused) && resumes == old(resumes)
    {
      q, a, failure := queue, arrived, None;
      while inbox != []
        invariant Drain(queue, arrived, old(inbox)) == Drain(q, a, inbox)
        invariant failure == None
        invariant cancellable == old(cancellable) && paused == old(paused) && resumes == old(resumes)
        decreases |inbox|
      {
        var m := inbox[0];
        inbox := inbox[1..];
        match m
        case Err(e) =>
          failure := Some(e);
          return;
        case Ok(j) =>
          q := q + [j];
          a := a + [j];
      }
    }
  }

  // ---------------------------------------------------------------------------
  // Draining the job channel
  // ---------------------------------------------------------------------------

  /** The queue and the jobs that arrived after a drain, the messages left in the channel
      and the error that ended it, if any. */
  datatype Drained = Drained(queue: seq<Job>, arrived: seq<Job>, rest: seq<Message>, failure: Option<Error>)

  function Drain(queue: seq<Job>, arrived: seq<Job>, inbox: seq<Message>): (r: Drained)
    ensures |r.queue| + |r.rest| <= |queue| + |inbox|
    ensures |r.arrived| >= |arrived| && r.arrived[..|arrived|] == arrived
    ensures r.queue == queue + r.arrived[|arrived|..]
    decreases |inbox|
  {
    if inbox == [] then Drained(queue, arrived, [], None)
    else match inbox[0]
      case Err(e) => Drained(queue, arrived, inbox[1..], Some(e))
      case Ok(j) =>
        var r := Drain(queue + [j], arrived + [j], inbox[1..]);
        assert r.arrived[|arrived|..] == [j] + r.arrived[|arrived| + 1..];
        r
  }

  /** The index of the first error in the channel, or its length when there is none. */
  function FirstError(inbox: seq<Message>): (i: nat)
    ensures i <= |inbox|
    ensures forall j :: 0 <= j < i ==> inbox[j].Ok?
    ensures i < |inbox| ==> inbox[i].Err?
  {
    if inbox == [] || inbox[0].Err? then 0 else 1 + FirstError(inbox[1..])
  }

  /** The jobs of messages that are all jobs. */
  function JobsOf(ms: seq<Message>): (js: seq<Job>)
    requires forall i :: 0 <= i < |ms| ==> ms[i].Ok?
    ensures |js| == |ms| && forall i :: 0 <= i < |ms| ==> js[i] == ms[i].value
  {
    if ms == [] then [] else [ms[0].value] + JobsOf(ms[1..])
  }

  /** A drain queues, in order, the jobs up to the first error; that error, if there is
      one, ends it and the messages after it stay in the channel. */
  lemma DrainUpToFirstError(queue: seq<Job>, arrived: seq<Job>, inbox: seq<Message>)
    ensures var d := Drain(queue, arrived, inbox);
      var i := FirstError(inbox);
      && d.queue == queue + JobsOf(inbox[..i])
      && d.arrived == arrived + JobsOf(inbox[..i])
      && (i < |inbox| ==> d.failure == Some(inbox[i].error) && d.rest == inbox[i + 1..])
      && (i == |inbox| ==> d.failure == None && d.rest == [])
  {
    var d := Drain(queue, arrived, inbox);
    var i := FirstError(inbox);
    DrainArrivals(queue, arrived, inbox);
    DrainFailure(queue, arrived, inbox);
    var added := JobsOf(inbox[..i]);
    assert d.arrived[|arrived|..] == added;
    assert d.arrived == arrived + added by {
      assert d.arrived == d.arrived[..|arrived|] + d.arrived[|arrived|..];
    }
  }

  lemma {:induction false} DrainArrivals(queue: seq<Job>, arrived: seq<Job>, inbox: seq<Message>)
    ensures var d := Drain(queue, arrived, inbox);
      var i := FirstError(inbox);
      && |d.arrived| == |arrived| + i
      && forall n :: 0 <= n < i ==> d.arrived[|arrived| + n] == inbox[n].value
    decreases |inbox|
  {
    if inbox != [] && inbox[0].Ok? {
      var j := inbox[0].value;
      var rest := inbox[1..];
      DrainArrivals(queue + [j], arrived + [j], rest);
      var d := Drain(queue, arrived, inbox);
      assert d == Drain(queue + [j], arrived + [j], rest);
      assert d.arrived[..|arrived| + 1] == arrived + [j];
      forall n | 0 <= n < FirstError(inbox)
        ensures d.arrived[|arrived| + n] == inbox[n].value
      {
        if n == 0 {
          assert d.arrived[|arrived|] == (arrived + [j])[|arrived|];
        } else {
          assert d.arrived[|arrived| + 1 + (n - 1)] == rest[n - 1].value;
        }
      }
    }
  }

  lemma {:induction false} DrainFailure(queue: seq<Job>, arrived: seq<Job>, inbox: seq<Message>)
    ensures var d := Drain(queue, arrived, inbox);
      var i := FirstError(inbox);
      && (i < |inbox| ==> d.failure == Some(inbox[i].error) && d.rest == inbox[i + 1..])
      && (i == |inbox| ==> d.failure == None && d.rest == [])
    decreases |inbox|
  {
    if inbox != [] && inbox[0].Ok? {
      var j := inbox[0].value;
      var rest := inbox[1..];
      DrainFailure(queue + [j], arrived + [j], rest);
      var i := FirstError(inbox);
      assert FirstError(rest) == i - 1;
      if i < |inbox| {
        assert rest[i - 1 + 1..] == inbox[i + 1..];
      }
    }
  }

  // ---------------------------------------------------------------------------
  // The batch loop
  // ---------------------------------------------------------------------------

  /** What happens around one turn of the loop: the interrupts (during the first prompt,
      or during the cooldown of later turns), those that arrive while a later turn waits
      for a resume signal, the first turn's prompt, and the Doom launch. */
  datatype Turn = Turn(interrupts: seq<Reply>, waiting: seq<Reply>, prompt: Result<(), IoKind>,
                       spawn: Result<(), IoKind>)

  /** A turn where nothing happens and Doom starts. */
  const Quiet: Turn := Turn([], [], Ok(()), Ok(()))

  /** The turns of a run: the given ones, then quiet ones. */
  function TurnAt(script: seq<Turn>, k: nat): Turn {
    if k < |script| then script[k] else Quiet
  }

  /** The handler's reaction to interrupts during a cooldown, and the launch of Doom for a
      job. */
  datatype RenderEnv = RenderEnv(handle: Handler, launch: Launcher)

  /** How the loop ends: the queue is empty, the program halts, or the loop is left
      waiting for a resume signal that no interrupt of the turn sends. */
  datatype Outcome = Done | Halted(halt: Halt) | Blocked

  /** The loop's queue, the shared state, the jobs taken from the queue and those added
      to it in order, and the Doom processes launched. */
  datatype LoopState = LoopState(queue: seq<Job>, shared: Shared, removed: seq<Job>, arrived: seq<Job>,
                                 launches: seq<Launch>)

  datatype Progress = Continue(next: LoopState) | Stop(outcome: Outcome, last: LoopState)

  function StateOf(p: Progress): LoopState {
    if p.Continue? then p.next else p.last
  }

  /** The lines a job adds to the base command line. */
  function RenderLines(job: Job): seq<Line> {
    [FromWord("-timedemo", 1), FromWord(Render(job.demoName), 2),
     FromWord("-viddump", 1), FromWord(Render(job.videoName), 2)]
  }

  /** The first queued demo whose path is not text, which aborts the queue listing. */
  function FirstUnprintable(queue: seq<Job>): (r: Option<Path>)
    ensures r.None? <==> forall j :: j in queue ==> IsText(Render(j.demoName))
    ensures r.Some? ==> !IsText(Render(r.value)) && exists j :: j in queue && j.demoName == r.value
  {
    if queue == [] then None
    else if !IsText(Render(queue[0].demoName)) then Some(queue[0].demoName)
    else
      assert forall j :: j in queue <==> j == queue[0] || j in queue[1..];
      FirstUnprintable(queue[1..])
  }

  /** The first prompt, or the cooldown of a later turn followed, while paused, by the
      `recv` on the resume channel and then by the drain of the job channel. `recv` takes
      a pending resume signal at once; with none pending it waits for the interrupts of
      `turn.waiting` to send one. */
  function Gate(s: LoopState, k: nat, turn: Turn, env: RenderEnv): (r: Progress)
    requires !s.shared.cancellable
    ensures turn.interrupts == [] && turn.waiting == [] && r.Continue? ==>
      |r.next.queue| + |r.next.shared.inbox| <= |s.queue| + |s.shared.inbox|
    ensures r.Continue? ==> !r.next.shared.cancellable
    ensures r.Stop? ==> (StateOf(r).shared.cancellable <==> r.outcome == Blocked)
    ensures r.Stop? && r.outcome == Blocked ==> StateOf(r).shared.paused && StateOf(r).shared.resumes == 0
    ensures k == 0 ==> !(r.Stop? && r.outcome == Blocked)
    ensures k > 0 ==>
      var c := Cooldown(s.shared.(cancellable := true), turn.interrupts, env.handle);
      (r.Stop? && r.outcome == Blocked <==>
         c.Some? && c.value.paused && c.value.resumes == 0 && Wait(c.value, turn.waiting, env.handle).Waiting?)
    ensures k > 0 && r.Continue? ==>
      var c := Cooldown(s.shared.(cancellable := true), turn.interrupts, env.handle);
      c.Some? && r.next.shared.resumes == (if c.value.paused && c.value.resumes > 0 then c.value.resumes - 1
                                           else c.value.resumes)
    ensures r.Stop? ==> r.outcome != Done
    ensures StateOf(r).removed == s.removed && StateOf(r).launches == s.launches
    ensures Fifo(s, StateOf(r))
  {
    if k == 0 then
      if turn.interrupts != [] then Stop(Halted(Exit(0)), s)
      else if turn.prompt.Err? then Stop(Halted(Fail(Io(turn.prompt.error))), s)
      else Continue(s)
    else
      match Cooldown(s.shared.(cancellable := true), turn.interrupts, env.handle)
      case None => Stop(Halted(Exit(0)), s)
      case Some(sh) =>
        if !sh.paused then Proceed(s, sh)
        else if sh.resumes > 0 then Proceed(s, sh.(resumes := sh.resumes - 1))
        else match Wait(sh, turn.waiting, env.handle)
          case WaitExit => Stop(Halted(Exit(0)), s)
          case Waiting(w) => Stop(Blocked, s.(shared := w))
          case Resumed(w) => Proceed(s, w)
  }

  /** The end of a later turn's gate: the loop stops being cancellable and takes the
      jobs in the channel, up to the first error, which halts it. */
  function Proceed(s: LoopState, sh: Shared): (r: Progress)
    ensures r.Continue? ==> |r.next.queue| + |r.next.shared.inbox| <= |s.queue| + |sh.inbox|
    ensures StateOf(r).shared.cancellable == false
    ensures StateOf(r).shared.paused == sh.paused && StateOf(r).shared.resumes == sh.resumes
    ensures r.Stop? ==> r.outcome.Halted? && r.outcome.halt.Fail?
    ensures StateOf(r).removed == s.removed && StateOf(r).launches == s.launches
    ensures Fifo(s, StateOf(r))
  {
    var d := Drain(s.queue, s.arrived, sh.inbox);
    var t := s.(queue := d.queue, arrived := d.arrived, shared := sh.(cancellable := false, inbox := d.rest));
    assert t.removed + t.queue == s.removed + s.queue + t.arrived[|s.arrived|..];
    if d.failure.Some? then Stop(Halted(Fail(d.failure.value)), t) else Continue(t)
  }

  /** One turn of the loop on a non-empty queue: list the queue, take its head, build its
      command line, pass the gate, launch Doom. */
  function Step(s: LoopState, k: nat, turn: Turn, env: RenderEnv): (r: Progress)
    requires s.queue != [] && !s.shared.cancellable
    ensures turn.interrupts == [] && turn.waiting == [] && r.Continue? ==>
      |r.next.queue| + |r.next.shared.inbox| < |s.queue| + |s.shared.inbox|
    ensures r.Continue? ==> !r.next.shared.cancellable
    ensures r.Stop? ==> (StateOf(r).shared.cancellable <==> r.outcome == Blocked)
    ensures r.Stop? && r.outcome == Blocked ==> StateOf(r).shared.paused && StateOf(r).shared.resumes == 0
    ensures r.Stop? ==> r.outcome != Done
    ensures r.Continue? ==>
      && turn.spawn.Ok?
      && r.next.removed == s.removed + [s.queue[0]]
      && |r.next.launches| == |s.launches| + 1 && r.next.launches[..|s.launches|] == s.launches
      && env.launch(s.queue[0]) == Ok(r.next.launches[|s.launches|])
    ensures r.Stop? ==>
      && r.last.launches == s.launches
      && (r.last.removed == s.removed || r.last.removed == s.removed + [s.queue[0]])
  {
    match FirstUnprintable(s.queue)
    case Some(d) => Stop(Halted(Fail(NonUtf8Path(Render(d)))), s)
    case None =>
      var job := s.queue[0];
      var taken := s.(queue := s.queue[1..], removed := s.removed + [job]);
      if !IsText(Render(job.videoName)) then Stop(Halted(Fail(NonUtf8Path(Render(job.videoName)))), taken)
      else Launched(Gate(taken, k, turn, env), job, turn.spawn, env)
  }

  /** The end of a turn: after a gate that lets it go on, Doom is launched for the job
      taken, or the launcher's halt or the spawn's error stops the loop. */
  function Launched(g: Progress, job: Job, spawn: Result<(), IoKind>, env: RenderEnv): (r: Progress)
    ensures g.Stop? ==> r == g
    ensures g.Continue? && r.Continue? ==>
      spawn.Ok? && env.launch(job).Ok? && r.next == g.next.(launches := g.next.launches + [env.launch(job).value])
    ensures g.Continue? && r.Stop? ==> r.last == g.next && r.outcome.Halted?
    ensures g.Continue? && r.Stop? && env.launch(job).Ok? ==> spawn.Err? && r.outcome == Halted(Fail(RunningDoom(spawn.error)))
    ensures g.Continue? && env.launch(job).Err? ==> r == Stop(Halted(env.launch(job).error), g.next)
  {
    match g
    case Stop(o, t) => Stop(o, t)
    case Continue(t) =>
      match env.launch(job)
      case Err(h) => Stop(Halted(h), t)
      case Ok(l) =>
        if spawn.Err? then Stop(Halted(Fail(RunningDoom(spawn.error))), t)
        else Continue(t.(launches := t.launches + [l]))
  }

  /** The batch loop from turn `k` on. */
  function Run(s: LoopState, k: nat, script: seq<Turn>, env: RenderEnv): (r: (Outcome, LoopState))
    requires !s.shared.cancellable
    ensures r.0 == Done ==> r.1.queue == []
    decreases if k < |script| then |script| - k else 0, |s.queue| + |s.shared.inbox|, 1
  {
    if s.queue == [] then (Done, s) else Next(s, k, script, env)
  }

  /** Turn `k` on a non-empty queue, then the rest of the run. */
  function Next(s: LoopState, k: nat, script: seq<Turn>, env: RenderEnv): (r: (Outcome, LoopState))
    requires s.queue != [] && !s.shared.cancellable
    ensures r.0 == Done ==> r.1.queue == []
    decreases if k < |script| then |script| - k else 0, |s.queue| + |s.shared.inbox|, 0
  {
    match Step(s, k, TurnAt(script, k), env)
    case Stop(o, t) => (o, t)
    case Continue(t) => Run(t, k + 1, script, env)
  }

  /** The loop's start: the collected renderings queued, nothing taken, nothing launched. */
  function Start(renderings: seq<Job>, sh: Shared): LoopState {
    LoopState(renderings, sh, [], [], [])
  }

  // ---------------------------------------------------------------------------
  // What the loop promises
  // ---------------------------------------------------------------------------

  /** Jobs leave the queue in the order they entered it: those taken, followed by those
      still queued, are the initial queue followed by the jobs that arrived. */
  predicate Fifo(s0: LoopState, s: LoopState) {
    && |s.arrived| >= |s0.arrived| && s.arrived[..|s0.arrived|] == s0.arrived
    && s.removed + s.queue == s0.removed + s0.queue + s.arrived[|s0.arrived|..]
  }

  /** Each launch is the Doom run of the job taken at the same position. */
  predicate LaunchedInOrder(s: LoopState, env: RenderEnv) {
    && |s.launches| <= |s.removed|
    && forall i :: 0 <= i < |s.launches| ==>
      env.launch(s.removed[i]) == Ok(s.launches[i])
  }

  lemma StepFifo(s: LoopState, k: nat, turn: Turn, env: RenderEnv)
    requires s.queue != [] && !s.shared.cancellable
    ensures Fifo(s, StateOf(Step(s, k, turn, env)))
  {
    if FirstUnprintable(s.queue).None? {
      var taken := s.(queue := s.queue[1..], removed := s.removed + [s.queue[0]]);
      TakeFifo(s);
      if IsText(Render(s.queue[0].videoName)) {
        var g := StateOf(Gate(taken, k, turn, env));
        FifoTransitive(s, taken, g);
        StepAfterGate(s, k, turn, env);
      }
    } else {
      assert s.arrived[|s.arrived|..] == [];
    }
  }

  /** Taking the head of the queue keeps FIFO order. */
  lemma TakeFifo(s: LoopState)
    requires s.queue != []
    ensures Fifo(s, s.(queue := s.queue[1..], removed := s.removed + [s.queue[0]]))
  {
    assert s.queue == [s.queue[0]] + s.queue[1..];
    assert s.arrived[|s.arrived|..] == [];
  }

  /** Past the checks, a turn's queue, taken jobs and arrivals are the gate's. */
  lemma StepAfterGate(s: LoopState, k: nat, turn: Turn, env: RenderEnv)
    requires s.queue != [] && !s.shared.cancellable
    requires FirstUnprintable(s.queue).None? && IsText(Render(s.queue[0].videoName))
    ensures var t := StateOf(Step(s, k, turn, env));
      var g := StateOf(Gate(s.(queue := s.queue[1..], removed := s.removed + [s.queue[0]]), k, turn, env));
      t.queue == g.queue && t.removed == g.removed && t.arrived == g.arrived && t.shared == g.shared
  {
  }

  lemma StepLaunches(s: LoopState, k: nat, turn: Turn, env: RenderEnv)
    requires s.queue != [] && !s.shared.cancellable
    requires LaunchedInOrder(s, env) && |s.launches| == |s.removed|
    ensures LaunchedInOrder(StateOf(Step(s, k, turn, env)), env)
    ensures Step(s, k, turn, env).Continue? ==>
      |Step(s, k, turn, env).next.launches| == |Step(s, k, turn, env).next.removed|
  {
    var r := Step(s, k, turn, env);
    var t := StateOf(r);
    forall i | 0 <= i < |t.launches|
      ensures env.launch(t.removed[i]) == Ok(t.launches[i])
    {
      if i < |s.launches| {
        assert t.launches[i] == s.launches[i] && t.removed[i] == s.removed[i];
      } else {
        assert t.removed[i] == s.queue[0];
      }
    }
  }

  /** One turn of the loop on a non-empty queue, then the rest of the run. */
  lemma RunStep(s: LoopState, k: nat, script: seq<Turn>, env: RenderEnv)
    requires s.queue != [] && !s.shared.cancellable
    ensures var r := Step(s, k, TurnAt(script, k), env);
      Run(s, k, script, env) == if r.Continue? then Run(r.next, k + 1, script, env) else (r.outcome, r.last)
  {
  }

  /** The run from turn `k` on ends with outcome `o`, these launches and this shared
      state. */
  predicate Ends(s: LoopState, k: nat, script: seq<Turn>, env: RenderEnv, o: Outcome, launches: seq<Launch>,
                 shared: Shared)
    requires !s.shared.cancellable
  {
    var r := Run(s, k, script, env);
    r.0 == o && r.1.launches == launches && r.1.shared == shared
  }

  /** A run ends with the outcome, launches and flags of its result. */
  lemma EndsOfResult(s: LoopState, k: nat, script: seq<Turn>, env: RenderEnv, result: (Outcome, LoopState))
    requires !s.shared.cancellable && Run(s, k, script, env) == result
    ensures Ends(s, k, script, env, result.0, result.1.launches, result.1.shared)
  {
  }

  /** On an empty queue the run is over. */
  lemma RunDone(s: LoopState, k: nat, script: seq<Turn>, env: RenderEnv)
    requires s.queue == [] && !s.shared.cancellable
    ensures Run(s, k, script, env) == (Done, s)
  {
  }

  /** The run from turn `k` on ends as `result`. */
  predicate Leads(s: LoopState, k: nat, script: seq<Turn>, env: RenderEnv, result: (Outcome, LoopState))
    requires !s.shared.cancellable
  {
    Run(s, k, script, env) == result
  }

  /** Over a whole run, jobs are taken in FIFO order: those taken and those still queued
      are the initial queue followed by the jobs that arrived, in order. */
  lemma {:induction false} RunFifo(s: LoopState, k: nat, script: seq<Turn>, env: RenderEnv)
    requires !s.shared.cancellable
    ensures Fifo(s, Run(s, k, script, env).1)
    decreases if k < |script| then |script| - k else 0, |s.queue| + |s.shared.inbox|
  {
    if s.queue != [] {
      var r := Step(s, k, TurnAt(script, k), env);
      StepFifo(s, k, TurnAt(script, k), env);
      RunStep(s, k, script, env);
      if r.Continue? {
        RunFifo(r.next, k + 1, script, env);
        FifoTransitive(s, r.next, Run(r.next, k + 1, script, env).1);
      }
    } else {
      assert s.arrived[|s.arrived|..] == [];
    }
  }

  /** Over a whole run, each launch is the Doom run of the job taken at its position, and
      when the loop ends because the queue is empty every job taken was launched. */
  lemma {:induction false} RunLaunchesInOrder(s: LoopState, k: nat, script: seq<Turn>,
                                              env: RenderEnv)
    requires !s.shared.cancellable
    requires LaunchedInOrder(s, env) && |s.launches| == |s.removed|
    ensures LaunchesAtEnd(Run(s, k, script, env), env)
    decreases if k < |script| then |script| - k else 0, |s.queue| + |s.shared.inbox|
  {
    if s.queue == [] {
      RunDone(s, k, script, env);
    } else {
      var r := Step(s, k, TurnAt(script, k), env);
      StepLaunches(s, k, TurnAt(script, k), env);
      RunStep(s, k, script, env);
      if r.Continue? {
        RunLaunchesInOrder(r.next, k + 1, script, env);
      } else {
        StopLaunches(r, env);
      }
    }
  }

  /** A turn that stops keeps the launches in order. */
  lemma StopLaunches(r: Progress, env: RenderEnv)
    requires r.Stop? && r.outcome != Done && LaunchedInOrder(StateOf(r), env)
    ensures LaunchesAtEnd((r.outcome, r.last), env)
  {
  }

  /** Every launch is the Doom run of the job taken at its position, and a Done run has
      an empty queue and one launch per job taken. */
  predicate LaunchesAtEnd(res: (Outcome, LoopState), env: RenderEnv) {
    && LaunchedInOrder(res.1, env)
    && (res.0 == Done ==> res.1.queue == [] && |res.1.launches| == |res.1.removed|)
  }

  lemma FifoTransitive(a: LoopState, b: LoopState, c: LoopState)
    requires Fifo(a, b) && Fifo(b, c)
    ensures Fifo(a, c)
  {
    assert c.arrived[..|a.arrived|] == c.arrived[..|b.arrived|][..|a.arrived|];
    assert c.arrived[|a.arrived|..] == b.arrived[|a.arrived|..] + c.arrived[|b.arrived|..] by {
      assert c.arrived[..|b.arrived|] == b.arrived;
      assert c.arrived == c.arrived[..|b.arrived|] + c.arrived[|b.arrived|..];
    }
  }

  /** CANCELLABLE is false whenever the loop stops, except when it is left waiting in a
      cooldown; then the queue is paused and no resume signal is pending. */
  lemma {:induction false} RunFlags(s: LoopState, k: nat, script: seq<Turn>, env: RenderEnv)
    requires !s.shared.cancellable
    ensures FlagsAtEnd(Run(s, k, script, env))
    decreases if k < |script| then |script| - k else 0, |s.queue| + |s.shared.inbox|
  {
    if s.queue == [] {
      RunDone(s, k, script, env);
    } else {
      var r := Step(s, k, TurnAt(script, k), env);
      RunStep(s, k, script, env);
      if r.Continue? {
        RunFlags(r.next, k + 1, script, env);
      } else {
        StopFlags(r);
      }
    }
  }

  /** `CANCELLABLE` is set at the end exactly when the run is Blocked, a Blocked run is
      paused with no resume pending, and a Done run has an empty queue. */
  predicate FlagsAtEnd(res: (Outcome, LoopState)) {
    var (o, t) := res;
    && (t.shared.cancellable <==> o == Blocked)
    && (o == Blocked ==> t.shared.paused && t.shared.resumes == 0)
    && (t.queue == [] || o != Done)
  }

  /** A turn that stops leaves the flags as `FlagsAtEnd` says. */
  lemma StopFlags(r: Progress)
    requires r.Stop? && (StateOf(r).shared.cancellable <==> r.outcome == Blocked)
    requires r.outcome == Blocked ==> StateOf(r).shared.paused && StateOf(r).shared.resumes == 0
    requires r.outcome != Done
    ensures FlagsAtEnd((r.outcome, r.last))
  {
  }

  /** Four words at depths 1, 2, 1, 2 are passed to Doom as they are when clean. */
  lemma FourWordArgs(a: string, b: string, c: string, d: string)
    requires Clean(a) && Clean(b) && Clean(c) && Clean(d)
    ensures ArgsOf([FromWord(a, 1), FromWord(b, 2), FromWord(c, 1), FromWord(d, 2)]) == [a, b, c, d]
  {
    var la, lb, lc, ld := FromWord(a, 1), FromWord(b, 2), FromWord(c, 1), FromWord(d, 2);
    assert [la, lb] + [lc, ld] == [la, lb, lc, ld];
    ArgsOfAppend([la, lb], [lc, ld]);
    TwoWordArgs(a, 1, b, 2);
    TwoWordArgs(c, 1, d, 2);
    assert [a, b] + [c, d] == [a, b, c, d];
  }

  lemma TwoWordArgs(a: string, da: nat, b: string, db: nat)
    requires Clean(a) && Clean(b)
    ensures ArgsOf([FromWord(a, da), FromWord(b, db)]) == [a, b]
  {
    assert [FromWord(a, da), FromWord(b, db)] == [FromWord(a, da)] + [FromWord(b, db)];
    ArgsOfAppend([FromWord(a, da)], [FromWord(b, db)]);
    ArgsOfWord(a, da);
    ArgsOfWord(b, db);
    assert [a, b] == [a] + [b];
  }

  /** When the base command line starts with the binary alone, a job's Doom run gets the
      base arguments followed by `-timedemo <demo> -viddump <video>`. */
  lemma RenderArgs(binary: string, rest: seq<Line>, job: Job, present: Path -> bool)
    requires present(Parse(binary))
    requires Clean(Render(job.demoName)) && Clean(Render(job.videoName))
    ensures var r := RunDoom(Words([FromWord(binary, 0)] + rest + RenderLines(job)), present, Ok(()));
      && r.Ok? && r.value.binary == Parse(binary)
      && r.value.args == ArgsOf(rest) + ["-timedemo", Render(job.demoName), "-viddump", Render(job.videoName)]
  {
    assert Clean("-timedemo") && Clean("-viddump");
    FourWordArgs("-timedemo", Render(job.demoName), "-viddump", Render(job.videoName));
    assert [FromWord(binary, 0)] + (rest + RenderLines(job)) == ([FromWord(binary, 0)] + rest) + RenderLines(job);
    RunDoomArgs(binary, rest + RenderLines(job), present, Ok(()));
    ArgsOfAppend(rest, RenderLines(job));
  }

  /** A blank or failed reply during a cooldown leaves the queue paused: with no resume
      signal pending and no interrupt during the wait, the loop waits on the resume
      channel for good. */
  lemma BlankReplyBlocks(s: LoopState, k: nat, reply: Reply, spawn: Result<(), IoKind>,
                         env: RenderEnv, resolve: Resolver, dumpDir: Path)
    requires env.handle == CancellableHandler(resolve, dumpDir)
    requires s.queue != [] && !s.shared.cancellable && s.shared.resumes == 0 && k > 0
    requires forall j :: j in s.queue ==> IsText(Render(j.demoName))
    requires IsText(Render(s.queue[0].videoName))
    requires reply.Err? || IsBlank(reply.value)
    ensures Step(s, k, Turn([reply], [], Ok(()), spawn), env).Stop?
    ensures Step(s, k, Turn([reply], [], Ok(()), spawn), env).outcome == Blocked
  {
    var sh := s.shared.(cancellable := true);
    var h := env.handle(reply);
    assert h == Handle(true, reply, resolve, dumpDir);
    assert h.Handled? && h.paused && !h.resumed;
    assert [reply][1..] == [];
    assert Cooldown(sh, [reply], env.handle) == Apply(sh, h);
  }

  /** A reply naming demos during a cooldown lets the loop go on: the turn is not
      blocked, whatever happens after the cooldown. */
  lemma ReplyResumes(s: LoopState, k: nat, reply: Reply, waiting: seq<Reply>, spawn: Result<(), IoKind>,
                     env: RenderEnv, resolve: Resolver, dumpDir: Path)
    requires env.handle == CancellableHandler(resolve, dumpDir)
    requires s.queue != [] && !s.shared.cancellable && k > 0
    requires reply.Ok? && !IsBlank(reply.value)
    ensures var r := Step(s, k, Turn([reply], waiting, Ok(()), spawn), env);
      r.Stop? ==> r.outcome != Blocked
  {
    var sh := s.shared.(cancellable := true);
    var h := env.handle(reply);
    assert h == Handle(true, reply, resolve, dumpDir);
    assert h.Handled? && !h.paused && h.resumed;
    assert [reply][1..] == [];
    assert Cooldown(sh, [reply], env.handle) == Apply(sh, h);
    var turn := Turn([reply], waiting, Ok(()), spawn);
    var r := Step(s, k, turn, env);
    if r.Stop? && r.outcome == Blocked {
      StepBlockedAtGate(s, k, turn, env);
    }
  }

  /** A blank reply followed, in the same cooldown, by a reply naming demos: the second
      unpauses the queue and the turn is not blocked. */
  lemma LaterReplyResumes(s: LoopState, k: nat, blank: Reply, reply: Reply, waiting: seq<Reply>,
                          spawn: Result<(), IoKind>, env: RenderEnv, resolve: Resolver, dumpDir: Path)
    requires env.handle == CancellableHandler(resolve, dumpDir)
    requires s.queue != [] && !s.shared.cancellable && k > 0
    requires blank.Err? || IsBlank(blank.value)
    requires reply.Ok? && !IsBlank(reply.value)
    ensures var r := Step(s, k, Turn([blank, reply], waiting, Ok(()), spawn), env);
      r.Stop? ==> r.outcome != Blocked
  {
    var turn := Turn([blank, reply], waiting, Ok(()), spawn);
    var sh := s.shared.(cancellable := true);
    var h := env.handle(blank);
    assert h == Handle(true, blank, resolve, dumpDir);
    var h' := env.handle(reply);
    assert h' == Handle(true, reply, resolve, dumpDir);
    assert h.Handled? && h'.Handled? && !h'.paused;
    assert [blank, reply][1..] == [reply] && [reply][1..] == [];
    var sh1 := Apply(sh, h).value;
    assert Cooldown(sh, [blank, reply], env.handle) == Cooldown(sh1, [reply], env.handle);
    assert Cooldown(sh1, [reply], env.handle) == Apply(sh1, h');
    var r := Step(s, k, turn, env);
    if r.Stop? && r.outcome == Blocked {
      StepBlockedAtGate(s, k, turn, env);
    }
  }

  /** A blank reply during the cooldown, then a reply naming demos while the loop waits
      for the resume signal: the wait ends, the turn is not blocked, and `recv` has taken
      the signal that reply sent, so none is left for a later turn. */
  lemma WaitReplyResumes(s: LoopState, k: nat, blank: Reply, reply: Reply, spawn: Result<(), IoKind>,
                         env: RenderEnv, resolve: Resolver, dumpDir: Path)
    requires env.handle == CancellableHandler(resolve, dumpDir)
    requires s.queue != [] && !s.shared.cancellable && s.shared.resumes == 0 && k > 0
    requires blank.Err? || IsBlank(blank.value)
    requires reply.Ok? && !IsBlank(reply.value)
    ensures var r := Step(s, k, Turn([blank], [reply], Ok(()), spawn), env);
      && (r.Stop? ==> r.outcome != Blocked)
      && (r.Continue? ==> r.next.shared.resumes == 0 && !r.next.shared.paused)
  {
    var turn := Turn([blank], [reply], Ok(()), spawn);
    var sh := s.shared.(cancellable := true);
    var h := env.handle(blank);
    assert h == Handle(true, blank, resolve, dumpDir);
    assert h.Handled? && h.paused && !h.resumed;
    assert [blank][1..] == [];
    assert Cooldown(sh, [blank], env.handle) == Apply(sh, h);
    var sh1 := Apply(sh, h).value;
    var h' := env.handle(reply);
    assert h' == Handle(true, reply, resolve, dumpDir);
    assert h'.Handled? && h'.resumed;
    assert Wait(sh1, [reply], env.handle).Resumed?;
    var r := Step(s, k, turn, env);
    if r.Stop? && r.outcome == Blocked {
      StepBlockedAtGate(s, k, turn, env);
    }
    if r.Continue? {
      StepContinuesFromGate(s, k, turn, env);
    }
  }

  /** The resume signal a wait receives is not left behind: after such a turn, a blank
      reply in the next turn's cooldown blocks the loop again. */
  lemma NoStaleResume(s: LoopState, k: nat, blank: Reply, reply: Reply, next: Reply,
                      spawn: Result<(), IoKind>, spawn': Result<(), IoKind>,
                      env: RenderEnv, resolve: Resolver, dumpDir: Path)
    requires env.handle == CancellableHandler(resolve, dumpDir)
    requires s.queue != [] && !s.shared.cancellable && s.shared.resumes == 0 && k > 0
    requires blank.Err? || IsBlank(blank.value)
    requires reply.Ok? && !IsBlank(reply.value)
    requires next.Err? || IsBlank(next.value)
    requires var r := Step(s, k, Turn([blank], [reply], Ok(()), spawn), env);
      && r.Continue? && r.next.queue != []
      && (forall j :: j in r.next.queue ==> IsText(Render(j.demoName)))
      && IsText(Render(r.next.queue[0].videoName))
    ensures var r := Step(s, k, Turn([blank], [reply], Ok(()), spawn), env);
      && Step(r.next, k + 1, Turn([next], [], Ok(()), spawn'), env).Stop?
      && Step(r.next, k + 1, Turn([next], [], Ok(()), spawn'), env).outcome == Blocked
  {
    WaitReplyResumes(s, k, blank, reply, spawn, env, resolve, dumpDir);
    var r := Step(s, k, Turn([blank], [reply], Ok(()), spawn), env);
    BlankReplyBlocks(r.next, k + 1, next, spawn', env, resolve, dumpDir);
  }

  /** A turn that goes on has the shared state its gate left. */
  lemma StepContinuesFromGate(s: LoopState, k: nat, turn: Turn, env: RenderEnv)
    requires s.queue != [] && !s.shared.cancellable
    requires Step(s, k, turn, env).Continue?
    ensures var g := Gate(s.(queue := s.queue[1..], removed := s.removed + [s.queue[0]]), k, turn, env);
      g.Continue? && Step(s, k, turn, env).next.shared == g.next.shared
  {
  }

  /** Only the gate ends a turn Blocked. */
  lemma StepBlockedAtGate(s: LoopState, k: nat, turn: Turn, env: RenderEnv)
    requires s.queue != [] && !s.shared.cancellable
    requires Step(s, k, turn, env).Stop? && Step(s, k, turn, env).outcome == Blocked
    ensures var g := Gate(s.(queue := s.queue[1..], removed := s.removed + [s.queue[0]]), k, turn, env);
      g.Stop? && g.outcome == Blocked
  {
  }

  /** Without renderings, `run` launches Doom once after its prompt (the render loop then
      has nothing to do); with renderings nothing is launched here. */
  function PlayLaunch(renderings: seq<Job>, lines: seq<Line>, prompt: Result<(), IoKind>, present: Path -> bool,
                      spawn: Result<(), IoKind>): (r: Result<Option<Launch>, Halt>)
    ensures renderings != [] ==> r == Ok(None)
    ensures renderings == [] && prompt.Err? ==> r == Err(Fail(Io(prompt.error)))
    ensures renderings == [] && prompt.Ok? ==>
      (r.Ok? <==> RunDoom(Words(lines), present, spawn).Ok?)
      && (r.Ok? ==> r.value == Some(RunDoom(Words(lines), present, spawn).value))
  {
    if renderings != [] then Ok(None)
    else if prompt.Err? then Err(Fail(Io(prompt.error)))
    else match RunDoom(Words(lines), present, spawn)
      case Err(h) => Err(h)
      case Ok(l) => Ok(Some(l))
  }

  /** Without renderings, a command line whose first line is the binary alone launches
      Doom once, with the trimmed words of the other lines. */
  lemma PlayLaunchArgs(binary: string, rest: seq<Line>, present: Path -> bool)
    requires present(Parse(binary))
    ensures var r := PlayLaunch([], [FromWord(binary, 0)] + rest, Ok(()), present, Ok(()));
      r.Ok? && r.value.Some? && r.value.value.binary == Parse(binary) && r.value.value.args == ArgsOf(rest)
  {
    RunDoomArgs(binary, rest, present, Ok(()));
  }

  // ---------------------------------------------------------------------------
  // batch_render
  // ---------------------------------------------------------------------------

  /** The queue listing: the first demo whose path is not text. */
  method UnprintableDemo(queue: seq<Job>) returns (r: Option<Path>)
    ensures r == FirstUnprintable(queue)
  {
    var i := 0;
    while i < |queue|
      invariant 0 <= i <= |queue|
      invariant FirstUnprintable(queue) == FirstUnprintable(queue[i..])
    {
      if ToStr(queue[i].demoName).None? {
        return Some(queue[i].demoName);
      }
      assert queue[i..][1..] == queue[i + 1..];
      i := i + 1;
    }
    return None;
  }

  /** The job's command line: a copy of the base one with the demo and the video added;
      the first of the two paths that is not text is an error. */
  method RenderCommand(cmdline: CommandLine, job: Job) returns (r: Result<CommandLine, Error>)
    ensures r.Ok? <==> IsText(Render(job.demoName)) && IsText(Render(job.videoName))
    ensures r.Ok? ==> fresh(r.value) && r.value.lines == cmdline.lines + RenderLines(job)
    ensures r.Err? ==> r.error == NonUtf8Path(
      if !IsText(Render(job.demoName)) then Render(job.demoName) else Render(job.videoName))
  {
    var rc := cmdline.Clone();
    rc.PushLine(FromWord("-timedemo", 1));
    var demo := ToStr(job.demoName);
    if demo.None? {
      return Err(NonUtf8Path(Render(job.demoName)));
    }
    rc.PushLine(FromWord(demo.value, 2));
    rc.PushLine(FromWord("-viddump", 1));
    var video := ToStr(job.videoName);
    if video.None? {
      return Err(NonUtf8Path(Render(job.videoName)));
    }
    rc.PushLine(FromWord(video.value, 2));
    return Ok(rc);
  }

  /** `run_doom` from the loop: Doom is only ever started while an interrupt would end
      the program. */
  method Spawn(signals: Signals, words: seq<string>, present: Path -> bool, spawn: Result<(), IoKind>)
    returns (r: Result<Launch, Halt>)
    requires !signals.cancellable
    ensures r == RunDoom(words, present, spawn)
  {
    r := RunDoom(words, present, spawn);
  }

  /** The first prompt, or the cooldown, the wait for a resume signal and the drain of
      the job channel. */
  method PassGate(s: LoopState, k: nat, turn: Turn, signals: Signals, env: RenderEnv, resolve: Resolver,
                  dumpDir: Path)
    returns (g: Progress)
    requires s.shared == signals.State() && !signals.cancellable
    requires env.handle == CancellableHandler(resolve, dumpDir)
    modifies signals
    ensures g == Gate(s, k, turn, env)
    ensures StateOf(g).shared == signals.State()
  {
    if k == 0 {
      if turn.interrupts != [] {
        return Stop(Halted(Exit(0)), s);
      }
      if turn.prompt.Err? {
        return Stop(Halted(Fail(Io(turn.prompt.error))), s);
      }
      return Continue(s);
    }
    signals.cancellable := true;
    signals.Sleep(turn.interrupts, resolve, dumpDir);
    if signals.paused {
      if signals.resumes > 0 {
        signals.resumes := signals.resumes - 1;
      } else {
        var resumed := signals.Await(turn.waiting, resolve, dumpDir);
        if !resumed {
          return Stop(Blocked, s.(shared := signals.State()));
        }
      }
    }
    signals.cancellable := false;
    var q, a, failure := signals.TakeJobs(s.queue, s.arrived);
    var t := s.(queue := q, arrived := a, shared := signals.State());
    if failure.Some? {
      return Stop(Halted(Fail(failure.value)), t);
    }
    return Continue(t);
  }

  /** One turn of `batch_render`, with the queue and the run's history in `s` and the
      flags and channels in `signals`. */
  method Iterate(s: LoopState, k: nat, turn: Turn, cmdline: CommandLine, signals: Signals, env: RenderEnv,
                 resolve: Resolver, dumpDir: Path, present: Path -> bool)
    returns (p: Progress)
    requires s.queue != [] && s.shared == signals.State() && !signals.cancellable
    requires env == RenderEnv(CancellableHandler(resolve, dumpDir), DoomLauncher(cmdline.lines, present))
    modifies signals
    ensures p == Step(s, k, turn, env)
    ensures StateOf(p).shared == signals.State()
  {
    var bad := UnprintableDemo(s.queue);
    if bad.Some? {
      return Stop(Halted(Fail(NonUtf8Path(Render(bad.value)))), s);
    }
    var job := s.queue[0];
    var t := s.(queue := s.queue[1..], removed := s.removed + [job]);
    var rc := RenderCommand(cmdline, job);
    if rc.Err? {
      return Stop(Halted(Fail(rc.error)), t);
    }
    var g := PassGate(t, k, turn, signals, env, resolve, dumpDir);
    if g.Stop? {
      return g;
    }
    t := g.next;
    var words := rc.value.IterWords();
    var launched := Spawn(signals, words, present, turn.spawn);
    SpawnAfterChecks(cmdline.lines, job, present, turn.spawn);
    if launched.Err? {
      return Stop(Halted(launched.error), t);
    }
    return Continue(t.(launches := t.launches + [launched.value]));
  }

  /** Turn `k` of the loop, as the loop's proof sees it: the run it is part of ends as
      `result`, and either this turn ends it or the turns after it do. */
  method RenderTurn(s: LoopState, k: nat, script: seq<Turn>, cmdline: CommandLine, signals: Signals,
                    env: RenderEnv, resolve: Resolver, dumpDir: Path, present: Path -> bool,
                    ghost result: (Outcome, LoopState))
    returns (p: Progress)
    requires s.queue != [] && s.shared == signals.State() && !signals.cancellable
    requires env == RenderEnv(CancellableHandler(resolve, dumpDir), DoomLauncher(cmdline.lines, present))
    requires Leads(s, k, script, env, result)
    modifies signals
    ensures StateOf(p).shared == signals.State()
    ensures p.Stop? ==> result == (p.outcome, p.last)
    ensures p.Continue? ==> !p.next.shared.cancellable && Leads(p.next, k + 1, script, env, result)
    ensures p.Continue? ==> k < |script| || |p.next.queue| + |p.next.shared.inbox| < |s.queue| + |s.shared.inbox|
  {
    p := Iterate(s, k, TurnAt(script, k), cmdline, signals, env, resolve, dumpDir, present);
    RunStep(s, k, script, env);
  }

  /** `batch_render`: installs the interrupt handler, then renders the queue turn by turn
      until it is empty or the program stops. */
  method BatchRender(renderings: seq<Job>, cmdline: CommandLine, signals: Signals, handlerInstalled: bool,
                     script: seq<Turn>, env: RenderEnv, resolve: Resolver, dumpDir: Path,
                     present: Path -> bool)
    returns (o: Outcome, launches: seq<Launch>)
    requires !signals.cancellable
    requires env == RenderEnv(CancellableHandler(resolve, dumpDir), DoomLauncher(cmdline.lines, present))
    modifies signals
    ensures !handlerInstalled ==>
      o == Halted(Fail(SignalHandler)) && launches == [] && signals.State() == old(signals.State())
    ensures handlerInstalled ==>
      Ends(Start(renderings, old(signals.State())), 0, script, env, o, launches, signals.State())
  {
    if !handlerInstalled {
      return Halted(Fail(SignalHandler)), [];
    }
    var s := Start(renderings, signals.State());
    ghost var result := Run(s, 0, script, env);
    EndsOfResult(s, 0, script, env, result);
    var k: nat := 0;
    while s.queue != []
      invariant s.shared == signals.State() && !signals.cancellable
      invariant Leads(s, k, script, env, result)
      decreases if k < |script| then |script| - k else 0, |s.queue| + |s.shared.inbox|
    {
      var p := RenderTurn(s, k, script, cmdline, signals, env, resolve, dumpDir, present, result);
      if p.Stop? {
        return p.outcome, p.last.launches;
      }
      s := p.next;
      k := k + 1;
    }
    RunDone(s, k, script, env);
    return Done, s.launches;
  }
}

=== FILE: score.dfy ===
/**
 * src/score.rs: the score of one walked entry against a query (stem, optional
 * extension, the query's own ancestors).
 */
module Score {
  import opened Wrappers
  import opened Errors
  import opened Text
  import opened Paths

  /** `Itertools::all_equal`: every item equals the first one. */
  predicate AllEqual<T(==)>(s: seq<T>) {
    forall i :: 0 <= i < |s| ==> s[i] == s[0]
  }

  /** `Iterator::zip`: pairs up to the shorter length. */
  function Zip<A, B>(a: seq<A>, b: seq<B>): (r: seq<(A, B)>)
    ensures |r| == if |a| <= |b| then |a| else |b|
  {
    var n := if |a| <= |b| then |a| else |b|;
    seq(n, i requires 0 <= i < n => (a[i], b[i]))
  }

  /** The entry's stem equals the query's ignoring ASCII case. */
  predicate StemsEq(stem: string, baseName: string) {
    EqIgnoreAsciiCase(stem, baseName)
  }

  /** The entry's stem equals the query's exactly. */
  predicate StemsCaseEq(stem: string, baseName: string) {
    stem == baseName
  }

  /** A query without extension matches every entry; otherwise the extensions must
      agree ignoring ASCII case. */
  predicate ExtensionsMatch(extension: Option<string>, entryExtension: string) {
    extension.None? || EqIgnoreAsciiCase(extension.value, entryExtension)
  }

  /** All (query ancestor, entry ancestor) pairs are equal to one another. */
  predicate AncestorsEq(ancestors: seq<Path>, entry: Path) {
    AllEqual(Zip(ancestors, Ancestors(entry)))
  }

  /** The running total of `score_entry` before the directory halving, step by step. */
  function Subtotal(stemsEq: bool, stemsCaseEq: bool, extensionsMatch: bool): nat {
    var afterStem := if stemsEq then 2 else 0;
    var afterCase := if stemsCaseEq then afterStem + 5 else afterStem;
    if extensionsMatch then
      var withExt := afterCase + 1;
      var withStemExt := if stemsEq then withExt + 10 else withExt;
      if stemsCaseEq then withStemExt + 5 else withStemExt
    else afterCase
  }

  /** The values the scoring rules give, case by case (an exact stem match is always
      also a case-insensitive one). */
  function ScoreTable(stemsEq: bool, stemsCaseEq: bool, extensionsMatch: bool): nat
    requires stemsCaseEq ==> stemsEq
  {
    if !stemsEq then (if extensionsMatch then 1 else 0)
    else if !stemsCaseEq then (if extensionsMatch then 13 else 2)
    else if extensionsMatch then 23 else 7
  }

  /** An exact stem match is also a case-insensitive one. */
  lemma ExactStemMatchIsStemMatch(stem: string, baseName: string)
    ensures StemsCaseEq(stem, baseName) ==> StemsEq(stem, baseName)
  {
  }

  /** `score_entry`: the score of `entry` (a directory when `isDir`) against the query
      stem `baseName` and `extension`, given the entry's extension text and the
      query's ancestors. An entry without a stem is an error. */
  function ScoreEntry(entry: Path, isDir: bool, baseName: string, extension: Option<string>,
                      entryExtension: string, ancestors: seq<Path>): (r: Result<nat, Error>)
    ensures r.Err? <==> FileStem(entry).None?
    ensures r.Err? ==> r.error == NoFileStem(Render(entry))
    ensures r.Ok? ==>
      var stem := FileStem(entry).value;
      var se := StemsEq(stem, baseName);
      var table := ScoreTable(se, StemsCaseEq(stem, baseName), ExtensionsMatch(extension, entryExtension));
      r.value == (if isDir then table / 2 else table) + (if se && AncestorsEq(ancestors, entry) then 20 else 0)
  {
    match FileStem(entry)
    case None => Err(NoFileStem(Render(entry)))
    case Some(stem) =>
      var stemsEq := StemsEq(stem, baseName);
      var stemsCaseEq := StemsCaseEq(stem, baseName);
      var subtotal := Subtotal(stemsEq, stemsCaseEq, ExtensionsMatch(extension, entryExtension));
      var halved := if isDir then subtotal / 2 else subtotal;
      Ok(if stemsEq && AncestorsEq(ancestors, entry) then halved + 20 else halved)
  }

  /** Without a case-insensitive stem match an entry scores at most 1, so it never
      passes the "> 1" threshold. */
  lemma NoStemMatchScoresAtMostOne(entry: Path, isDir: bool, baseName: string, extension: Option<string>,
                                   entryExtension: string, ancestors: seq<Path>)
    requires FileStem(entry).Some? && !StemsEq(FileStem(entry).value, baseName)
    ensures ScoreEntry(entry, isDir, baseName, extension, entryExtension, ancestors).value <= 1
  {
  }

  /** For a file, a case-insensitive stem match is worth at least 2 and an exact one at
      least 7; with a matching extension at least 13 and 23. */
  lemma FileScoreLowerBounds(entry: Path, baseName: string, extension: Option<string>,
                             entryExtension: string, ancestors: seq<Path>)
    requires FileStem(entry).Some?
    ensures var stem := FileStem(entry).value;
            var s := ScoreEntry(entry, false, baseName, extension, entryExtension, ancestors).value;
            var em := ExtensionsMatch(extension, entryExtension);
            && (StemsEq(stem, baseName) ==> s >= 2)
            && (StemsCaseEq(stem, baseName) ==> s >= 7)
            && (StemsEq(stem, baseName) && em ==> s >= 13)
            && (StemsCaseEq(stem, baseName) && em ==> s >= 23)
  {
  }

  /** A directory scores half of what the same-named file scores before the bonus
      (integer division), and the +20 ancestor bonus is added after the halving. */
  lemma DirectoryHalvedBeforeBonus(entry: Path, baseName: string, extension: Option<string>,
                                   entryExtension: string, ancestors: seq<Path>)
    requires FileStem(entry).Some?
    ensures var bonus := if StemsEq(FileStem(entry).value, baseName) && AncestorsEq(ancestors, entry) then 20 else 0;
            var asFile := ScoreEntry(entry, false, baseName, extension, entryExtension, ancestors).value;
            var asDir := ScoreEntry(entry, true, baseName, extension, entryExtension, ancestors).value;
            asFile >= bonus && asDir == (asFile - bonus) / 2 + bonus
  {
  }

  /** A query without extension never scores an entry lower than the same query with
      an extension. */
  lemma ExtensionlessQueryNotDownRanked(entry: Path, isDir: bool, baseName: string, extension: string,
                                        entryExtension: string, ancestors: seq<Path>)
    requires FileStem(entry).Some?
    ensures ScoreEntry(entry, isDir, baseName, None, entryExtension, ancestors).value
         >= ScoreEntry(entry, isDir, baseName, Some(extension), entryExtension, ancestors).value
  {
  }

  /** `all_equal` over the zipped pairs holds exactly when every two pairs are equal,
      which is not "each query ancestor equals its entry ancestor". */
  lemma AncestorsEqIsPairsAllEqual(ancestors: seq<Path>, entry: Path)
    ensures var z := Zip(ancestors, Ancestors(entry));
            AncestorsEq(ancestors, entry) <==> forall i, j :: 0 <= i < |z| && 0 <= j < |z| ==> z[i] == z[j]
  {
  }

  /** With at most one ancestor on either side (a bare query name such as `doom2`, or
      an entry directly under the root) there is at most one pair, so the ancestors
      always count as equal. */
  lemma AtMostOnePairAncestorsEq(query: Path, entry: Path)
    requires |Ancestors(query)| <= 1 || |Ancestors(entry)| <= 1
    ensures AncestorsEq(Ancestors(query), entry)
  {
  }

  /** A query with a directory part (`iwad/doom2`) or a leading `.` (`./doom2`) has two
      or more ancestors, and never earns the ancestor bonus for an entry with two or
      more: its first two pairs always differ. */
  lemma {:induction false} NestedQueryNeverAncestorsEq(query: Path, entry: Path)
    requires |Ancestors(query)| >= 2 && |Ancestors(entry)| >= 2
    ensures !AncestorsEq(Ancestors(query), entry)
  {
    var z := Zip(Ancestors(query), Ancestors(entry));
    if |query.comps| >= 2 {
      assert |z[0].0.comps| != |z[1].0.comps|;
    } else {
      assert z[0].0.anchor == CurDir && z[1].0 == EmptyPath;
    }
  }

  /** The query ancestors of a bare name and of the same name behind `./`: the empty
      path alone, and `.` followed by the empty path. */
  lemma LeadingDotAncestors(c: Component)
    ensures Ancestors(Parse(c)) == [EmptyPath]
    ensures Ancestors(Parse("./" + c)) == [Path(CurDir, []), EmptyPath]
  {
    ParseComponent(c);
    ParseRender(Path(CurDir, [c]));
    assert Render(Path(CurDir, [c])) == "./" + c;
  }
}

=== FILE: search.dfy ===
/**
 * src/search.rs: resolving a file name against ordered search roots, keeping the
 * single best-scoring entry of the first root that yields one.
 *
 * The directory walk is an input: `Host.walk` gives, for an absolute root, the items
 * `WalkDir` would produce (entries and failures) in walk order.
 */
module Search {
  import opened Wrappers
  import opened Errors
  import opened Text
  import opened Paths
  import opened Util
  import opened Score

  /** The cause of a failed walk step: an I/O error of some kind, or a walk error
      that carries no I/O error (a symbolic-link loop). */
  datatype WalkFailure = IoFailure(kind: IoKind) | LinkLoop

  /** One item of a directory walk. */
  datatype WalkItem = Visit(path: Path, isDir: bool) | Failure(cause: WalkFailure)

  /** What the search reads from the machine: the Doom directory, path normalization
      and the walk listing of every directory. */
  datatype Host = Host(doomDir: Result<Path, Error>,
                       normalize: Path -> Result<Path, IoKind>,
                       walk: Path -> seq<WalkItem>)

  /** The query as the search takes it apart: stem, extension, proper ancestors. */
  datatype Query = Query(baseName: string, extension: Option<string>, ancestors: seq<Path>)

  datatype Candidate = Candidate(path: Path, score: nat)

  /** The public Doom directory, the second search root. */
  const PublicDoomDir: Path := Path(RootDir, ["public", "doom"])

  /** `FileType::get_search_dirs`: the Doom directory, then the public one. */
  function SearchDirs(doomDir: Result<Path, Error>): (r: Result<seq<Path>, Error>)
    ensures doomDir.Err? ==> r == Err(doomDir.error)
    ensures doomDir.Ok? ==> r == Ok([doomDir.value, PublicDoomDir])
  {
    match doomDir
    case Err(e) => Err(e)
    case Ok(d) => Ok([d, PublicDoomDir])
  }

  /** Permission and not-found failures are skipped; every other failure stops the walk. */
  predicate Skippable(f: WalkFailure) {
    f == IoFailure(PermissionDenied) || f == IoFailure(NotFound)
  }

  predicate Fatal(item: WalkItem) {
    item.Failure? && !Skippable(item.cause)
  }

  /** The extension text of a walked entry ("" without one); an extension that is not
      text aborts the search. */
  function EntryExtension(p: Path): (r: Result<string, Error>)
    ensures Extension(p).None? ==> r == Ok("")
    ensures Extension(p).Some? && IsText(Extension(p).value) ==> r == Ok(Extension(p).value)
    ensures Extension(p).Some? && !IsText(Extension(p).value) ==> r == Err(NonUtf8Path(Render(p)))
  {
    match Extension(p)
    case None => Ok("")
    case Some(e) => if IsText(e) then Ok(e) else Err(NonUtf8Path(Render(p)))
  }

  /** Which walked entries the search considers, given path and directory flag. */
  type Acceptor = (Path, bool) -> bool

  /** The score of a walked entry, or the error that scoring it raises. */
  type Scorer = (Path, bool) -> Result<nat, Error>

  /** The scorer of a query: the entry's extension text, then `score`. */
  function ScoreFor(q: Query): Scorer
  {
    (p: Path, isDir: bool) =>
      match EntryExtension(p)
      case Err(e) => Err(e)
      case Ok(ext) => ScoreEntry(p, isDir, q.baseName, q.extension, ext, q.ancestors)
  }

  /** A candidate replaces the kept one on a score above 1 when none is kept, and only
      on a strictly greater score otherwise. */
  predicate Replaces(best: Option<Candidate>, score: nat) {
    (best.None? && score > 1) || (best.Some? && score > best.value.score)
  }

  /** The keep-best pass over one root's walk. */
  function ScanBest(items: seq<WalkItem>, score: Scorer, accept: Acceptor, best: Option<Candidate>)
    : Result<Option<Candidate>, Error>
  {
    if items == [] then Ok(best)
    else match items[0]
      case Failure(f) =>
        if Skippable(f) then ScanBest(items[1..], score, accept, best) else Ok(best)
      case Visit(p, isDir) =>
        if !accept(p, isDir) then ScanBest(items[1..], score, accept, best)
        else match score(items[0].path, items[0].isDir)
          case Err(e) => Err(e)
          case Ok(s) =>
            ScanBest(items[1..], score, accept, if Replaces(best, s) then Some(Candidate(p, s)) else best)
  }

  /** Item `i` is reached before any fatal failure, is an entry and is accepted. */
  ghost predicate Considered(items: seq<WalkItem>, i: int, accept: Acceptor) {
    && 0 <= i < |items|
    && (forall j :: 0 <= j < i ==> !Fatal(items[j]))
    && items[i].Visit?
    && accept(items[i].path, items[i].isDir)
  }

  function Bound(best: Option<Candidate>): nat {
    if best.None? then 1 else best.value.score
  }

  /** Item `i` scores `c.score > 1` and every considered item before it scores less. */
  ghost predicate IsWinner(items: seq<WalkItem>, score: Scorer, accept: Acceptor, i: int, c: Candidate) {
    && Considered(items, i, accept)
    && score(items[i].path, items[i].isDir) == Ok(c.score)
    && c.path == items[i].path
    && c.score > 1
    && forall j :: 0 <= j < i && Considered(items, j, accept) ==>
         score(items[j].path, items[j].isDir).Ok? && score(items[j].path, items[j].isDir).value < c.score
  }

  /** `best` is the result the walk `items` must give: every considered item scores
      without error and at most the kept score (at most 1 when nothing is kept), and a
      kept candidate is the first item reaching its score. */
  ghost predicate BestOf(items: seq<WalkItem>, score: Scorer, accept: Acceptor, best: Option<Candidate>) {
    && (forall j :: Considered(items, j, accept) ==>
          score(items[j].path, items[j].isDir).Ok? && score(items[j].path, items[j].isDir).value <= Bound(best))
    && (best.Some? ==> exists i :: IsWinner(items, score, accept, i, best.value))
  }

  /** Item `i` is the first considered item whose scoring fails. */
  ghost predicate IsFirstFailure(items: seq<WalkItem>, score: Scorer, accept: Acceptor, i: int) {
    && Considered(items, i, accept)
    && score(items[i].path, items[i].isDir).Err?
    && forall j :: 0 <= j < i && Considered(items, j, accept) ==> score(items[j].path, items[j].isDir).Ok?
  }

  lemma ConsideredInPrefix(done: seq<WalkItem>, rest: seq<WalkItem>, accept: Acceptor, i: int)
    requires 0 <= i < |done|
    ensures Considered(done + rest, i, accept) == Considered(done, i, accept)
    ensures (done + rest)[i] == done[i]
  {
    assert forall j :: 0 <= j <= i ==> (done + rest)[j] == done[j];
  }

  /** A fatal failure ends what the walk considers: the summary of the prefix stands. */
  lemma BestOfUpToFatal(done: seq<WalkItem>, rest: seq<WalkItem>, score: Scorer, accept: Acceptor,
                        best: Option<Candidate>)
    requires forall j :: 0 <= j < |done| ==> !Fatal(done[j])
    requires rest != [] && Fatal(rest[0])
    requires BestOf(done, score, accept, best)
    ensures BestOf(done + rest, score, accept, best)
  {
    var items := done + rest;
    forall i | 0 <= i < |done| {
      ConsideredInPrefix(done, rest, accept, i);
    }
    assert items[|done|] == rest[0];
    assert forall j :: Considered(items, j, accept) ==> j < |done|;
    assert best.Some? ==> forall i :: IsWinner(done, score, accept, i, best.value) ==> IsWinner(items, score, accept, i, best.value);
  }

  /** An item that is not considered (a skipped failure or a rejected entry) leaves the
      summary unchanged. */
  lemma BestOfSkip(done: seq<WalkItem>, item: WalkItem, score: Scorer, accept: Acceptor,
                   best: Option<Candidate>)
    requires forall j :: 0 <= j < |done| ==> !Fatal(done[j])
    requires !Fatal(item) && (item.Failure? || !accept(item.path, item.isDir))
    requires BestOf(done, score, accept, best)
    ensures BestOf(done + [item], score, accept, best)
  {
    forall i | 0 <= i < |done| {
      ConsideredInPrefix(done, [item], accept, i);
    }
    assert !Considered(done + [item], |done|, accept);
    assert best.Some? ==> forall i :: IsWinner(done, score, accept, i, best.value) ==> IsWinner(done + [item], score, accept, i, best.value);
  }

  /** A considered entry that scores `s` replaces the summary exactly when `Replaces`
      says so. */
  lemma BestOfScored(done: seq<WalkItem>, item: WalkItem, score: Scorer, accept: Acceptor,
                     best: Option<Candidate>, s: nat)
    requires forall j :: 0 <= j < |done| ==> !Fatal(done[j])
    requires item.Visit? && accept(item.path, item.isDir) && score(item.path, item.isDir) == Ok(s)
    requires BestOf(done, score, accept, best)
    ensures BestOf(done + [item], score, accept, if Replaces(best, s) then Some(Candidate(item.path, s)) else best)
  {
    var done' := done + [item];
    forall i | 0 <= i < |done| {
      ConsideredInPrefix(done, [item], accept, i);
    }
    assert Considered(done', |done|, accept);
    if Replaces(best, s) {
      assert IsWinner(done', score, accept, |done|, Candidate(item.path, s));
    } else {
      assert best.Some? ==> forall i :: IsWinner(done, score, accept, i, best.value) ==> IsWinner(done', score, accept, i, best.value);
    }
  }

  /** The keep-best pass, from a prefix already summarized by `best`. */
  lemma {:induction false} ScanBestFrom(done: seq<WalkItem>, rest: seq<WalkItem>, score: Scorer,
                                        accept: Acceptor, best: Option<Candidate>)
    requires forall j :: 0 <= j < |done| ==> !Fatal(done[j])
    requires BestOf(done, score, accept, best)
    ensures var r := ScanBest(rest, score, accept, best);
            && (r.Ok? ==> BestOf(done + rest, score, accept, r.value))
            && (r.Err? ==> exists i :: IsFirstFailure(done + rest, score, accept, i)
                                       && score((done + rest)[i].path, (done + rest)[i].isDir).error == r.error)
    decreases |rest|
  {
    if rest == [] {
      assert done + rest == done;
    } else if Fatal(rest[0]) {
      BestOfUpToFatal(done, rest, score, accept, best);
    } else {
      var done' := done + [rest[0]];
      assert done' + rest[1..] == done + rest;
      if rest[0].Failure? || !accept(rest[0].path, rest[0].isDir) {
        BestOfSkip(done, rest[0], score, accept, best);
        ScanBestFrom(done', rest[1..], score, accept, best);
      } else {
        match score(rest[0].path, rest[0].isDir)
        case Err(e) =>
          forall i | 0 <= i < |done| {
            ConsideredInPrefix(done, rest, accept, i);
          }
          assert (done + rest)[|done|] == rest[0];
          assert IsFirstFailure(done + rest, score, accept, |done|);
        case Ok(s) =>
          BestOfScored(done, rest[0], score, accept, best, s);
          ScanBestFrom(done', rest[1..], score, accept, if Replaces(best, s) then Some(Candidate(rest[0].path, s)) else best);
      }
    }
  }

  /** The keep-best pass over a whole walk gives the walk's best candidate, or the
      error of the first considered entry whose scoring fails. */
  lemma ScanBestIsBest(items: seq<WalkItem>, score: Scorer, accept: Acceptor)
    ensures var r := ScanBest(items, score, accept, None);
            && (r.Ok? ==> BestOf(items, score, accept, r.value))
            && (r.Err? ==> exists i :: IsFirstFailure(items, score, accept, i) && score(items[i].path, items[i].isDir).error == r.error)
  {
    ScanBestFrom([], items, score, accept, None);
    assert [] + items == items;
  }

  /** `BestOf` leaves one possible result: the maximum score over the considered
      entries, at the earliest entry reaching it, or nothing when none scores above 1. */
  lemma BestOfUnique(items: seq<WalkItem>, score: Scorer, accept: Acceptor, b1: Option<Candidate>,
                     b2: Option<Candidate>)
    requires BestOf(items, score, accept, b1) && BestOf(items, score, accept, b2)
    ensures b1 == b2
  {
  }

  /** The keep-best pass succeeds with `b` exactly when `b` is the walk's best. */
  lemma ScanBestIffBestOf(items: seq<WalkItem>, score: Scorer, accept: Acceptor, b: Option<Candidate>)
    ensures ScanBest(items, score, accept, None) == Ok(b) <==> BestOf(items, score, accept, b)
  {
    ScanBestIsBest(items, score, accept);
    var r := ScanBest(items, score, accept, None);
    if BestOf(items, score, accept, b) && r.Ok? {
      BestOfUnique(items, score, accept, b, r.value);
    }
  }

  /** Changing an entry that the predicate rejects changes nothing: rejected entries are
      never scored. */
  lemma {:induction false} RejectedEntriesNeverScored(items: seq<WalkItem>, i: int, p: Path, isDir: bool, score: Scorer,
                                                      accept: Acceptor, best: Option<Candidate>)
    requires 0 <= i < |items| && items[i].Visit? && !accept(items[i].path, items[i].isDir) && !accept(p, isDir)
    ensures ScanBest(items[i := Visit(p, isDir)], score, accept, best) == ScanBest(items, score, accept, best)
    decreases |items|
  {
    var items' := items[i := Visit(p, isDir)];
    if i > 0 {
      assert items'[1..] == items[1..][i - 1 := Visit(p, isDir)];
      match items[0]
      case Failure(f) =>
        RejectedEntriesNeverScored(items[1..], i - 1, p, isDir, score, accept, best);
      case Visit(p0, d0) =>
        if accept(p0, d0) {
          match score(items[0].path, items[0].isDir)
          case Err(e) =>
          case Ok(s) =>
            RejectedEntriesNeverScored(items[1..], i - 1, p, isDir, score, accept,
                                       if Replaces(best, s) then Some(Candidate(p0, s)) else best);
        } else {
          RejectedEntriesNeverScored(items[1..], i - 1, p, isDir, score, accept, best);
        }
    } else {
      assert items'[1..] == items[1..];
    }
  }

  /** The search in one root: the query taken apart, the root made absolute, the walk
      scanned. A query without stem is an error. */
  function RootScan(name: Path, root: Path, accept: Acceptor, host: Host)
    : Result<Option<Candidate>, Error>
  {
    match FileStem(name)
    case None => Err(NoFileStem(Render(name)))
    case Some(stem) =>
      match AbsolutePath(root, host.doomDir, host.normalize)
      case Err(e) => Err(e)
      case Ok(dir) => ScanBest(host.walk(dir), ScoreFor(Query(stem, Extension(name), Ancestors(name))), accept, None)
  }

  /** The roots in order: the first one that keeps a candidate answers, and when none
      does the file is not found. */
  function SearchIn(name: Path, roots: seq<Path>, accept: Acceptor, host: Host)
    : (r: Result<seq<Path>, Error>)
    ensures r.Ok? ==> |r.value| == 1
  {
    if roots == [] then Err(FileNotFound(Render(name)))
    else match RootScan(name, roots[0], accept, host)
      case Err(e) => Err(e)
      case Ok(None) => SearchIn(name, roots[1..], accept, host)
      case Ok(Some(c)) => Ok([c.path])
  }

  /** `search_file_in_dirs_by` as a function. An absolute name is searched as its stem
      (extension dropped) in its parent directory alone. */
  function Search(name: Path, searchDirs: seq<Path>, accept: Acceptor, host: Host)
    : (r: Result<seq<Path>, Error>)
    ensures r.Ok? ==> |r.value| == 1
    ensures !name.absolute ==> r == SearchIn(name, searchDirs, accept, host)
    ensures name.absolute && FileStem(name).None? ==> r == Err(NoFileStem(Render(name)))
    ensures name.absolute && FileStem(name).Some? ==>
      r == SearchIn(Parse(FileStem(name).value), [Parent(name)], accept, host)
    decreases name.absolute
  {
    if name.absolute then
      match FileStem(name)
      case None => Err(NoFileStem(Render(name)))
      case Some(stem) =>
        StemAndExtension(name);
        Search(Parse(stem), [Parent(name)], accept, host)
    else SearchIn(name, searchDirs, accept, host)
  }

  /** The walk loop of `search_file_in_dirs_by` over one root: `results` holds the
      best entry so far, cleared and refilled on every improvement. */
  method ScanWalk(items: seq<WalkItem>, q: Query, accept: Acceptor) returns (r: Result<Option<Candidate>, Error>)
    ensures r == ScanBest(items, ScoreFor(q), accept, None)
  {
    var results: seq<Candidate> := [];
    var k := 0;
    while k < |items|
      invariant 0 <= k <= |items| && |results| <= 1
      invariant ScanBest(items, ScoreFor(q), accept, None) == ScanBest(items[k..], ScoreFor(q), accept, Kept(results))
    {
      var done;
      results, done, r := ScanItem(items, k, q, accept, results);
      if done {
        return;
      }
      k := k + 1;
    }
    if results == [] {
      return Ok(None);
    }
    return Ok(Some(results[0]));
  }

  /** The entry the search keeps: the only one in `results`, if any. */
  function Kept(results: seq<Candidate>): Option<Candidate> {
    if results == [] then None else Some(results[0])
  }

  /** One item of the walk loop: a skippable failure or a rejected entry changes
      nothing, any other failure ends the walk with what is kept, a scoring error ends
      the search, and an accepted entry replaces the kept one when it scores better. */
  method ScanItem(items: seq<WalkItem>, k: nat, q: Query, accept: Acceptor, results: seq<Candidate>)
    returns (results': seq<Candidate>, done: bool, r: Result<Option<Candidate>, Error>)
    requires k < |items| && |results| <= 1
    ensures |results'| <= 1
    ensures done ==> ScanBest(items[k..], ScoreFor(q), accept, Kept(results)) == r
    ensures !done ==> ScanBest(items[k..], ScoreFor(q), accept, Kept(results))
                      == ScanBest(items[k + 1..], ScoreFor(q), accept, Kept(results'))
  {
    var rest := items[k..];
    assert rest[0] == items[k] && rest[1..] == items[k + 1..];
    results', done, r := results, false, Ok(Kept(results));
    match items[k] {
      case Failure(f) =>
        ScanFailure(rest, ScoreFor(q), accept, Kept(results));
        if !Skippable(f) {
          done := true;
        }
      case Visit(p, isDir) =>
        ScanVisit(rest, ScoreFor(q), accept, Kept(results));
        if accept(p, isDir) {
          var scored := ScoreWalked(p, isDir, q);
          match scored {
            case Err(e) =>
              done, r := true, Err(e);
            case Ok(entryScore) =>
              if (results == [] && entryScore > 1) || (results != [] && entryScore > results[0].score) {
                results' := [];
                results' := results' + [Candidate(p, entryScore)];
              }
          }
        }
    }
  }

  /** A failure at the front of the walk is skipped when skippable and ends the walk
      otherwise. */
  lemma ScanFailure(items: seq<WalkItem>, score: Scorer, accept: Acceptor, best: Option<Candidate>)
    requires items != [] && items[0].Failure?
    ensures ScanBest(items, score, accept, best)
            == if Skippable(items[0].cause) then ScanBest(items[1..], score, accept, best) else Ok(best)
  {
  }

  /** An entry at the front of the walk is passed over when rejected, and otherwise its
      score decides. */
  lemma ScanVisit(items: seq<WalkItem>, score: Scorer, accept: Acceptor, best: Option<Candidate>)
    requires items != [] && items[0].Visit?
    ensures var p, isDir := items[0].path, items[0].isDir;
      ScanBest(items, score, accept, best)
      == if !accept(p, isDir) then ScanBest(items[1..], score, accept, best)
         else match score(p, isDir)
           case Err(e) => Err(e)
           case Ok(s) => ScanBest(items[1..], score, accept, if Replaces(best, s) then Some(Candidate(p, s)) else best)
  {
  }

  /** One accepted entry of the walk loop: its extension text, then its score. */
  method ScoreWalked(p: Path, isDir: bool, q: Query) returns (r: Result<nat, Error>)
    ensures r == ScoreFor(q)(p, isDir)
  {
    var entryExtension;
    match EntryExtension(p) {
      case Err(e) => return Err(e);
      case Ok(e) => entryExtension := e;
    }
    r := ScoreEntry(p, isDir, q.baseName, q.extension, entryExtension, q.ancestors);
  }

  /** `search_file_in_dirs_by`: the loop over the roots. */
  method SearchFileInDirsBy(name: Path, searchDirs: seq<Path>, accept: Acceptor, host: Host)
    returns (r: Result<seq<Path>, Error>)
    ensures r == Search(name, searchDirs, accept, host)
    decreases name.absolute
  {
    if name.absolute {
      var parent := Parent(name);
      match FileStem(name) {
        case None =>
          return Err(NoFileStem(Render(name)));
        case Some(stem) =>
          StemAndExtension(name);
          r := SearchFileInDirsBy(Parse(stem), [parent], accept, host);
          return;
      }
    }
    var d := 0;
    while d < |searchDirs|
      invariant 0 <= d <= |searchDirs|
      invariant SearchIn(name, searchDirs, accept, host) == SearchIn(name, searchDirs[d..], accept, host)
    {
      assert searchDirs[d..][1..] == searchDirs[d + 1..];
      var baseName;
      match FileStem(name) {
        case None => return Err(NoFileStem(Render(name)));
        case Some(s) => baseName := s;
      }
      var searchDir;
      match AbsolutePath(searchDirs[d], host.doomDir, host.normalize) {
        case Err(e) => return Err(e);
        case Ok(dir) => searchDir := dir;
      }
      var best := ScanWalk(host.walk(searchDir), Query(baseName, Extension(name), Ancestors(name)), accept);
      match best {
        case Err(e) => return Err(e);
        case Ok(Some(c)) => return Ok([c.path]);
        case Ok(None) =>
      }
      d := d + 1;
    }
    return Err(FileNotFound(Render(name)));
  }

  /** A successful search answers from the first root that keeps a candidate: every
      earlier root kept nothing, and the one path is that root's best candidate. */
  lemma {:induction false} SearchInFirstProductiveRoot(name: Path, roots: seq<Path>, accept: Acceptor,
                                                       host: Host)
    requires SearchIn(name, roots, accept, host).Ok?
    ensures exists k :: (0 <= k < |roots|
      && (forall j :: 0 <= j < k ==> RootScan(name, roots[j], accept, host) == Ok(None))
      && RootScan(name, roots[k], accept, host).Ok? && RootScan(name, roots[k], accept, host).value.Some?
      && SearchIn(name, roots, accept, host).value == [RootScan(name, roots[k], accept, host).value.value.path])
  {
    if RootScan(name, roots[0], accept, host) == Ok(None) {
      SearchInFirstProductiveRoot(name, roots[1..], accept, host);
      var k :| 0 <= k < |roots[1..]|
        && (forall j :: 0 <= j < k ==> RootScan(name, roots[1..][j], accept, host) == Ok(None))
        && RootScan(name, roots[1..][k], accept, host).Ok? && RootScan(name, roots[1..][k], accept, host).value.Some?
        && SearchIn(name, roots[1..], accept, host).value == [RootScan(name, roots[1..][k], accept, host).value.value.path];
      assert forall j :: 0 < j < k + 1 ==> roots[j] == roots[1..][j - 1];
    }
  }

  /** Roots after the one that answers are never consulted: appending roots does not
      change a successful search. */
  lemma {:induction false} LaterRootsNotConsulted(name: Path, roots: seq<Path>, more: seq<Path>,
                                                  accept: Acceptor, host: Host)
    requires SearchIn(name, roots, accept, host).Ok?
    ensures SearchIn(name, roots + more, accept, host) == SearchIn(name, roots, accept, host)
  {
    assert (roots + more)[0] == roots[0];
    if RootScan(name, roots[0], accept, host) == Ok(None) {
      assert (roots + more)[1..] == roots[1..] + more;
      LaterRootsNotConsulted(name, roots[1..], more, accept, host);
    }
  }

  /** When no root keeps a candidate (an empty root list included) the search fails
      with `FileNotFound` naming the query. */
  lemma {:induction false} NoProductiveRootNotFound(name: Path, roots: seq<Path>, accept: Acceptor,
                                                    host: Host)
    requires forall j :: 0 <= j < |roots| ==> RootScan(name, roots[j], accept, host) == Ok(None)
    ensures SearchIn(name, roots, accept, host) == Err(FileNotFound(Render(name)))
  {
    if roots != [] {
      assert forall j :: 0 <= j < |roots[1..]| ==> roots[1..][j] == roots[j + 1];
      NoProductiveRootNotFound(name, roots[1..], accept, host);
    }
  }

  /** The extensions `search_files` accepts, compared case-sensitively. */
  const PwadExtensions: seq<string> := ["wad", "deh", "bex", "pk3", "pk7", "pke", "zip"]

  /** The predicate of `search_files`: an entry with a listed extension, or a directory. */
  predicate PwadEntry(p: Path, isDir: bool) {
    (if Extension(p).Some? then Extension(p).value else "") in PwadExtensions || isDir
  }

  /** The predicate of `search_file`: every entry. */
  predicate AnyEntry(p: Path, isDir: bool) {
    true
  }

  /** Every name resolved in order to the first path found for it; the first failure
      is the result. */
  function FirstOfEach(list: seq<string>, find: string -> Result<seq<Path>, Error>): (r: Result<seq<Path>, Error>)
    requires forall n :: find(n).Ok? ==> find(n).value != []
    ensures r.Ok? <==> forall i :: 0 <= i < |list| ==> find(list[i]).Ok?
    ensures r.Ok? ==> |r.value| == |list|
    ensures r.Ok? ==> forall i :: 0 <= i < |list| ==> r.value[i] == find(list[i]).value[0]
    ensures r.Err? ==> exists i :: 0 <= i < |list| && find(list[i]) == Err(r.error)
                                  && forall j :: 0 <= j < i ==> find(list[j]).Ok?
  {
    if list == [] then Ok([])
    else match find(list[0])
      case Err(e) => Err(e)
      case Ok(found) =>
        match FirstOfEach(list[1..], find)
        case Err(e) =>
          assert forall i :: 0 <= i < |list| - 1 ==> list[1..][i] == list[i + 1];
          var i :| 0 <= i < |list| - 1 && find(list[1..][i]) == Err(e)
                   && forall j :: 0 <= j < i ==> find(list[1..][j]).Ok?;
          assert find(list[i + 1]) == Err(e) && forall j :: 0 <= j < i + 1 ==> find(list[j]).Ok?;
          Err(e)
        case Ok(rest) =>
          assert forall i :: 0 < i < |list| ==> list[i] == list[1..][i - 1] && ([found[0]] + rest)[i] == rest[i - 1];
          Ok([found[0]] + rest)
  }

  /** `search_files`: every name resolved in order to its single result; the first
      failure is the result. */
  function SearchFiles(list: seq<string>, host: Host): (r: Result<seq<Path>, Error>)
    ensures r.Ok? ==> |r.value| == |list|
    ensures r.Ok? ==> forall i :: 0 <= i < |list| ==>
      SearchDirs(host.doomDir).Ok? && Search(Parse(list[i]), SearchDirs(host.doomDir).value, PwadEntry, host) == Ok([r.value[i]])
    ensures list != [] && host.doomDir.Err? ==> r == Err(host.doomDir.error)
    ensures host.doomDir.Ok? ==>
      (r.Ok? <==> forall i :: 0 <= i < |list| ==>
        Search(Parse(list[i]), [host.doomDir.value, PublicDoomDir], PwadEntry, host).Ok?)
    ensures host.doomDir.Ok? && r.Err? ==> exists i ::
      && 0 <= i < |list|
      && Search(Parse(list[i]), [host.doomDir.value, PublicDoomDir], PwadEntry, host) == Err(r.error)
      && forall j :: 0 <= j < i ==> Search(Parse(list[j]), [host.doomDir.value, PublicDoomDir], PwadEntry, host).Ok?
  {
    if list == [] then Ok([])
    else match SearchDirs(host.doomDir)
      case Err(e) => Err(e)
      case Ok(dirs) =>
        var find := n => Search(Parse(n), dirs, PwadEntry, host);
        var r := FirstOfEach(list, find);
        assert r.Ok? ==> forall i :: 0 <= i < |list| ==> find(list[i]) == Ok([r.value[i]]) by {
          if r.Ok? {
            forall i | 0 <= i < |list| ensures find(list[i]) == Ok([r.value[i]]) {
              SingleIsFirst(find(list[i]).value);
            }
          }
        }
        r
  }

  lemma SingleIsFirst<T>(s: seq<T>)
    requires |s| == 1
    ensures s == [s[0]]
  {
  }

  /** `search_file`: the name searched in the configured roots, every entry accepted. */
  function SearchFile(name: string, host: Host): (r: Result<seq<Path>, Error>)
    ensures r.Ok? ==> |r.value| == 1
    ensures host.doomDir.Err? ==> r == Err(host.doomDir.error)
    ensures host.doomDir.Ok? ==> r == Search(Parse(name), [host.doomDir.value, PublicDoomDir], AnyEntry, host)
  {
    match SearchDirs(host.doomDir)
    case Err(e) => Err(e)
    case Ok(dirs) => Search(Parse(name), dirs, AnyEntry, host)
  }

  /** `search_file_by`: the name searched in the configured roots with a caller's predicate. */
  function SearchFileBy(name: string, accept: Acceptor, host: Host): (r: Result<seq<Path>, Error>)
    ensures r.Ok? ==> |r.value| == 1
    ensures host.doomDir.Err? ==> r == Err(host.doomDir.error)
    ensures host.doomDir.Ok? ==> r == Search(Parse(name), [host.doomDir.value, PublicDoomDir], accept, host)
  {
    match SearchDirs(host.doomDir)
    case Err(e) => Err(e)
    case Ok(dirs) => Search(Parse(name), dirs, accept, host)
  }
}

=== FILE: sorted_search.dfy ===
/**
 * The older search in src/main.rs: every file entry scoring above 1 in the first
 * productive root is returned, best first. Unlike src/search.rs it skips directories,
 * stops a root's walk at any walk error, and scores inline.
 */
module SortedSearch {
  import opened Wrappers
  import opened Errors
  import opened Paths
  import opened Util
  import opened Score
  import opened Search

  /** The predicate of this variant looks at the path only. */
  type PathFilter = Path -> bool

  /** The inline scoring of the walk loop: the same steps as `score_entry`, with no
      directory halving since directories never reach it. */
  function InlineScore(entry: Path, baseName: string, extension: Option<string>, entryExtension: string,
                       ancestors: seq<Path>): Result<nat, Error>
  {
    match FileStem(entry)
    case None => Err(NoFileStem(Render(entry)))
    case Some(stem) =>
      var stemsEq := StemsEq(stem, baseName);
      var subtotal := Subtotal(stemsEq, StemsCaseEq(stem, baseName), ExtensionsMatch(extension, entryExtension));
      Ok(if stemsEq && AncestorsEq(ancestors, entry) then subtotal + 20 else subtotal)
  }

  /** The inline copy agrees with `score_entry` on every file entry. */
  lemma InlineScoreIsFileScore(entry: Path, baseName: string, extension: Option<string>, entryExtension: string,
                               ancestors: seq<Path>)
    ensures InlineScore(entry, baseName, extension, entryExtension, ancestors)
         == ScoreEntry(entry, false, baseName, extension, entryExtension, ancestors)
  {
  }

  /** The inline scorer of a query, extension text first. */
  function InlineScoreFor(q: Query): Path -> Result<nat, Error>
  {
    (p: Path) =>
      match EntryExtension(p)
      case Err(e) => Err(e)
      case Ok(ext) => InlineScore(p, q.baseName, q.extension, ext, q.ancestors)
  }

  /** The collecting pass of one root: every accepted file entry scoring above 1, in
      walk order, up to the first walk error; a scoring error aborts. */
  function Collect(items: seq<WalkItem>, score: Path -> Result<nat, Error>, accept: PathFilter)
    : Result<seq<Candidate>, Error>
  {
    if items == [] then Ok([])
    else match items[0]
      case Failure(_) => Ok([])
      case Visit(p, isDir) =>
        if isDir || !accept(p) then Collect(items[1..], score, accept)
        else match score(p)
          case Err(e) => Err(e)
          case Ok(s) =>
            Prepend(if s > 1 then [Candidate(p, s)] else [], Collect(items[1..], score, accept))
  }

  function Prepend(front: seq<Candidate>, r: Result<seq<Candidate>, Error>): Result<seq<Candidate>, Error> {
    match r
    case Err(e) => Err(e)
    case Ok(rest) => Ok(front + rest)
  }

  lemma PrependNothing(r: Result<seq<Candidate>, Error>)
    ensures Prepend([], r) == r
  {
    if r.Ok? {
      assert [] + r.value == r.value;
    }
  }

  lemma PrependTwice(a: seq<Candidate>, b: seq<Candidate>, r: Result<seq<Candidate>, Error>)
    ensures Prepend(a, Prepend(b, r)) == Prepend(a + b, r)
  {
    if r.Ok? {
      assert a + (b + r.value) == (a + b) + r.value;
    }
  }

  /** Item `i` is reached (no walk error before it), is a file entry and is accepted. */
  ghost predicate Reached(items: seq<WalkItem>, i: int, accept: PathFilter) {
    && 0 <= i < |items|
    && (forall j :: 0 <= j < i ==> items[j].Visit?)
    && items[i].Visit? && !items[i].isDir && accept(items[i].path)
  }

  lemma ReachedShift(items: seq<WalkItem>, accept: PathFilter, i: int)
    requires |items| > 0 && items[0].Visit? && 0 <= i < |items| - 1
    ensures Reached(items, i + 1, accept) == Reached(items[1..], i, accept)
  {
    assert forall j :: 0 < j <= i + 1 ==> items[j] == items[1..][j - 1];
  }

  /** A successful collecting pass holds exactly the reached entries scoring above 1,
      each with its score, and every reached entry scored without error. */
  lemma {:induction false} CollectKeepsExactly(items: seq<WalkItem>, score: Path -> Result<nat, Error>,
                                               accept: PathFilter)
    requires Collect(items, score, accept).Ok?
    ensures var rs := Collect(items, score, accept).value;
      && (forall i :: Reached(items, i, accept) ==> score(items[i].path).Ok?)
      && (forall i :: Reached(items, i, accept) && score(items[i].path).value > 1 ==>
            Candidate(items[i].path, score(items[i].path).value) in rs)
      && (forall c :: c in rs ==> c.score > 1 && exists i :: Reached(items, i, accept) && c == Candidate(items[i].path, score(items[i].path).value))
  {
    if items != [] && items[0].Visit? {
      var rs := Collect(items, score, accept).value;
      var tail := Collect(items[1..], score, accept);
      CollectKeepsExactly(items[1..], score, accept);
      forall i | 0 <= i < |items| - 1 {
        ReachedShift(items, accept, i);
      }
      assert forall i :: Reached(items, i, accept) && i > 0 ==> Reached(items[1..], i - 1, accept);
      assert forall c :: c in tail.value ==> c in rs;
      forall c | c in rs
        ensures c.score > 1 && exists i :: Reached(items, i, accept) && c == Candidate(items[i].path, score(items[i].path).value)
      {
        if c !in tail.value {
          assert Reached(items, 0, accept);
        } else {
          var i :| Reached(items[1..], i, accept) && c == Candidate(items[1..][i].path, score(items[1..][i].path).value);
          assert Reached(items, i + 1, accept);
        }
      }
    }
  }

  predicate Ascending(s: seq<Candidate>) {
    forall i, j :: 0 <= i < j < |s| ==> s[i].score <= s[j].score
  }

  predicate Descending(s: seq<Candidate>) {
    forall i, j :: 0 <= i < j < |s| ==> s[i].score >= s[j].score
  }

  /** Inserts `c` before the first element scoring at least as much, so that it stays
      ahead of equal scores that came after it. */
  function InsertByScore(c: Candidate, s: seq<Candidate>): seq<Candidate> {
    if s == [] || c.score <= s[0].score then [c] + s else [s[0]] + InsertByScore(c, s[1..])
  }

  /** `sorted_by_key(score)`: a stable sort by ascending score. */
  function SortByScore(s: seq<Candidate>): seq<Candidate> {
    if s == [] then [] else InsertByScore(s[0], SortByScore(s[1..]))
  }

  function Reverse<T>(s: seq<T>): (r: seq<T>)
    ensures |r| == |s|
    ensures forall i :: 0 <= i < |s| ==> r[i] == s[|s| - 1 - i]
  {
    seq(|s|, i requires 0 <= i < |s| => s[|s| - 1 - i])
  }

  /** The candidates with score `v`, in order. */
  function WithScore(s: seq<Candidate>, v: nat): seq<Candidate> {
    if s == [] then [] else (if s[0].score == v then [s[0]] else []) + WithScore(s[1..], v)
  }

  /** The order results are returned in: sorted ascending, then reversed. */
  function Ranked(rs: seq<Candidate>): seq<Candidate> {
    Reverse(SortByScore(rs))
  }

  lemma {:induction false} InsertByScoreAscending(c: Candidate, s: seq<Candidate>)
    requires Ascending(s)
    ensures Ascending(InsertByScore(c, s))
    ensures forall x :: x in InsertByScore(c, s) ==> x == c || x in s
    decreases |s|
  {
    if s != [] && c.score > s[0].score {
      InsertByScoreAscending(c, s[1..]);
      var t := InsertByScore(c, s[1..]);
      assert forall x :: x in t ==> s[0].score <= x.score;
      assert InsertByScore(c, s) == [s[0]] + t;
    }
  }

  lemma {:induction false} InsertByScoreMultiset(c: Candidate, s: seq<Candidate>)
    ensures multiset(InsertByScore(c, s)) == multiset(s) + multiset{c}
    decreases |s|
  {
    if s != [] && c.score > s[0].score {
      InsertByScoreMultiset(c, s[1..]);
      assert s == [s[0]] + s[1..];
    }
  }

  lemma InsertByScoreSorted(c: Candidate, s: seq<Candidate>)
    requires Ascending(s)
    ensures Ascending(InsertByScore(c, s))
    ensures multiset(InsertByScore(c, s)) == multiset(s) + multiset{c}
  {
    InsertByScoreAscending(c, s);
    InsertByScoreMultiset(c, s);
  }

  /** The sort yields an ascending permutation of its input. */
  lemma {:induction false} SortByScoreSorted(s: seq<Candidate>)
    ensures Ascending(SortByScore(s))
    ensures multiset(SortByScore(s)) == multiset(s)
  {
    if s != [] {
      SortByScoreSorted(s[1..]);
      InsertByScoreSorted(s[0], SortByScore(s[1..]));
      assert s == [s[0]] + s[1..];
    }
  }

  lemma {:induction false} WithScoreAppend(a: seq<Candidate>, b: seq<Candidate>, v: nat)
    ensures WithScore(a + b, v) == WithScore(a, v) + WithScore(b, v)
  {
    if a != [] {
      assert (a + b)[1..] == a[1..] + b;
      WithScoreAppend(a[1..], b, v);
    } else {
      assert a + b == b;
    }
  }

  lemma {:induction false} InsertByScoreStable(c: Candidate, s: seq<Candidate>, v: nat)
    ensures WithScore(InsertByScore(c, s), v) == WithScore([c] + s, v)
    decreases |s|
  {
    if s != [] && c.score > s[0].score {
      InsertByScoreStable(c, s[1..], v);
      assert ([s[0]] + InsertByScore(c, s[1..]))[1..] == InsertByScore(c, s[1..]);
      assert ([c] + s)[1..] == s;
      assert ([c] + s[1..])[1..] == s[1..];
      assert s[1..] == s[1..];
    }
  }

  /** The sort is stable: candidates of one score keep their relative order. */
  lemma {:induction false} SortByScoreStable(s: seq<Candidate>, v: nat)
    ensures WithScore(SortByScore(s), v) == WithScore(s, v)
  {
    if s != [] {
      SortByScoreStable(s[1..], v);
      InsertByScoreStable(s[0], SortByScore(s[1..]), v);
      assert ([s[0]] + SortByScore(s[1..]))[1..] == SortByScore(s[1..]);
    }
  }

  lemma {:induction false} WithScoreReverse(s: seq<Candidate>, v: nat)
    ensures WithScore(Reverse(s), v) == Reverse(WithScore(s, v))
  {
    if s != [] {
      WithScoreReverse(s[1..], v);
      assert Reverse(s) == Reverse(s[1..]) + [s[0]];
      WithScoreAppend(Reverse(s[1..]), [s[0]], v);
      assert [s[0]][1..] == [];
      var head := if s[0].score == v then [s[0]] else [];
      assert Reverse(head + WithScore(s[1..], v)) == Reverse(WithScore(s[1..], v)) + head;
    }
  }

  /** The returned order: a permutation of the collected candidates, by non-increasing
      score, with candidates of equal score in reverse walk order. */
  lemma RankedOrder(rs: seq<Candidate>, v: nat)
    ensures multiset(Ranked(rs)) == multiset(rs)
    ensures Descending(Ranked(rs))
    ensures WithScore(Ranked(rs), v) == Reverse(WithScore(rs, v))
  {
    SortByScoreSorted(rs);
    var s := SortByScore(rs);
    assert Reverse(s) == seq(|s|, i requires 0 <= i < |s| => s[|s| - 1 - i]);
    assert multiset(Reverse(s)) == multiset(s) by {
      ReverseMultiset(s);
    }
    SortByScoreStable(rs, v);
    WithScoreReverse(s, v);
  }

  lemma {:induction false} ReverseMultiset<T>(s: seq<T>)
    ensures multiset(Reverse(s)) == multiset(s)
  {
    if s != [] {
      ReverseMultiset(s[1..]);
      assert Reverse(s) == Reverse(s[1..]) + [s[0]];
      assert s == [s[0]] + s[1..];
    }
  }

  function PathsOf(rs: seq<Candidate>): (r: seq<Path>)
    ensures |r| == |rs|
    ensures forall i :: 0 <= i < |rs| ==> r[i] == rs[i].path
  {
    seq(|rs|, i requires 0 <= i < |rs| => rs[i].path)
  }

  /** The collecting pass over one root. */
  function RootCollect(name: Path, root: Path, accept: PathFilter, host: Host): Result<seq<Candidate>, Error> {
    match FileStem(name)
    case None => Err(NoFileStem(Render(name)))
    case Some(stem) =>
      match AbsolutePath(root, host.doomDir, host.normalize)
      case Err(e) => Err(e)
      case Ok(dir) => Collect(host.walk(dir), InlineScoreFor(Query(stem, Extension(name), Ancestors(name))), accept)
  }

  /** The roots in order; the first one that collects anything answers with all of its
      candidates, best first. */
  function SortedSearchIn(name: Path, roots: seq<Path>, accept: PathFilter, host: Host): (r: Result<seq<Path>, Error>)
    ensures r.Ok? ==> |r.value| >= 1
  {
    if roots == [] then Err(FileNotFound(Render(name)))
    else match RootCollect(name, roots[0], accept, host)
      case Err(e) => Err(e)
      case Ok(rs) => if rs == [] then SortedSearchIn(name, roots[1..], accept, host) else Ok(PathsOf(Ranked(rs)))
  }

  /** The search of src/main.rs as a function; an absolute name is searched as its stem
      in its parent directory. */
  function SortedSearch(name: Path, searchDirs: seq<Path>, accept: PathFilter, host: Host): (r: Result<seq<Path>, Error>)
    ensures r.Ok? ==> |r.value| >= 1
    ensures !name.absolute ==> r == SortedSearchIn(name, searchDirs, accept, host)
    ensures name.absolute && FileStem(name).None? ==> r == Err(NoFileStem(Render(name)))
    ensures name.absolute && FileStem(name).Some? ==>
      r == SortedSearchIn(Parse(FileStem(name).value), [Parent(name)], accept, host)
    decreases name.absolute
  {
    if name.absolute then
      match FileStem(name)
      case None => Err(NoFileStem(Render(name)))
      case Some(stem) =>
        StemAndExtension(name);
        SortedSearch(Parse(stem), [Parent(name)], accept, host)
    else SortedSearchIn(name, searchDirs, accept, host)
  }

  /** The walk loop: any walk error stops it, directories and rejected entries are
      skipped, and every entry scoring above 1 is pushed. */
  method CollectWalk(items: seq<WalkItem>, q: Query, accept: PathFilter) returns (r: Result<seq<Candidate>, Error>)
    ensures r == Collect(items, InlineScoreFor(q), accept)
  {
    var results: seq<Candidate> := [];
    var k := 0;
    assert items[0..] == items;
    PrependNothing(Collect(items, InlineScoreFor(q), accept));
    while k < |items|
      invariant 0 <= k <= |items|
      invariant Collect(items, InlineScoreFor(q), accept) == Prepend(results, Collect(items[k..], InlineScoreFor(q), accept))
    {
      assert items[k..][1..] == items[k + 1..];
      match items[k] {
        case Failure(_) =>
          assert results + [] == results;
          break;
        case Visit(p, isDir) =>
          if isDir || !accept(p) {
            k := k + 1;
            continue;
          }
          var entryExtension;
          match EntryExtension(p) {
            case Err(e) => return Err(e);
            case Ok(e) => entryExtension := e;
          }
          var score;
          match InlineScore(p, q.baseName, q.extension, entryExtension, q.ancestors) {
            case Err(e) => return Err(e);
            case Ok(s) => score := s;
          }
          var pushed := if score > 1 then [Candidate(p, score)] else [];
          PrependTwice(results, pushed, Collect(items[k + 1..], InlineScoreFor(q), accept));
          results := results + pushed;
          k := k + 1;
      }
    }
    assert k == |items| ==> items[k..] == [] && results + [] == results;
    return Ok(results);
  }

  /** `search_file_in_dirs_by` of src/main.rs: the loop over the roots. */
  method SearchFileInDirsBy(name: Path, searchDirs: seq<Path>, accept: PathFilter, host: Host)
    returns (r: Result<seq<Path>, Error>)
    ensures r == SortedSearch(name, searchDirs, accept, host)
    decreases name.absolute
  {
    if name.absolute {
      var parent := Parent(name);
      match FileStem(name) {
        case None =>
          return Err(NoFileStem(Render(name)));
        case Some(stem) =>
          StemAndExtension(name);
          r := SearchFileInDirsBy(Parse(stem), [parent], accept, host);
          return;
      }
    }
    var d := 0;
    while d < |searchDirs|
      invariant 0 <= d <= |searchDirs|
      invariant SortedSearchIn(name, searchDirs, accept, host) == SortedSearchIn(name, searchDirs[d..], accept, host)
    {
      assert searchDirs[d..][1..] == searchDirs[d + 1..];
      var baseName;
      match FileStem(name) {
        case None => return Err(NoFileStem(Render(name)));
        case Some(s) => baseName := s;
      }
      var searchDir;
      match AbsolutePath(searchDirs[d], host.doomDir, host.normalize) {
        case Err(e) => return Err(e);
        case Ok(dir) => searchDir := dir;
      }
      var results := CollectWalk(host.walk(searchDir), Query(baseName, Extension(name), Ancestors(name)), accept);
      match results {
        case Err(e) => return Err(e);
        case Ok(rs) =>
          if rs != [] {
            return Ok(PathsOf(Ranked(rs)));
          }
      }
      d := d + 1;
    }
    return Err(FileNotFound(Render(name)));
  }

  /** The predicate of `search_files` in src/main.rs: a listed extension, compared
      case-sensitively. */
  predicate PwadFile(p: Path) {
    (if Extension(p).Some? then Extension(p).value else "") in PwadExtensions
  }

  /** `search_files` of src/main.rs: every name resolved in order to its best result. */
  function SearchFiles(list: seq<string>, host: Host): (r: Result<seq<Path>, Error>)
    ensures r.Ok? ==> |r.value| == |list|
    ensures r.Ok? ==> forall i :: 0 <= i < |list| ==>
      SearchDirs(host.doomDir).Ok?
      && var found := SortedSearch(Parse(list[i]), SearchDirs(host.doomDir).value, PwadFile, host);
         found.Ok? && r.value[i] == found.value[0]
    ensures list != [] && host.doomDir.Err? ==> r == Err(host.doomDir.error)
    ensures host.doomDir.Ok? ==>
      (r.Ok? <==> forall i :: 0 <= i < |list| ==>
        SortedSearch(Parse(list[i]), [host.doomDir.value, PublicDoomDir], PwadFile, host).Ok?)
    ensures host.doomDir.Ok? && r.Err? ==> exists i ::
      && 0 <= i < |list|
      && SortedSearch(Parse(list[i]), [host.doomDir.value, PublicDoomDir], PwadFile, host) == Err(r.error)
      && forall j :: 0 <= j < i ==> SortedSearch(Parse(list[j]), [host.doomDir.value, PublicDoomDir], PwadFile, host).Ok?
  {
    if list == [] then Ok([])
    else match SearchDirs(host.doomDir)
      case Err(e) => Err(e)
      case Ok(dirs) => FirstOfEach(list, n => SortedSearch(Parse(n), dirs, PwadFile, host))
  }

  /** `search_file` of src/main.rs: every candidate for the name, best first, from the
      first configured root holding one. */
  function SearchFile(name: string, host: Host): (r: Result<seq<Path>, Error>)
    ensures r.Ok? ==> |r.value| >= 1
    ensures host.doomDir.Err? ==> r == Err(host.doomDir.error)
    ensures host.doomDir.Ok? ==> r == SortedSearch(Parse(name), [host.doomDir.value, PublicDoomDir], (p: Path) => true, host)
  {
    match SearchDirs(host.doomDir)
    case Err(e) => Err(e)
    case Ok(dirs) => SortedSearch(Parse(name), dirs, (p: Path) => true, host)
  }

  /** `search_file_by` of src/main.rs: the same with the caller's filter. */
  function SearchFileBy(name: string, accept: PathFilter, host: Host): (r: Result<seq<Path>, Error>)
    ensures r.Ok? ==> |r.value| >= 1
    ensures host.doomDir.Err? ==> r == Err(host.doomDir.error)
    ensures host.doomDir.Ok? ==> r == SortedSearch(Parse(name), [host.doomDir.value, PublicDoomDir], accept, host)
  {
    match SearchDirs(host.doomDir)
    case Err(e) => Err(e)
    case Ok(dirs) => SortedSearch(Parse(name), dirs, accept, host)
  }

  /** Every path the sorted search returns passed the caller's filter. */
  lemma {:induction false} SortedSearchInAccepted(name: Path, roots: seq<Path>, accept: PathFilter, host: Host)
    requires SortedSearchIn(name, roots, accept, host).Ok?
    ensures forall p :: p in SortedSearchIn(name, roots, accept, host).value ==> accept(p)
  {
    var rc := RootCollect(name, roots[0], accept, host);
    if rc.value == [] {
      SortedSearchInAccepted(name, roots[1..], accept, host);
    } else {
      var stem := FileStem(name).value;
      var dir := AbsolutePath(roots[0], host.doomDir, host.normalize).value;
      var items := host.walk(dir);
      var q := Query(stem, Extension(name), Ancestors(name));
      CollectKeepsExactly(items, InlineScoreFor(q), accept);
      RankedOrder(rc.value, 0);
      var ranked := Ranked(rc.value);
      forall p | p in PathsOf(ranked) ensures accept(p) {
        var i :| 0 <= i < |ranked| && PathsOf(ranked)[i] == p;
        assert ranked[i] in multiset(rc.value);
        var j :| Reached(items, j, accept) && ranked[i] == Candidate(items[j].path, InlineScoreFor(q)(items[j].path).value);
      }
    }
  }

  lemma SortedSearchAccepted(name: Path, searchDirs: seq<Path>, accept: PathFilter, host: Host)
    requires SortedSearch(name, searchDirs, accept, host).Ok?
    ensures forall p :: p in SortedSearch(name, searchDirs, accept, host).value ==> accept(p)
  {
    if name.absolute {
      StemAndExtension(name);
      SortedSearchInAccepted(Parse(FileStem(name).value), [Parent(name)], accept, host);
    } else {
      SortedSearchInAccepted(name, searchDirs, accept, host);
    }
  }
}

=== FILE: text.dfy ===
/**
 * The string operations of Rust's `str` that the launcher relies on: ASCII case
 * folding, Unicode whitespace, `trim`, `split(char)`, `split_whitespace` and joining.
 * Strings are sequences of Unicode scalar values.
 */
module Text {

  /** U+FFFD, the character that lossy conversion puts in place of a unit that is not
      valid text. An OS string holding such a unit is written with this character. */
  const Replacement: char := '\U{FFFD}'

  /** `OsStr::to_str` succeeds: no unit of the string is undecodable. */
  predicate IsText(s: string) {
    forall i :: 0 <= i < |s| ==> s[i] != Replacement
  }

  /** `char::to_ascii_lowercase` */
  function AsciiLower(c: char): char {
    if 'A' <= c <= 'Z' then (c as int + 32) as char else c
  }

  /** The string with every ASCII upper-case letter lowered. */
  function LowerAscii(s: string): (r: string)
    ensures |r| == |s|
  {
    seq(|s|, i requires 0 <= i < |s| => AsciiLower(s[i]))
  }

  /** `str::eq_ignore_ascii_case` */
  predicate EqIgnoreAsciiCase(a: string, b: string) {
    |a| == |b| && forall i :: 0 <= i < |a| ==> AsciiLower(a[i]) == AsciiLower(b[i])
  }

  /** Comparing ASCII-case-insensitively is comparing the lowered strings. */
  lemma EqIgnoreAsciiCaseIsLoweredEquality(a: string, b: string)
    ensures EqIgnoreAsciiCase(a, b) <==> LowerAscii(a) == LowerAscii(b)
  {
    if LowerAscii(a) == LowerAscii(b) {
      forall i | 0 <= i < |a| ensures AsciiLower(a[i]) == AsciiLower(b[i]) {
        assert LowerAscii(a)[i] == LowerAscii(b)[i];
      }
    }
  }

  /** `char::is_whitespace`: the Unicode White_Space property. */
  predicate IsWhitespace(c: char) {
    || ('\U{0009}' <= c <= '\U{000D}') || c == ' ' || c == '\U{0085}' || c == '\U{00A0}'
    || c == '\U{1680}' || ('\U{2000}' <= c <= '\U{200A}') || c == '\U{2028}' || c == '\U{2029}'
    || c == '\U{202F}' || c == '\U{205F}' || c == '\U{3000}'
  }

  predicate IsBlank(s: string) {
    forall i :: 0 <= i < |s| ==> IsWhitespace(s[i])
  }

  /** `str::trim_start`: drops the leading whitespace and nothing else. */
  function TrimStart(s: string): (r: string)
    ensures |r| <= |s| && r == s[|s| - |r|..]
    ensures r == [] || !IsWhitespace(r[0])
    decreases |s|
  {
    if s != [] && IsWhitespace(s[0]) then TrimStart(s[1..]) else s
  }

  /** `str::trim_end`: drops the trailing whitespace and nothing else. */
  function TrimEnd(s: string): (r: string)
    ensures |r| <= |s| && r == s[..|r|]
    ensures r == [] || !IsWhitespace(r[|r| - 1])
    decreases |s|
  {
    if s != [] && IsWhitespace(s[|s| - 1]) then TrimEnd(s[..|s| - 1]) else s
  }

  /** What `trim_start` drops is whitespace. */
  lemma {:induction false} TrimStartDropsBlank(s: string)
    ensures IsBlank(s[..|s| - |TrimStart(s)|])
    decreases |s|
  {
    if s != [] && IsWhitespace(s[0]) {
      TrimStartDropsBlank(s[1..]);
      var n := |s| - |TrimStart(s)|;
      assert s[..n] == [s[0]] + s[1..][..n - 1];
    }
  }

  /** What `trim_end` drops is whitespace. */
  lemma {:induction false} TrimEndDropsBlank(s: string)
    ensures IsBlank(s[|TrimEnd(s)|..])
    decreases |s|
  {
    if s != [] && IsWhitespace(s[|s| - 1]) {
      TrimEndDropsBlank(s[..|s| - 1]);
      var n := |TrimEnd(s)|;
      assert s[n..] == s[..|s| - 1][n..] + [s[|s| - 1]];
    }
  }

  /** `str::trim` */
  function Trim(s: string): string {
    TrimEnd(TrimStart(s))
  }

  /** Trimming leaves an infix of the input: what `trim_start` skipped, then the result. */
  lemma TrimmedInfix(s: string)
    ensures var i := |s| - |TrimStart(s)|; Trim(s) == s[i..i + |Trim(s)|]
  {
    var t := TrimStart(s);
    PrefixOfSuffix(s, t, TrimEnd(t), |s| - |t|);
  }

  /** A prefix of a suffix is an infix. */
  lemma PrefixOfSuffix<T>(s: seq<T>, t: seq<T>, r: seq<T>, i: nat)
    requires i <= |s| && t == s[i..]
    requires |r| <= |t| && r == t[..|r|]
    ensures r == s[i..i + |r|]
  {
  }

  /** Trimming leaves no whitespace at either end. */
  lemma TrimmedEnds(s: string)
    ensures Trim(s) == [] || (!IsWhitespace(Trim(s)[0]) && !IsWhitespace(Trim(s)[|Trim(s)| - 1]))
  {
    var t := TrimStart(s);
    var r := TrimEnd(t);
    if r != [] {
      assert r[0] == t[0];
    }
  }

  /** Trimming leaves nothing exactly when the input is blank. */
  lemma TrimEmptyIffBlank(s: string)
    ensures Trim(s) == [] <==> IsBlank(s)
  {
    var t := TrimStart(s);
    if Trim(s) == [] {
      TrimStartDropsBlank(s);
      TrimEndDropsBlank(t);
      assert t == [] by { assert t[0..] == t; }
      assert s[..|s|] == s;
    }
  }

  /** The first position of `c` in `s`. */
  function IndexOf(s: string, c: char): (k: nat)
    requires c in s
    ensures k < |s| && s[k] == c && c !in s[..k]
  {
    if s[0] == c then 0
    else
      assert c in s[1..];
      var k := IndexOf(s[1..], c);
      assert s[..k + 1] == [s[0]] + s[1..][..k];
      k + 1
  }

  /** The last position of `c` in `s`, or -1 when `c` does not occur. */
  function LastIndexOf(s: string, c: char): (k: int)
    ensures -1 <= k < |s|
    ensures k == -1 <==> c !in s
    ensures k >= 0 ==> s[k] == c && c !in s[k + 1..]
  {
    if s == [] then -1
    else if s[|s| - 1] == c then |s| - 1
    else
      var k := LastIndexOf(s[..|s| - 1], c);
      assert s == s[..|s| - 1] + [s[|s| - 1]];
      k
  }

  /** `str::split(sep)`: the pieces between the separators, empty pieces included. */
  function Split(s: string, sep: char): (parts: seq<string>)
    ensures |parts| >= 1
    ensures forall i :: 0 <= i < |parts| ==> sep !in parts[i]
    decreases |s|
  {
    if sep in s then
      var k := IndexOf(s, sep);
      [s[..k]] + Split(s[k + 1..], sep)
    else [s]
  }

  /** `[String]::join(sep)` for a one-character separator. */
  function Join(parts: seq<string>, sep: char): string {
    if parts == [] then ""
    else if |parts| == 1 then parts[0]
    else parts[0] + [sep] + Join(parts[1..], sep)
  }

  /** Joining the pieces of a split gives back the string. */
  lemma {:induction false} JoinSplit(s: string, sep: char)
    ensures Join(Split(s, sep), sep) == s
    decreases |s|
  {
    if sep in s {
      var k := IndexOf(s, sep);
      var rest := Split(s[k + 1..], sep);
      JoinSplit(s[k + 1..], sep);
      JoinCons(s[..k], rest, sep);
      Around(s, k);
    }
  }

  /** Joining a piece in front of at least one more puts a separator between them. */
  lemma JoinCons(a: string, rest: seq<string>, sep: char)
    requires |rest| >= 1
    ensures Join([a] + rest, sep) == a + [sep] + Join(rest, sep)
  {
    assert ([a] + rest)[1..] == rest;
  }

  /** A sequence is what comes before position `k`, the element there, and the rest. */
  lemma Around<T>(s: seq<T>, k: nat)
    requires k < |s|
    ensures s == s[..k] + [s[k]] + s[k + 1..]
  {
  }

  /** Splitting a join of separator-free pieces gives back the pieces. */
  lemma {:induction false} SplitJoin(parts: seq<string>, sep: char)
    requires |parts| >= 1
    requires forall i :: 0 <= i < |parts| ==> sep !in parts[i]
    ensures Split(Join(parts, sep), sep) == parts
  {
    if |parts| > 1 {
      var s := Join(parts, sep);
      assert s == parts[0] + [sep] + Join(parts[1..], sep);
      assert sep in s by { assert s[|parts[0]|] == sep; }
      var k := IndexOf(s, sep);
      assert k == |parts[0]|;
      assert s[..k] == parts[0];
      assert s[k + 1..] == Join(parts[1..], sep);
      SplitJoin(parts[1..], sep);
    }
  }

  /** The length of the word at the front of `s`: the characters before the first
      whitespace. */
  function WordEnd(s: string): (k: nat)
    ensures k <= |s|
    ensures forall i :: 0 <= i < k ==> !IsWhitespace(s[i])
    ensures k == |s| || IsWhitespace(s[k])
  {
    if s == [] || IsWhitespace(s[0]) then 0 else 1 + WordEnd(s[1..])
  }

  /** `str::split_whitespace`: the maximal runs of non-whitespace, in order. */
  function SplitWhitespace(s: string): (words: seq<string>)
    ensures forall i :: 0 <= i < |words| ==> words[i] != []
    ensures forall i, j :: 0 <= i < |words| && 0 <= j < |words[i]| ==> !IsWhitespace(words[i][j])
    decreases |s|
  {
    if s == [] then []
    else if IsWhitespace(s[0]) then SplitWhitespace(s[1..])
    else
      var k := WordEnd(s);
      [s[..k]] + SplitWhitespace(s[k..])
  }

  /** `split_whitespace().next().is_none()` holds exactly for blank input. */
  lemma {:induction false} SplitWhitespaceEmptyIffBlank(s: string)
    ensures SplitWhitespace(s) == [] <==> IsBlank(s)
    decreases |s|
  {
    if s != [] && IsWhitespace(s[0]) {
      SplitWhitespaceEmptyIffBlank(s[1..]);
      assert IsBlank(s) <==> IsBlank(s[1..]) by {
        if IsBlank(s[1..]) {
          forall i | 0 <= i < |s| ensures IsWhitespace(s[i]) {
            if i > 0 { assert s[i] == s[1..][i - 1]; }
          }
        }
      }
    }
  }
}

=== FILE: util.dfy ===
/** src/util.rs: making a path absolute, and the Windows slash conversion. */
module Util {
  import opened Wrappers
  import opened Errors
  import opened Paths

  /** `fix_slashes`: every '/' of the path's text becomes '\\'; every other unit and the
      length are kept. */
  function FixSlashes(s: string): (r: string)
    ensures |r| == |s|
    ensures '/' !in r
    ensures forall i :: 0 <= i < |s| && s[i] != '/' ==> r[i] == s[i]
    ensures forall i :: 0 <= i < |s| && s[i] == '/' ==> r[i] == '\\'
  {
    seq(|s|, i requires 0 <= i < |s| => if s[i] == '/' then '\\' else s[i])
  }

  /** Converting slashes a second time changes nothing. */
  lemma FixSlashesIdempotent(s: string)
    ensures FixSlashes(FixSlashes(s)) == FixSlashes(s)
  {
  }

  /** `absolute_path`: an absolute path is kept; a relative one is joined onto the Doom
      directory and normalized, and a failure of either is returned. The normalization
      (`normpath`'s `normalize`) is the parameter `normalize`. */
  function AbsolutePath(p: Path, doomDir: Result<Path, Error>, normalize: Path -> Result<Path, IoKind>)
    : (r: Result<Path, Error>)
    ensures p.absolute ==> r == Ok(p)
    ensures !p.absolute && doomDir.Err? ==> r == Err(doomDir.error)
    ensures !p.absolute && doomDir.Ok? && normalize(Joined(doomDir.value, p)).Err? ==>
      r == Err(Io(normalize(Joined(doomDir.value, p)).error))
    ensures !p.absolute && doomDir.Ok? && normalize(Joined(doomDir.value, p)).Ok? ==>
      r == Ok(normalize(Joined(doomDir.value, p)).value)
  {
    if p.absolute then Ok(p)
    else match doomDir
      case Err(e) => Err(e)
      case Ok(d) =>
        match normalize(Joined(d, p))
        case Err(k) => Err(Io(k))
        case Ok(q) => Ok(q)
  }

  /** The text `absolute_path` hands back: on Windows builds with the slashes converted. */
  function AbsolutePathText(p: Path, doomDir: Result<Path, Error>, normalize: Path -> Result<Path, IoKind>,
                            windows: bool): (r: Result<string, Error>)
    ensures !windows && p.absolute ==> r == Ok(Render(p))
    ensures windows && r.Ok? ==> '/' !in r.value
    ensures r.Err? <==> AbsolutePath(p, doomDir, normalize).Err?
  {
    match AbsolutePath(p, doomDir, normalize)
    case Err(e) => Err(e)
    case Ok(q) => Ok(if windows then FixSlashes(Render(q)) else Render(q))
  }
}

=== FILE: wrappers.dfy ===
/** Optional values and fallible results, as the Rust code uses `Option` and `Result`. */
module Wrappers {

  datatype Option<+T> = None | Some(value: T)

  datatype Result<+T, +E> = Ok(value: T) | Err(error: E)
}
